=== FILE: README.md ===
# translator_po, modelled in Dafny

translator_po batch-translates gettext catalogs (`.po`/`.pot` files) with a
machine translator. It comes in three near-copies:

- the package modules under `src/translator_po/`. These cover the processor,
  the cache, the configuration, the translator factory and the splitter;
- the standalone `src/translator_po/main.py`, which carries its own copies of
  those classes and the command line;
- the legacy single-file script `translator_po.py`.

This project models the pure logic around the external calls, shared pieces
once:

- **Placeholder masking** (`placeholders.dfy`). `%(name)s`, `%x` and `%%` are
  found by a left-to-right scan, replaced by `PLACEHOLDER_<i>` with
  `str.replace`, and restored afterwards.
- **The per-entry decision** (`processor.dfy`, `legacy.dfy`). This covers the
  length cut-off, a cache hit against a translator call, and the failure
  path.
- **Partitioning into chunks** (`chunking.dfy`). This is `max(1, n // jobs)`
  with Python's floor division.
- **The catalog rewrite** (`catalog.dfy`). It keeps only the previously
  untranslated entries.
- **Output-file naming and the skip/force rule** (`paths.dfy`). This is done
  over a model of `posixpath`.
- **The SQLite cache** as a keyed store (`cache.dfy`). This covers cache-file
  selection and rotation at 1 MiB.
- **The configuration** (`config.dfy`): its defaults, its location and
  create-on-first-load.
- **The two translator factories** (`factory.dfy`): the package's in-place
  parameter merge and the legacy eight-row parameter table.
- **The splitter's part naming** (`splitter.dfy`).
- **The command-line dispatch and folder loops** (`cli.dfy`).

Modelling choices:

- The translator is a partial function `string -> Option<string>`. `None`
  stands for an exception.
- The MD5 digest and the size of a database file are parameters.
- The file system is a map from path to parsed JSON for the configuration,
  and a function from path to `Input` (`Unreadable`, `Blank` or a parsed
  catalog) for catalog files.
- A catalog is a sequence of `(msgid, msgstr, translated)` entries plus
  metadata.
- `Variant` tells the package and `main.py` apart where they differ.
- `LegacyProcess` and the `Legacy*` members model the legacy script.

## Model

| member | source | states |
|---|---|---|
| Text.ZFillNat | src/translator_po/po_file_splitter.py:44 | `str(n).zfill(w)`, when `n` has at most `w` digits, is exactly `w` digits long and still denotes `n` |
| Text.NatToStringLengthMono | src/translator_po/po_file_splitter.py:37 | a larger number never has fewer decimal digits, so `len(str(num_split))` bounds every part number up to `num_split` |
| Text.EqualWidthDigitsOrder | src/translator_po/po_file_splitter.py:37-44 | among digit strings of one length, numeric order is code-point order |
| Text.IntToStringRoundTrip | src/translator_po/cache_handler.py:23-30 | `int(str(n)) == n`, so the index written into `cache_<n>.db` is the index read back |
| Placeholders.MatchLengthSpec | src/translator_po/po_file_processor.py:61 | the scanner finds a match of length `n` at the start of a text exactly when its first `n` characters are `%(\w+)s`, `%\w` or `%%` |
| Placeholders.FindAll | src/translator_po/po_file_processor.py:61 | every item `re.findall` returns is a placeholder |
| Placeholders.TokenizeRender | src/translator_po/po_file_processor.py:61 | the scan's matches, together with the characters between them, spell the message id again |
| Placeholders.ScanIsUnique | src/translator_po/po_file_processor.py:61 | any left-to-right, non-overlapping scan of a text is the one computed, so the match list is exactly the regex's matches |
| Placeholders.ExampleScan | src/translator_po/po_file_processor.py:61 | in `%d%%d%P` the `%d` after `%%` is not a match: the list is `%d`, `%%`, `%P` |
| Placeholders.MarkerInjective | src/translator_po/po_file_processor.py:65 | markers 0 to 9 are pairwise different |
| Placeholders.MaskIsTokenwise | src/translator_po/po_file_processor.py:62-67 | with no `%%`, no `PLACEHOLDER_` and at most ten matches, the masked text is the message id with each match replaced by the marker of its first occurrence, and every other character kept |
| Placeholders.MaskRestoreRoundTrip | src/translator_po/po_file_processor.py:62-88 | under the same three conditions, restoring the untranslated masked text gives the message id back |
| Placeholders.PercentPercentBreaksRoundTrip | src/translator_po/po_file_processor.py:61-88 | without the `%%` condition the round trip fails: `%d%%d%P` comes back as `%d%PLACEHOLDER_0%P` |
| Placeholders.MarkerPrefixCollision | src/translator_po/po_file_processor.py:65-88 | without the ten-match condition it fails too: marker 1 is a prefix of marker 10, and restoring it rewrites the front of marker 10 |
| Chunking.FloorDiv | src/translator_po/po_file_processor.py:123 | Python's `//` raises `ZeroDivisionError` exactly for a zero divisor, and otherwise rounds toward minus infinity for either sign |
| Chunking.ChunkSize | src/translator_po/po_file_processor.py:123 | `max(1, n // jobs)` fails only for `jobs == 0`, is at least 1, and is 1 for every negative `jobs` |
| Chunking.Partition | src/translator_po/po_file_processor.py:122-124 | slicing into chunks fails exactly when `jobs` is zero |
| Chunking.ChunksPartition | src/translator_po/po_file_processor.py:124 | the chunks concatenate back to the entries; every chunk is non-empty, all but the last have the chunk size, and there are `ceil(n / size)` of them |
| Chunking.ChunkCountBounds | src/translator_po/po_file_processor.py:123-124 | with `1 <= jobs <= n` the chunk count is between `jobs` and `2 * jobs - 1`, and exceeds `jobs` whenever `jobs` does not divide `n` |
| Chunking.TenEntriesThreeJobs | src/translator_po/po_file_splitter.py:33-34 | ten entries in three give four chunks, the last of size 1 |
| Catalog.Untranslated | src/translator_po/po_file_processor.py:122 | the selection is a sub-multiset of the entries, and none of them is translated |
| Catalog.UntranslatedCounts | src/translator_po/po_file_processor.py:122 | every entry not yet translated is selected as many times as it occurs, and no translated entry is selected |
| Catalog.UntranslatedInOrder | src/translator_po/po_file_processor.py:122 | the selection keeps the catalog order: its `k`-th entry is the entry at the `k`-th untranslated position |
| Catalog.UntranslatedComplete | src/translator_po/po_file_processor.py:122 | every untranslated entry is selected |
| Catalog.UntranslatedIdempotent | src/translator_po/po_file_processor.py:122 | selecting twice selects the same entries |
| Catalog.UpdateMetadata | src/translator_po/main.py:422-424 | only `Last-Translator` and `Language-Team` are set, to the author; every other header is kept |
| Catalog.Rewrite | src/translator_po/po_file_processor.py:147-152 | the old entries are dropped: the new entries are the chunk results laid end to end, each chunk's entries in order at that chunk's offset; the two team headers are set to the author and every other header is kept |
| Catalog.FlattenPermutation | src/translator_po/po_file_processor.py:131-148 | chunk results collected in any completion order concatenate to a rearrangement of the same entries |
| Cache.PreKeyInjective | src/translator_po/cache_handler.py:53-55 | the key text determines the four fields when the languages and translator name contain no colon |
| Cache.PreKeyCollision | src/translator_po/cache_handler.py:53-55 | with colons two requests share a key: `("a:b", "c")` and `("a", "b:c")` |
| Cache.CacheFiles | src/translator_po/cache_handler.py:21-22 | the candidates are exactly the listed names of the form `cache_*.db` |
| Cache.SelectCacheFile | src/translator_po/cache_handler.py:20-32 | with no cache file the handler uses `cache_0.db`; a failure is the `ValueError` of `int()` |
| Cache.SelectCacheFileSpec | src/translator_po/cache_handler.py:20-32 | the chosen file has the numerically largest index, or is the next index when that file is at least 1 MiB |
| Cache.SelectCacheFileFails | src/translator_po/cache_handler.py:21-29 | selection fails exactly when some cache file's index is not a number |
| Cache.NumericNotLexicographic | src/translator_po/cache_handler.py:21-24 | of `cache_9.db` and `cache_10.db` the second is chosen in either listing order, though it sorts first as text |
| Cache.FullFileSelect | src/translator_po/cache_handler.py:28-30 | a single full file `cache_<n>.db` makes the handler use `cache_<n+1>.db` |
| Cache.Open | src/translator_po/cache_handler.py:11-18 | a new handler uses the selected file and has no connection yet |
| Cache.Connect | src/translator_po/cache_handler.py:34-51 | a connection is made, creating the file, only when none was ever set; the rows are untouched |
| Cache.Get | src/translator_po/cache_handler.py:57-67 | a lookup returns the row stored under the digest of the key text in the cursor's file, or `None` |
| Cache.Insert | src/translator_po/cache_handler.py:72-78 | `INSERT OR REPLACE` sets one key of one file and changes no other file |
| Cache.Save | src/translator_po/cache_handler.py:69-82 | as written: a save stores the row in the cursor's file, and fails on `commit` exactly when the connection was dropped by an earlier rotation |
| Cache.SaveReconnecting | src/translator_po/cache_handler.py:69-82 | as intended: a save stores the row and never leaves the handler without a way to reconnect |
| Cache.GetAfterSave | src/translator_po/cache_handler.py:57-79 | a lookup right after a successful save of the same fields returns the saved text |
| Cache.LastWriteWins | src/translator_po/cache_handler.py:72-79 | of two saves of the same fields, the second is read back |
| Cache.GetUnsaved | src/translator_po/cache_handler.py:66-67 | a key that no file holds is a miss |
| Cache.RotationBreaksLaterSaves | src/translator_po/cache_handler.py:80-82 | after a rotating save every later save through the same handler raises `AttributeError` (the connection check at line 35 only asks whether the attribute exists), and lookups keep reading the old file |
| Cache.RotationFirstSave | src/translator_po/cache_handler.py:80-82 | a save that fills `cache_0.db` moves the handler to `cache_1.db` with the connection set to `None` |
| Cache.RotationSecondSave | src/translator_po/cache_handler.py:80-82 | the next save then fails, because the check at line 35 still finds the attribute set to `None` |
| Cache.ReconnectingNeverDrops | src/translator_po/cache_handler.py:80-82 | with reconnection no save fails on a missing connection |
| Cache.ReconnectingFirstSave | src/translator_po/cache_handler.py:80-82 | with reconnection the filling save leaves the handler on `cache_1.db`, ready to connect |
| Cache.ReconnectingSecondSave | src/translator_po/cache_handler.py:80-82 | with reconnection the next save lands in `cache_1.db`, and `cache_0.db` keeps its row |
| Paths.Basename | src/translator_po/po_file_processor.py:40 | `basename` is the slash-free tail of the path, and a slash precedes it whenever it is not the whole path |
| Paths.SplitExt | src/translator_po/po_file_processor.py:159-163 | the stem and the extension concatenate back to the name; an extension is a dot followed by neither dots nor slashes, and the stem's last component then has a character other than a dot or slash; the extension is empty exactly when no dot follows such a character in the last component |
| Paths.SplitExtOf | src/translator_po/po_file_processor.py:159-163 | `stem + ".po"` and `stem + ".pot"` split into that stem and their extension |
| Paths.JoinSplit | src/translator_po/po_file_processor.py:160-167 | `basename` and `dirname` take `join(a, name)` apart again |
| Paths.FlatOutputParts | src/translator_po/po_file_processor.py:162-167 | the flat layout writes `<base>_<lang>.po` directly into the output folder |
| Paths.OdooOutputParts | src/translator_po/po_file_processor.py:158-167 | the Odoo layout writes `<lang>.po` into `<out>/<base>/i18n` |
| Paths.PoAndPotCollide | src/translator_po/main.py:277-280 | `a.po` and `a.pot` get the same flat output file |
| Config.DefaultConfig | src/translator_po/config_handler.py:10-23 | the defaults hold twelve keys: GoogleTranslator, `id` to `en`, a length limit of 300 and eight translator blocks |
| Config.ConfigDir | src/translator_po/config_handler.py:33-40 | with a command-line path the directory is that of its absolute path; otherwise it is `~/.translator_po` when installed under site-packages, else the module's directory |
| Config.RelativeConfigDir | src/translator_po/config_handler.py:33-35 | for `-c dir/name` the directory is `dir` under the working directory |
| Config.ConfigPathTrailingSlash | src/translator_po/config_handler.py:29-35 | `-c conf/` looks in the working directory itself, because `abspath` drops the trailing slash, and the path it opens is `<cwd>/conf/`, a directory |
| Paths.AbsPathTrailingSlash | src/translator_po/config_handler.py:35 | `abspath` of a relative name with a trailing slash is the name under the working directory without the slash |
| Config.ConfigPathAbsolute | src/translator_po/config_handler.py:29 | an absolute configuration file is used as given |
| Config.ConfigPathBareName | src/translator_po/config_handler.py:29-35 | a bare file name given on the command line is found in the working directory |
| Config.ConfigPathDoubled | src/translator_po/config_handler.py:29-35 | as written, a relative command-line path `dir/name` (with a non-empty name) has its directory part applied twice |
| Config.ConfigPathCorrected | src/translator_po/config_handler.py:25-35 | as intended, the command-line path names the file itself, made absolute |
| Config.CorrectedAgrees | src/translator_po/config_handler.py:29-35 | the two agree on absolute paths that do not end in a slash and on bare file names |
| Config.LoadConfig | src/translator_po/config_handler.py:42-53 | the empty path is a `FileNotFoundError`; a path that is an existing directory or ends in a slash is an `IsADirectoryError` and writes nothing; otherwise a missing file is created with the defaults when its directory exists, and is a `FileNotFoundError` otherwise; an existing file is never overwritten; `main.py` fails on a content that is not an object with `translator`, while the legacy script loads any JSON content |
| Config.LoadConfigIdempotent | src/translator_po/config_handler.py:44-50 | loading again reads the same configuration and writes nothing |
| Factory.TranslatorName | src/translator_po/translator_factory.py:16-36 | the translator must be one of the twelve names; a JSON object as the name is a `TypeError` (an unhashable dictionary key), a missing key or any other unknown name a `KeyError` |
| Factory.GetTranslatorInstance | src/translator_po/translator_factory.py:34-39 | building succeeds exactly when the name is known, its block, if any, is an object, and both languages are set (the translator class's own constructor is assumed to succeed) |
| Factory.MergeSpec | src/translator_po/translator_factory.py:37-38 | the parameters hold every key of the block, and `source`/`target` always equal the configured languages |
| Factory.MergeMutatesConfig | src/translator_po/translator_factory.py:37-38 | the update writes through to the configuration's own block; nothing else changes |
| Factory.MergeIdempotent | src/translator_po/translator_factory.py:37-38 | building again from the mutated configuration gives the same result |
| Factory.DefaultBuildsGoogle | src/translator_po/translator_factory.py:34-39 | the defaults build GoogleTranslator from the two languages alone |
| Factory.ReadKeys | translator_po.py:74-122 | reading a block's keys succeeds exactly when the block is an object holding them all, and returns those values |
| Factory.TableInstance | translator_po.py:65-125 | a table-driven build succeeds exactly when the name, both languages and every row of the table are readable; the chosen row's keys, each with the value of that key in the translator's block, or only the languages, form the parameters |
| Factory.LegacyTranslatorInstance | translator_po.py:65-125 | the legacy build reads all eight blocks, whatever the translator; a configuration that is not an object fails there with a `TypeError` |
| Factory.LegacyNeedsEveryBlock | translator_po.py:72-124 | without the Baidu block the default Google configuration fails in the legacy script but builds in the package |
| Factory.LegacyDefaultBuildsGoogle | translator_po.py:124 | with the defaults the legacy script builds GoogleTranslator from the two languages |
| Processor.MaxLength | src/translator_po/po_file_processor.py:58 | a missing limit is 300; an int or bool limit compares; anything else is a `TypeError` |
| Processor.KeyFields | src/translator_po/po_file_processor.py:70-71 | the cache key fields exist exactly when both languages and the translator are configured |
| Processor.TranslateEntry | src/translator_po/po_file_processor.py:54-95 | an entry keeps its message id and translated flag, and the cache stays usable |
| Processor.TranslateChunk | src/translator_po/po_file_processor.py:97-116 | a bad configuration fails every chunk; on success the chunk keeps its length, message ids and flags |
| Processor.TranslateChunks | src/translator_po/po_file_processor.py:126-145 | on success every chunk keeps its message ids and flags, position by position |
| Processor.TranslateFile | src/translator_po/po_file_processor.py:118-152 | no data gives nothing to write; `jobs == 0` is a `ZeroDivisionError` and a negative `jobs` a `ValueError` |
| Processor.OverLengthUnchanged | src/translator_po/po_file_processor.py:58-59 | an over-length message id comes back unchanged, and neither the translator nor the cache is consulted |
| Processor.IdentityRoundTrip | src/translator_po/po_file_processor.py:61-91 | with an identity translator the translation is the message id, under the masking conditions |
| Processor.TranslatorFailureFails | src/translator_po/po_file_processor.py:85-95 | a failing translator fails the entry |
| Processor.CacheHitSkipsTranslator | src/translator_po/po_file_processor.py:69-74 | a truthy cached text is the translation, whichever translator is given |
| Processor.CacheMissSaves | src/translator_po/po_file_processor.py:75-83 | on a miss, or an empty cached text, the translator's answer is used and is found by a later lookup on the same file |
| Processor.CacheTransparent | src/translator_po/po_file_processor.py:69-85 | a cache that agrees with the translator changes no result |
| Processor.FileKeepsUntranslated | src/translator_po/po_file_processor.py:147-152 | a written catalog holds exactly the previously untranslated entries, in order, with the two headers updated |
| Processor.CompletionOrder | src/translator_po/po_file_processor.py:131-148 | any completion order of the chunks gives the same entries, rearranged, and the same metadata |
| Processor.OneFailureNoOutput | src/translator_po/po_file_processor.py:141-147 | without a cache, one failing entry means nothing is written |
| Processor.TargetLang | src/translator_po/po_file_processor.py:161-179 | the output name needs `target_lang` |
| Processor.Process | src/translator_po/po_file_processor.py:175-191 | translation is skipped exactly when the output exists and `force` is off; the skip check and the write use the same path |
| Processor.ProcessWithoutFolder | src/translator_po/main.py:272-280 | without an output folder a file always fails: with the translator's error, a missing `target_lang`, or the `TypeError` of joining `None` |
| Processor.WithoutFolderSameEarlyErrors | src/translator_po/main.py:272-280 | the errors raised before the output path is joined are those of a run with an output folder |
| Legacy.LegacyTranslation | translator_po.py:127-153 | a translation comes back exactly when the message id is within a comparable limit and the translator answers; it is the restored answer |
| Legacy.LegacyEntry | translator_po.py:166-175 | an entry with an empty message id, or without a translation, is unchanged; otherwise only its `msgstr` is replaced |
| Legacy.LegacyEntries | translator_po.py:166-175 | every entry is treated independently, in place |
| Legacy.LegacyTranslateFile | translator_po.py:159-178 | a file with data gives a catalog with the legacy author's headers and, position by position, each entry as the legacy entry step leaves it |
| Legacy.LegacyProcess | translator_po.py:181-211 | an unreadable file ends quietly; otherwise the run fails exactly when the translator cannot be built, and a file without data leaves an empty output |
| Legacy.LegacyKeepsEntries | translator_po.py:159-178 | the legacy script keeps every entry, in order, and changes only `msgstr` |
| Legacy.LegacyRetranslates | translator_po.py:166 | already translated entries are translated again, where the package drops them |
| Legacy.LegacySwallowsFailure | translator_po.py:151-153 | a failing translator leaves the entry as it was |
| Legacy.LegacyIdentityRoundTrip | translator_po.py:133-150 | with an identity translator the masking round trip holds as in the package |
| Splitter.Split | src/translator_po/po_file_splitter.py:27-49 | no data gives no parts; `num_split == 0` is a division error; part `i` is saved as `<base>_part_<i+1>.po` in the output folder |
| Splitter.PartsPartition | src/translator_po/po_file_splitter.py:32-34 | the parts partition the untranslated entries in order, none is empty, none holds a translated entry, and there are `ceil(n / max(1, n // num_split))` of them |
| Splitter.TenEntriesFourParts | src/translator_po/po_file_splitter.py:33-34 | ten entries split in three give four part files |
| Splitter.PaddedNumber | src/translator_po/po_file_splitter.py:37-44 | a part number up to `num_split` is zero-filled to exactly the width of `num_split` and denotes the part |
| Splitter.PaddedNumbersSorted | src/translator_po/po_file_splitter.py:37-44 | for parts up to `num_split`, padded part numbers sort in part order |
| Splitter.PaddedNamesSorted | src/translator_po/po_file_splitter.py:37-44 | for parts up to `num_split`, padded part names sort in part order |
| Splitter.PaddedNamesDistinct | src/translator_po/po_file_splitter.py:44-48 | padded part names of any two different parts, also beyond `num_split`, are different, so no part overwrites another |
| Splitter.UnpaddedNamesMisorder | src/translator_po/main.py:316-318 | without padding, part 10 sorts before part 2 |
| Splitter.PaddedNumberValue | src/translator_po/po_file_splitter.py:37-44 | every padded part number, also beyond `num_split`, is a digit string that denotes the part |
| Splitter.PaddedNamesMisorderBeyondCount | src/translator_po/po_file_splitter.py:32-44 | the padding follows `num_split`, not the number of parts: seventeen untranslated entries split in nine give seventeen parts padded to one digit, and part 10 sorts before part 2 |
| Cli.Dispatch | src/translator_po/main.py:374-396 | split before merge before file before folder; a split or merge missing its companion argument is an error and does not fall through |
| Cli.PoFiles | src/translator_po/main.py:358-362 | the folder contributes exactly its names ending in `.po` or `.pot` |
| Cli.RunFolder | src/translator_po/main.py:356-372 | files run in listing order, each with the outputs the files before it left; the loop stops only after a failed translation, and an exception from one file does not stop it |
| Cli.RunStepsFold | src/translator_po/main.py:364-370 | each step of the loop sees the outputs left by the steps before it |
| Cli.RunFolderFirstSteps | src/translator_po/main.py:364-370 | the second file sees the output the first one wrote |
| Cli.Main | src/translator_po/main.py:341-396 | the configuration is loaded, from the path as written, before any mode is chosen, and a failed load ends the program; a usage error happens exactly when loading succeeded and no mode applies; a single file gives exactly its processing outcome (which fails without `-o`); a folder gives the outcomes of its catalog files in turn, or `FileNotFoundError` when it cannot be listed |
| Cli.MainModes | src/translator_po/main.py:374-396 | with a loaded configuration: a usage error exactly when no mode applies, split parts exactly in split mode, and in the two translate modes exactly the outcome of the file or the outcomes of the folder's catalog files |
| Cli.MainMissingConfig | src/translator_po/main.py:107-112 | a configuration path that is missing, and not a directory, in a missing directory stops the run with `FileNotFoundError` before any mode, and leaves the files as they were |
| Cli.MainConfigIsDirectory | src/translator_po/main.py:107-115 | a configuration path naming a directory stops the run with `IsADirectoryError` before any mode, and leaves the files as they were |
| Cli.MainEmptyConfigIsDirectory | src/translator_po/main.py:98-115 | with `-c ""` (passed on as no command-line path, main.py line 344) the path is the configuration directory joined with the empty name, which ends in a slash, and the run stops with `IsADirectoryError` |
| Cli.MainConfigNamesDirectory | src/translator_po/main.py:98-115 | `-c conf`, where `conf` is a directory of the working directory, stops the run with `IsADirectoryError` |
| Cli.MainConfigTrailingSlash | src/translator_po/main.py:98-115 | `-c conf/` stops the run with `IsADirectoryError` on `<cwd>/conf/`, whether or not `conf` exists |
| Cli.DoubledConfigLocation | src/translator_po/main.py:94-110 | with `-c dir/name`, the path `main.py` reads is `<cwd>/dir/dir/name`, not a directory, and its directory is not the one `makedirs` creates |
| Cli.MainDoubledConfigFails | src/translator_po/main.py:90-110 | with `-c dir/name`, `main.py` looks for `dir/dir/name`, and when that is missing the run stops with `FileNotFoundError` even if `dir/name` exists |
| Cli.MainSplitNeverDividesByZero | src/translator_po/main.py:376-381 | the split mode of `main.py` never divides by zero |
| Cli.SameStemSameOutput | src/translator_po/main.py:272-280 | `stem.po` and `stem.pot` of one folder have one output path in either layout |
| Cli.PoThenPotSkipped | src/translator_po/main.py:358-362 | without `force`, `stem.pot` is skipped once `stem.po` was written |
| Cli.FailedEntryStopsFolder | src/translator_po/main.py:364-367 | a failing entry in the first file stops the folder loop |
| Cli.LegacyRunFolder | translator_po.py:236-240 | the legacy loop processes every file and fails as a whole on the first exception |
| Cli.LegacyEmptyConfigFails | translator_po.py:224-227 | the legacy script given the empty configuration name raises `FileNotFoundError` when it tries to create it, and writes nothing |
| Cli.LegacyConfigTrailingSlash | translator_po.py:224-232 | the legacy script opens a configuration name ending in a slash as given and raises `IsADirectoryError` |
| Cli.LegacyMain | translator_po.py:214-242 | the configuration file is loaded as given, whatever its JSON content, and a failed load ends the script with its exception; a usage error happens exactly when loading succeeded and neither a file nor a folder is named; otherwise the loaded configuration goes to `Cli.LegacyModes` |
| Cli.LegacyModes | translator_po.py:234-242 | `--file_path` gives that file's outcome or its exception; otherwise `--folder_path` gives every catalog file's outcome in listing order, or the first exception, or `FileNotFoundError` for a folder that cannot be listed; with neither, a usage error |
| Cli.LegacyPotOverwritesPo | translator_po.py:195-240 | the legacy loop translates both `stem.po` and `stem.pot` into the same output file |

## Left out

- Threads, processes, `as_completed` and the shutdown and error flags are concurrency. Chunks run one after another here. `Processor.CompletionOrder` covers any completion order.
- Within one file, `main.py`'s error flag stops the remaining chunks. `Processor.TranslateChunks` instead fails the file as soon as one chunk fails, so the outcome is the same.
- The signal handler and `os._exit` are left out.
- deep_translator clients are left out. A translator is a partial function.
- polib parsing and serialisation are left out. A catalog is a sequence of entries plus metadata.
- Processor.TranslateEntry: an entry's contract states only what it keeps. Its results are stated by the lemmas about it.
- SQLite and MD5 (RFC 1321) are left out. The digest is a parameter, and so is a file's size as a function of its rows.
- The cache after a failed save, and the rows an uncommitted `INSERT` leaves in a dropped connection's file, are not modelled.
- Processor.TranslateEntry: uses the corrected save (`Cache.SaveReconnecting`), so that the processor's lemmas describe the translation the cache was meant to give. What is lost: as written, a save that rotates the cache file makes every later cache miss in the same chunk raise `AttributeError`, which fails that entry, and so the whole file is not written. `Cache.RotationBreaksLaterSaves` states the failing save on the cache alone. Each chunk's cache handler is opened on the store as the previous chunk left it.
- File reads and writes, `makedirs`, JSON text, argparse and logging are left out. Reading yields an `Input`, and writing yields an `Outcome`.
- `Cli.Main`'s merge mode is reported but not performed. `po_file_merger.py` and `main.py`'s `PoFileMerger` are not part of this model. They are a directory walk in unspecified order plus one polib extend.
- `setup.py` and `src/translator_po/__init__.py` are not part of this model. They hold packaging metadata and re-exports.
- The package imports `update_metadata` from a `utils` module that is not part of this model. `Catalog.UpdateMetadata` takes the author as a parameter and follows `main.py`'s definition.
- `\w` is modelled as ASCII letters, digits and underscore. Python's `\w` also matches other Unicode letters and digits.
- `int()` of a cache-file index is modelled on an optional sign followed by ASCII digits. Python also accepts surrounding whitespace, underscores and other Unicode digits.
- `os.path.abspath` is modelled without the normalisation of `.` and `..` components and repeated slashes. Trailing slashes are removed, as `normpath` does.
- Config.LoadConfig: a path ending in a slash is always an `IsADirectoryError`. When its last component is an existing file, or its parent directory is missing, the system reports `NotADirectoryError` or `FileNotFoundError` instead.
- Config.Describe: a JSON object is written `{...}`, where Python prints the whole dictionary literal. The text appears in a `KeyError` message, in the cache key fields and, through `Processor.TargetLang`, in output file names, so an object-valued language gives a different name than Python's.
- JSON arrays, floats and invalid JSON are not modelled.
- A translator that returns `None` instead of raising is modelled like one that raises, which fails the entry. As written, this holds only for a message id with placeholders, where the `.replace` that follows raises inside the entry's `try`. For a message id without placeholders the restoring loop runs zero times and `msgstr` becomes `None`. The failure then comes at `str(po)` (src/translator_po/po_file_processor.py:152), outside the entry's `try`, so the error flag is not set, and the `None` answer has already been cached as a NULL row.
- Factory.GetTranslatorInstance: the call `translator_class(**params)` (src/translator_po/translator_factory.py:39, translator_po.py:125) is assumed to succeed. Errors raised by the deep_translator constructors themselves, such as an unsupported language or a missing key, are not modelled.
- Config.LoadConfig: the directory that `makedirs` creates is an input (`dirs`) and is not recorded in the returned files.
- The configuration mutation done by the factory is visible only in the result of `Factory.GetTranslatorInstance`. In the package it happens in a worker process and does not reach the caller. In `main.py` the factory runs in the caller's thread, and `.get(...).update(...)` (src/translator_po/main.py:143-144) changes the shared configuration's block in place. `Factory.MergeIdempotent` shows that this is harmless: building again from the changed configuration gives the same translator and parameters.
- The command line's `-j` default `os.cpu_count()` is left out. `jobs` is a parameter.

## Findings

| source | as written | input that shows it | evidently intended | confidence | as-written member | corrected member |
|---|---|---|---|---|---|---|
| src/translator_po/cache_handler.py:35,80-82 | after a save reaches 1 MiB, `self.local.conn = None` is meant to force a new connection, but `_get_connection` only checks `hasattr`, which stays true | one handler and two saves, where the first save makes `cache_0.db` reach 1 MiB: the second save raises `AttributeError` on `conn.commit()` | the next call connects to the newly chosen file | not executed | Cache.RotationSecondSave | Cache.ReconnectingSecondSave |
| src/translator_po/config_handler.py:29,35 | the configuration path joins the directory of the command-line path with the command-line path again (the same at src/translator_po/main.py:94,100) | `-c conf/c.json` run in `/w` reads `/w/conf/conf/c.json`, and fails when that file is missing | the command-line path names the file itself | not executed | Config.ConfigPathDoubled | Config.ConfigPathCorrected |

`Cli.Main` loads its configuration from the path as written, so that `Cli.MainDoubledConfigFails` can show the consequence of the second finding; `Config.ConfigPathCorrected` agrees with it on absolute paths and bare file names (`Config.CorrectedAgrees`).

=== FILE: cache.dfy ===
/** The translation cache of the package: SQLite files `cache_<n>.db` in one
    directory, each holding a table from a key to a translated text.

    The key is the MD5 digest of `source:target:translator:text`; the digest
    is a parameter here, and so is the size of a database file, given as a
    function of its rows.  A handler opens one file (the one with the
    largest index, or the next index once that file has reached 1 MiB), keeps
    a connection and a cursor in thread-local storage, and moves on to a new
    file when a save makes the current one reach the size limit. */
module Cache {
  import opened Wrappers
  import opened Text

  /** `MAX_CACHE_SIZE = 1 * 1024 * 1024` (1 MiB, whatever the comment beside
      it says). */
  const MaxCacheSize: nat := 1048576

  // ---------------------------------------------------------------------------
  // Keys

  /** `f"{source_lang}:{target_lang}:{translator}:{source_text}"`, the text
      the digest is taken of. */
  function PreKey(source: string, target: string, translator: string, text: string): string {
    source + ":" + target + ":" + translator + ":" + text
  }

  predicate NoColon(s: string) {
    forall k :: 0 <= k < |s| ==> s[k] != ':'
  }

  /** A colon-free head is recovered from `head + ":" + tail`. */
  lemma SplitAtColon(x: string, y: string, u: string, v: string)
    requires NoColon(x) && NoColon(u)
    requires x + ":" + y == u + ":" + v
    ensures x == u && y == v
  {
    ColonClash(x, y, u, v);
    ColonClash(u, v, x, y);
    var s := x + ":" + y;
    assert x == s[..|x|] == u;
    assert y == s[|x| + 1..] == v;
  }

  /** A shorter head would put its colon inside the longer, colon-free one. */
  lemma ColonClash(x: string, y: string, u: string, v: string)
    ensures NoColon(u) && x + ":" + y == u + ":" + v ==> |u| <= |x|
  {
    if |x| < |u| {
      assert (x + ":" + y)[|x|] == ':';
      assert (u + ":" + v)[|x|] == u[|x|];
    }
  }

  /** The key text determines the four fields when the first three contain no
      colon; the text itself may contain any. */
  lemma PreKeyInjective(a: string, b: string, c: string, t: string,
                        a': string, b': string, c': string, t': string)
    requires NoColon(a) && NoColon(b) && NoColon(c)
    requires NoColon(a') && NoColon(b') && NoColon(c')
    requires PreKey(a, b, c, t) == PreKey(a', b', c', t')
    ensures a == a' && b == b' && c == c' && t == t'
  {
    assert PreKey(a, b, c, t) == a + ":" + (b + ":" + (c + ":" + t));
    assert PreKey(a', b', c', t') == a' + ":" + (b' + ":" + (c' + ":" + t'));
    SplitAtColon(a, b + ":" + (c + ":" + t), a', b' + ":" + (c' + ":" + t'));
    SplitAtColon(b, c + ":" + t, b', c' + ":" + t');
    SplitAtColon(c, t, c', t');
  }

  /** With a colon in a language code two different requests share a key:
      `("a:b", "c")` and `("a", "b:c")` both give `a:b:c:...`. */
  lemma PreKeyCollision(translator: string, text: string)
    ensures PreKey("a:b", "c", translator, text) == PreKey("a", "b:c", translator, text)
  {
  }

  // ---------------------------------------------------------------------------
  // Choosing the active file

  predicate StartsWith(s: string, prefix: string) {
    |prefix| <= |s| && s[..|prefix|] == prefix
  }

  /** Names the handler considers: `f.startswith('cache_') and f.endswith('.db')`. */
  predicate IsCacheFileName(f: string) {
    StartsWith(f, "cache_") && EndsWith(f, ".db")
  }

  /** The prefix of `s` before the first `c`: `s.split(c)[0]`. */
  function UpTo(s: string, c: char): (r: string)
    ensures r <= s
    ensures forall k :: 0 <= k < |r| ==> r[k] != c
    ensures r == s || s[|r|] == c
  {
    if s == [] || s[0] == c then [] else [s[0]] + UpTo(s[1..], c)
  }

  /** `x.split('_')[1].split('.')[0]` for a name that starts with `cache_`. */
  function IndexField(f: string): string
    requires IsCacheFileName(f)
  {
    UpTo(UpTo(f[6..], '_'), '.')
  }

  /** `int(...)` of the index field, `ValueError` when it is not a number. */
  function FileIndex(f: string): (r: Result<int>)
    requires IsCacheFileName(f)
    ensures r.Failure? ==> r.error.ValueError?
  {
    match ParseInt(IndexField(f))
    case Some(n) => Success(n)
    case None => Failure(ValueError(IndexField(f)))
  }

  /** The directory listing filtered to cache files, in listing order. */
  function CacheFiles(files: seq<string>): (r: seq<string>)
    ensures forall k :: 0 <= k < |r| ==> IsCacheFileName(r[k]) && r[k] in files
    ensures forall f :: f in files && IsCacheFileName(f) ==> f in r
  {
    if files == [] then []
    else (if IsCacheFileName(files[0]) then [files[0]] else []) + CacheFiles(files[1..])
  }

  /** The sort keys of the candidates, computed left to right; the first
      name whose index does not parse raises. */
  function Indices(cands: seq<string>): (r: Result<seq<int>>)
    requires forall k :: 0 <= k < |cands| ==> IsCacheFileName(cands[k])
    ensures r.Success? ==> |r.value| == |cands|
    ensures r.Success? ==> forall k :: 0 <= k < |cands| ==> FileIndex(cands[k]) == Success(r.value[k])
    ensures r.Failure? <==> exists k :: 0 <= k < |cands| && FileIndex(cands[k]).Failure?
    ensures r.Failure? ==> r.error.ValueError?
  {
    if cands == [] then Success([])
    else
      var n :- FileIndex(cands[0]);
      var rest :- Indices(cands[1..]);
      assert forall k :: 1 <= k < |cands| ==> cands[k] == cands[1..][k - 1];
      Success([n] + rest)
  }

  /** Position of the last element of a stable ascending sort: the last
      occurrence of the maximum. */
  function LastMax(keys: seq<int>): (i: nat)
    requires keys != []
    ensures i < |keys|
    ensures forall k :: 0 <= k < |keys| ==> keys[k] <= keys[i]
    ensures forall k :: i < k < |keys| ==> keys[k] < keys[i]
  {
    if |keys| == 1 then 0
    else
      var j := LastMax(keys[..|keys| - 1]);
      assert forall k :: 0 <= k < |keys| - 1 ==> keys[..|keys| - 1][k] == keys[k];
      if keys[|keys| - 1] >= keys[j] then |keys| - 1 else j
  }

  /** `f'cache_{n}.db'` */
  function CacheFileName(n: int): string {
    "cache_" + IntToString(n) + ".db"
  }

  /** `UpTo` stops at the first `c` and takes everything when there is none. */
  lemma {:induction false} UpToFirst(s: string, c: char, t: string)
    requires forall k :: 0 <= k < |s| ==> s[k] != c
    ensures UpTo(s + [c] + t, c) == s
    ensures UpTo(s, c) == s
  {
    if s != [] {
      assert (s + [c] + t)[1..] == s[1..] + [c] + t;
      UpToFirst(s[1..], c, t);
    }
  }

  lemma IntToStringChars(n: int)
    ensures forall k :: 0 <= k < |IntToString(n)| ==> IntToString(n)[k] == '-' || IsDigit(IntToString(n)[k])
  {
  }

  /** The name given to a new file parses back to its index, so the file
      created on a rotation is the one the next selection finds. */
  lemma CacheFileNameIndex(n: int)
    ensures IsCacheFileName(CacheFileName(n))
    ensures FileIndex(CacheFileName(n)) == Success(n)
  {
    var d := IntToString(n);
    assert CacheFileName(n) == "cache_" + d + ".db";
    IntToStringChars(n);
    NameShape(d);
    FieldOf(d);
    IntToStringRoundTrip(n);
  }

  lemma NameShape(d: string)
    ensures IsCacheFileName("cache_" + d + ".db")
    ensures ("cache_" + d + ".db")[6..] == d + ".db"
  {
    var f := "cache_" + d + ".db";
    assert f == "cache_" + (d + ".db");
    assert f[..6] == "cache_";
    assert f[|f| - 3..] == ".db";
  }

  /** The index field of `cache_<d>.db` is `d` when `d` holds neither an
      underscore nor a dot. */
  lemma FieldOf(d: string)
    requires forall k :: 0 <= k < |d| ==> d[k] != '_' && d[k] != '.'
    ensures IsCacheFileName("cache_" + d + ".db")
    ensures IndexField("cache_" + d + ".db") == d
  {
    NameShape(d);
    assert d + ".db" == (d + ".db") + [];
    UpToFirst(d + ".db", '_', []);
    assert d + ".db" == d + ['.'] + "db";
    UpToFirst(d, '.', "db");
  }

  /** `_open_new_cache_file`: the name of the file the handler will use, given
      the directory listing and the size of each file. */
  function SelectCacheFile(files: seq<string>, size: string -> nat): (r: Result<string>)
    ensures CacheFiles(files) == [] ==> r == Success("cache_0.db")
    ensures r.Failure? ==> r.error.ValueError?
  {
    var cands := CacheFiles(files);
    if cands == [] then Success("cache_0.db")
    else
      var keys :- Indices(cands);
      var i := LastMax(keys);
      var last := cands[i];
      if size(last) >= MaxCacheSize then Success(CacheFileName(keys[i] + 1))
      else Success(last)
  }

  /** The chosen file has the numerically largest index among the cache
      files, or is the file after it when that one is full. */
  lemma SelectCacheFileSpec(files: seq<string>, size: string -> nat) returns (f: string)
    requires SelectCacheFile(files, size).Success?
    requires CacheFiles(files) != []
    ensures f in files && IsCacheFileName(f) && FileIndex(f).Success?
    ensures forall g :: g in files && IsCacheFileName(g) ==> FileIndex(g).Success? && FileIndex(g).value <= FileIndex(f).value
    ensures SelectCacheFile(files, size).value == if size(f) >= MaxCacheSize then CacheFileName(FileIndex(f).value + 1) else f
  {
    var cands := CacheFiles(files);
    var keys := Indices(cands).value;
    var i := LastMax(keys);
    f := cands[i];
    forall g | g in files && IsCacheFileName(g)
      ensures FileIndex(g).Success? && FileIndex(g).value <= FileIndex(f).value
    {
      var k :| 0 <= k < |cands| && cands[k] == g;
      assert FileIndex(g) == Success(keys[k]);
    }
  }

  /** File selection fails, with `ValueError`, exactly when some cache file's
      index is not a number; the other names of the directory do not matter. */
  lemma SelectCacheFileFails(files: seq<string>, size: string -> nat)
    ensures SelectCacheFile(files, size).Failure? <==>
      exists f :: f in files && IsCacheFileName(f) && FileIndex(f).Failure?
  {
    var cands := CacheFiles(files);
    if exists f :: f in files && IsCacheFileName(f) && FileIndex(f).Failure? {
      var f :| f in files && IsCacheFileName(f) && FileIndex(f).Failure?;
      var k :| 0 <= k < |cands| && cands[k] == f;
      assert Indices(cands).Failure?;
    }
  }

  /** Numeric, not code-point, order decides: of `cache_9.db` and
      `cache_10.db` the second is chosen in either listing order, although it
      sorts first as text. */
  lemma NumericNotLexicographic(size: string -> nat)
    requires size("cache_10.db") < MaxCacheSize
    ensures SelectCacheFile(["cache_9.db", "cache_10.db"], size) == Success("cache_10.db")
    ensures SelectCacheFile(["cache_10.db", "cache_9.db"], size) == Success("cache_10.db")
    ensures LexLess("cache_10.db", "cache_9.db")
  {
    SelectNineTen(size);
    SelectTenNine(size);
    LexTen();
  }

  lemma SelectNineTen(size: string -> nat)
    requires size("cache_10.db") < MaxCacheSize
    ensures SelectCacheFile(["cache_9.db", "cache_10.db"], size) == Success("cache_10.db")
  {
    NameNine();
    NameTen();
    PairSelection(9, 10, size);
  }

  lemma SelectTenNine(size: string -> nat)
    requires size("cache_10.db") < MaxCacheSize
    ensures SelectCacheFile(["cache_10.db", "cache_9.db"], size) == Success("cache_10.db")
  {
    NameNine();
    NameTen();
    PairSelection(10, 9, size);
  }

  /** A listing of two cache files named by their indices. */
  lemma PairSelection(m: int, n: int, size: string -> nat)
    requires m != n
    requires size(CacheFileName(if m < n then n else m)) < MaxCacheSize
    ensures SelectCacheFile([CacheFileName(m), CacheFileName(n)], size) ==
      Success(CacheFileName(if m < n then n else m))
  {
    var a, b := CacheFileName(m), CacheFileName(n);
    CacheFileNameIndex(m);
    CacheFileNameIndex(n);
    CacheFilesPair(a, b);
    IndicesPair(a, b, m, n);
    assert [m, n][..1] == [m];
  }

  lemma CacheFilesPair(a: string, b: string)
    requires IsCacheFileName(a) && IsCacheFileName(b)
    ensures CacheFiles([a, b]) == [a, b]
  {
    assert [a, b][1..] == [b];
    assert [b][1..] == [];
    assert CacheFiles([b]) == [b];
  }

  lemma IndicesPair(a: string, b: string, m: int, n: int)
    requires IsCacheFileName(a) && IsCacheFileName(b)
    requires FileIndex(a) == Success(m) && FileIndex(b) == Success(n)
    ensures Indices([a, b]) == Success([m, n])
  {
    assert [a, b][1..] == [b];
    IndicesSingle(b, n);
    assert [m] + [n] == [m, n];
  }

  lemma IndicesSingle(b: string, n: int)
    requires IsCacheFileName(b) && FileIndex(b) == Success(n)
    ensures Indices([b]) == Success([n])
  {
    assert [b][1..] == [];
    assert [n] + [] == [n];
  }

  lemma NameNine()
    ensures CacheFileName(9) == "cache_9.db"
  {
  }

  lemma NameTen()
    ensures CacheFileName(10) == "cache_10.db"
  {
    assert NatToString(10) == NatToString(1) + [DigitChar(0)];
  }

  lemma LexTen()
    ensures LexLess("cache_10.db", "cache_9.db")
  {
    LexLessCommonPrefix("cache_", "10.db", "9.db");
    assert "cache_" + "10.db" == "cache_10.db";
    assert "cache_" + "9.db" == "cache_9.db";
  }

  // ---------------------------------------------------------------------------
  // The store and the handler

  /** The cache directory: its listing, and the rows of each database file. */
  datatype Store = Store(files: seq<string>, tables: map<string, map<string, string>>)

  /** The thread-local connection: never opened, open on a file, or set to
      `None` after a rotation while the cursor still belongs to the old file. */
  datatype Conn = Unset | Live(file: string) | Dropped(cursorFile: string)

  datatype Handler = Handler(dbPath: string, conn: Conn)

  /** The digest and the file-size function, both outside the model. */
  datatype Env = Env(digest: string -> string, sizeOf: map<string, string> -> nat)

  function TableOf(store: Store, f: string): map<string, string> {
    if f in store.tables then store.tables[f] else map[]
  }

  /** `os.path.getsize` on the files of the directory. */
  function Sizes(store: Store, env: Env): string -> nat {
    f => env.sizeOf(TableOf(store, f))
  }

  /** `CacheHandler(cache_dir)`: choose the file; no connection yet. */
  function Open(store: Store, env: Env): (r: Result<Handler>)
    ensures r.Success? ==> r.value.conn == Unset
    ensures r.Success? ==> SelectCacheFile(store.files, Sizes(store, env)) == Success(r.value.dbPath)
  {
    var path :- SelectCacheFile(store.files, Sizes(store, env));
    Success(Handler(path, Unset))
  }

  /** The file the cursor reads and writes. */
  function CursorFile(h: Handler): string {
    match h.conn
    case Unset => h.dbPath
    case Live(f) => f
    case Dropped(f) => f
  }

  /** `_get_connection`: connect (creating the file and its table) only when
      the thread-local attribute has never been set. */
  function Connect(store: Store, h: Handler): (r: (Store, Handler))
    ensures !r.1.conn.Unset?
    ensures CursorFile(r.1) == CursorFile(h) && r.1.dbPath == h.dbPath
    ensures forall f :: TableOf(r.0, f) == TableOf(store, f)
    ensures h.conn.Unset? ==> r.1.conn == Live(h.dbPath) && h.dbPath in r.0.files
    ensures !h.conn.Unset? ==> r == (store, h)
  {
    match h.conn
    case Unset =>
      var f := h.dbPath;
      var files := if f in store.files then store.files else store.files + [f];
      (Store(files, store.tables[f := TableOf(store, f)]), Handler(f, Live(f)))
    case _ => (store, h)
  }

  /** `get_translation`: look the key up through the cursor. */
  function Get(store: Store, h: Handler, env: Env,
               source: string, target: string, translator: string, text: string): (r: (Store, Handler, Option<string>))
    ensures CursorFile(r.1) == CursorFile(h) && r.1.dbPath == h.dbPath
    ensures forall f :: TableOf(r.0, f) == TableOf(store, f)
    ensures var key := env.digest(PreKey(source, target, translator, text));
      r.2 == (if key in TableOf(store, CursorFile(h)) then Some(TableOf(store, CursorFile(h))[key]) else None)
  {
    var (s, h') := Connect(store, h);
    var key := env.digest(PreKey(source, target, translator, text));
    var table := TableOf(s, CursorFile(h'));
    (s, h', if key in table then Some(table[key]) else None)
  }

  /** The rows after `INSERT OR REPLACE` into the cursor's file. */
  function Insert(store: Store, f: string, key: string, value: string): (r: Store)
    ensures TableOf(r, f) == TableOf(store, f)[key := value]
    ensures forall g :: g != f ==> TableOf(r, g) == TableOf(store, g)
    ensures r.files == store.files
  {
    Store(store.files, store.tables[f := TableOf(store, f)[key := value]])
  }

  /** `save_translation` as written: after a save that makes the file reach
      the limit, the next file is chosen and the connection is set to `None`;
      the attribute still exists, so no new connection is ever made, and the
      next save fails on `conn.commit()`. */
  function Save(store: Store, h: Handler, env: Env,
                source: string, target: string, translator: string, text: string,
                translated: string): (r: Result<(Store, Handler)>)
    ensures h.conn.Dropped? <==> r == Failure(AttributeError("commit"))
    ensures r.Success? ==> CursorFile(r.value.1) == CursorFile(h)
    ensures r.Success? ==>
      TableOf(r.value.0, CursorFile(h)) == TableOf(store, CursorFile(h))[env.digest(PreKey(source, target, translator, text)) := translated]
    ensures r.Success? ==> forall g :: g != CursorFile(h) ==> TableOf(r.value.0, g) == TableOf(store, g)
  {
    var (s, h') := Connect(store, h);
    if h'.conn.Dropped? then Failure(AttributeError("commit"))
    else
      var f := CursorFile(h');
      var s' := Insert(s, f, env.digest(PreKey(source, target, translator, text)), translated);
      if env.sizeOf(TableOf(s', h'.dbPath)) >= MaxCacheSize then
        var path :- SelectCacheFile(s'.files, Sizes(s', env));
        Success((s', Handler(path, Dropped(f))))
      else Success((s', h'))
  }

  /** True when this save moves the handler to a new file. */
  predicate Rotates(store: Store, h: Handler, env: Env,
                    source: string, target: string, translator: string, text: string, translated: string)
  {
    var (s, h') := Connect(store, h);
    !h'.conn.Dropped? &&
    env.sizeOf(TableOf(Insert(s, CursorFile(h'), env.digest(PreKey(source, target, translator, text)), translated), h'.dbPath))
      >= MaxCacheSize
  }

  /** `save_translation` as intended: after a rotation the next call opens a
      fresh connection on the new file. */
  function SaveReconnecting(store: Store, h: Handler, env: Env,
                            source: string, target: string, translator: string, text: string,
                            translated: string): (r: Result<(Store, Handler)>)
    requires !h.conn.Dropped?
    ensures r.Success? ==> !r.value.1.conn.Dropped?
    ensures r.Failure? ==> r.error.ValueError?
    ensures r.Success? ==>
      TableOf(r.value.0, CursorFile(h)) == TableOf(store, CursorFile(h))[env.digest(PreKey(source, target, translator, text)) := translated]
    ensures r.Success? ==> forall g :: g != CursorFile(h) ==> TableOf(r.value.0, g) == TableOf(store, g)
  {
    var (s, h') := Connect(store, h);
    var f := CursorFile(h');
    var s' := Insert(s, f, env.digest(PreKey(source, target, translator, text)), translated);
    if env.sizeOf(TableOf(s', h'.dbPath)) >= MaxCacheSize then
      var path :- SelectCacheFile(s'.files, Sizes(s', env));
      Success((s', Handler(path, Unset)))
    else Success((s', h'))
  }

  // ---------------------------------------------------------------------------
  // Properties

  /** A get after a successful save of the same four fields returns the saved
      text; with `INSERT OR REPLACE` the last save wins. */
  lemma GetAfterSave(store: Store, h: Handler, env: Env,
                     source: string, target: string, translator: string, text: string, translated: string)
    requires Save(store, h, env, source, target, translator, text, translated).Success?
    ensures var (s, h') := Save(store, h, env, source, target, translator, text, translated).value;
      Get(s, h', env, source, target, translator, text).2 == Some(translated)
  {
  }

  /** Two saves of the same fields: the second text is the one read back. */
  lemma LastWriteWins(store: Store, h: Handler, env: Env,
                      source: string, target: string, translator: string, text: string,
                      first: string, second: string)
    requires Save(store, h, env, source, target, translator, text, first).Success?
    requires var (s, h') := Save(store, h, env, source, target, translator, text, first).value;
      Save(s, h', env, source, target, translator, text, second).Success?
    ensures var (s, h') := Save(store, h, env, source, target, translator, text, first).value;
      var (s2, h2) := Save(s, h', env, source, target, translator, text, second).value;
      Get(s2, h2, env, source, target, translator, text).2 == Some(second)
  {
    var (s, h') := Save(store, h, env, source, target, translator, text, first).value;
    GetAfterSave(s, h', env, source, target, translator, text, second);
  }

  /** A get for a key no file holds returns `None`; in particular every get
      on an empty cache directory misses. */
  lemma GetUnsaved(store: Store, h: Handler, env: Env,
                   source: string, target: string, translator: string, text: string)
    requires forall f :: env.digest(PreKey(source, target, translator, text)) !in TableOf(store, f)
    ensures Get(store, h, env, source, target, translator, text).2 == None
  {
  }

  /** As written: once a save has rotated the file, every later save
      through the same handler fails, and gets keep reading the old file. */
  lemma RotationBreaksLaterSaves(store: Store, h: Handler, env: Env,
                                 source: string, target: string, translator: string, text: string,
                                 translated: string)
    requires Save(store, h, env, source, target, translator, text, translated).Success?
    requires Rotates(store, h, env, source, target, translator, text, translated)
    ensures var (s, h') := Save(store, h, env, source, target, translator, text, translated).value;
      && h'.conn.Dropped?
      && CursorFile(h') == CursorFile(h)
      && (forall a, b, c, t, u :: Save(s, h', env, a, b, c, t, u) == Failure(AttributeError("commit")))
  {
  }

  /** As intended: the reconnecting handler never reaches the dropped state,
      so no save fails on the missing connection. */
  lemma ReconnectingNeverDrops(store: Store, h: Handler, env: Env,
                               source: string, target: string, translator: string, text: string,
                               translated: string)
    requires !h.conn.Dropped?
    ensures var r := SaveReconnecting(store, h, env, source, target, translator, text, translated);
      r.Success? ==> Save(r.value.0, r.value.1, env, source, target, translator, text, translated) != Failure(AttributeError("commit"))
  {
  }

  /** A size function under which every row fills a file. */
  function OneRowFills(rows: map<string, string>): nat {
    if rows != map[] then MaxCacheSize else 0
  }

  /** The request used by the concrete run below. */
  function Key(digest: string -> string, text: string): string {
    digest(PreKey("id", "en", "GoogleTranslator", text))
  }

  /** The directory after the first save of the run: one full file. */
  function FirstStore(digest: string -> string, t1: string): Store {
    Store(["cache_0.db"], map["cache_0.db" := map[Key(digest, t1) := "x"]])
  }

  /** A concrete run on an empty cache directory, where every row fills a
      file: the handler opens `cache_0.db`. */
  lemma RotationOpen(digest: string -> string)
    ensures Open(Store([], map[]), Env(digest, OneRowFills)) == Success(Handler("cache_0.db", Unset))
  {
    assert CacheFiles([]) == [];
  }

  /** The first save of the run fills `cache_0.db`; as written it moves to
      `cache_1.db` with the connection dropped. */
  lemma RotationFirstSave(digest: string -> string, t1: string)
    ensures Save(Store([], map[]), Handler("cache_0.db", Unset), Env(digest, OneRowFills), "id", "en", "GoogleTranslator", t1, "x")
      == Success((FirstStore(digest, t1), Handler("cache_1.db", Dropped("cache_0.db"))))
  {
    FirstSaveStore(digest, t1);
  }

  /** As intended, the first save moves to `cache_1.db` with no connection. */
  lemma ReconnectingFirstSave(digest: string -> string, t1: string)
    ensures SaveReconnecting(Store([], map[]), Handler("cache_0.db", Unset), Env(digest, OneRowFills), "id", "en", "GoogleTranslator", t1, "x")
      == Success((FirstStore(digest, t1), Handler("cache_1.db", Unset)))
  {
    FirstSaveStore(digest, t1);
  }

  /** The rows and the file choice after the first save of the run. */
  lemma FirstSaveStore(digest: string -> string, t1: string)
    ensures var (c, h) := Connect(Store([], map[]), Handler("cache_0.db", Unset));
      && h == Handler("cache_0.db", Live("cache_0.db"))
      && Insert(c, "cache_0.db", Key(digest, t1), "x") == FirstStore(digest, t1)
      && SelectCacheFile(["cache_0.db"], Sizes(FirstStore(digest, t1), Env(digest, OneRowFills))) == Success("cache_1.db")
      && OneRowFills(TableOf(FirstStore(digest, t1), "cache_0.db")) == MaxCacheSize
  {
    FirstInsert(digest, t1);
    FirstSelect(digest, t1);
  }

  lemma FirstInsert(digest: string -> string, t1: string)
    ensures var (c, h) := Connect(Store([], map[]), Handler("cache_0.db", Unset));
      && h == Handler("cache_0.db", Live("cache_0.db"))
      && Insert(c, "cache_0.db", Key(digest, t1), "x") == FirstStore(digest, t1)
  {
    var (c, h) := Connect(Store([], map[]), Handler("cache_0.db", Unset));
    assert c.tables == map["cache_0.db" := map[]];
    assert c.tables["cache_0.db" := map[Key(digest, t1) := "x"]] == FirstStore(digest, t1).tables;
  }

  lemma FirstSelect(digest: string -> string, t1: string)
    ensures SelectCacheFile(["cache_0.db"], Sizes(FirstStore(digest, t1), Env(digest, OneRowFills))) == Success("cache_1.db")
    ensures OneRowFills(TableOf(FirstStore(digest, t1), "cache_0.db")) == MaxCacheSize
  {
    FirstStoreFull(digest, t1);
    NameZeroOne();
    FullFileSelectNamed("cache_0.db", "cache_1.db", 0, Sizes(FirstStore(digest, t1), Env(digest, OneRowFills)));
  }

  /** `FullFileSelect` for names given as text. */
  lemma FullFileSelectNamed(name: string, next: string, n: int, size: string -> nat)
    requires name == CacheFileName(n) && next == CacheFileName(n + 1)
    requires size(name) >= MaxCacheSize
    ensures SelectCacheFile([name], size) == Success(next)
  {
    FullFileSelect(n, size);
  }

  lemma FirstStoreFull(digest: string -> string, t1: string)
    ensures OneRowFills(TableOf(FirstStore(digest, t1), "cache_0.db")) == MaxCacheSize
    ensures Sizes(FirstStore(digest, t1), Env(digest, OneRowFills))("cache_0.db") >= MaxCacheSize
  {
    assert Key(digest, t1) in TableOf(FirstStore(digest, t1), "cache_0.db");
  }

  lemma NameZeroOne()
    ensures CacheFileName(0) == "cache_0.db" && CacheFileName(1) == "cache_1.db"
  {
  }

  /** As written, the second save of the run fails on the dropped
      connection. */
  lemma RotationSecondSave(digest: string -> string, t1: string, t2: string)
    ensures Save(FirstStore(digest, t1), Handler("cache_1.db", Dropped("cache_0.db")), Env(digest, OneRowFills),
                 "id", "en", "GoogleTranslator", t2, "y") == Failure(AttributeError("commit"))
  {
  }

  /** A single full file: the next index is chosen. */
  lemma FullFileSelect(n: int, size: string -> nat)
    requires size(CacheFileName(n)) >= MaxCacheSize
    ensures SelectCacheFile([CacheFileName(n)], size) == Success(CacheFileName(n + 1))
  {
    var f := CacheFileName(n);
    CacheFileNameIndex(n);
    assert CacheFiles([f]) == [f] by {
      assert [f][1..] == [];
    }
    IndicesSingle(f, n);
  }

  /** As intended, the second save of the run lands in `cache_1.db`. */
  lemma ReconnectingSecondSave(digest: string -> string, t1: string, t2: string)
    ensures var r := SaveReconnecting(FirstStore(digest, t1), Handler("cache_1.db", Unset), Env(digest, OneRowFills),
                                      "id", "en", "GoogleTranslator", t2, "y");
      && r.Success?
      && TableOf(r.value.0, "cache_1.db") == map[Key(digest, t2) := "y"]
      && TableOf(r.value.0, "cache_0.db") == map[Key(digest, t1) := "x"]
  {
    var env := Env(digest, OneRowFills);
    var s1 := FirstStore(digest, t1);
    var (c, h') := Connect(s1, Handler("cache_1.db", Unset));
    assert c.files == ["cache_0.db", "cache_1.db"];
    var s' := Insert(c, "cache_1.db", Key(digest, t2), "y");
    TwoFilesSelect(Sizes(s', env));
  }

  /** Selection over `cache_0.db` and `cache_1.db` cannot fail. */
  lemma TwoFilesSelect(size: string -> nat)
    ensures SelectCacheFile(["cache_0.db", "cache_1.db"], size).Success?
  {
    var a, b := CacheFileName(0), CacheFileName(1);
    NameZeroOne();
    CacheFileNameIndex(0);
    CacheFileNameIndex(1);
    CacheFilesPair(a, b);
    IndicesPair(a, b, 0, 1);
  }
}

=== FILE: catalog.dfy ===
/** A gettext catalog as the translators see it: a sequence of entries and a
    metadata header.  Parsing and printing the `.po` text are left to the
    `polib` library and are not modelled; `translated` means that the
    library's `untranslated_entries()` does not return the entry, so fuzzy
    and obsolete entries count as translated here. */
module Catalog {
  import opened Chunking

  datatype Entry = Entry(msgid: string, msgstr: string, translated: bool)

  datatype Catalog = Catalog(entries: seq<Entry>, metadata: map<string, string>)

  /** What reading an input file gives: nothing (the file could not be
      read), an empty text, or a parsed catalog.  The first two are the
      cases where `self.data` is false. */
  datatype Input = Unreadable | Blank | Parsed(catalog: Catalog)

  /** `po.untranslated_entries()`: the entries not yet translated, in order. */
  function Untranslated(entries: seq<Entry>): (r: seq<Entry>)
    ensures |r| <= |entries|
    ensures forall k :: 0 <= k < |r| ==> !r[k].translated
    ensures multiset(r) <= multiset(entries)
  {
    if entries == [] then []
    else
      assert entries == [entries[0]] + entries[1..];
      (if entries[0].translated then [] else [entries[0]]) + Untranslated(entries[1..])
  }

  /** The positions from `i` on that hold an entry not yet translated, in
      increasing order. */
  function PositionsFrom(entries: seq<Entry>, i: nat): (r: seq<nat>)
    requires i <= |entries|
    ensures forall k :: 0 <= k < |r| ==> i <= r[k] < |entries|
    ensures forall k, l :: 0 <= k < l < |r| ==> r[k] < r[l]
    ensures forall n :: i <= n < |entries| ==> (n in r <==> !entries[n].translated)
    decreases |entries| - i
  {
    if i == |entries| then []
    else (if entries[i].translated then [] else [i]) + PositionsFrom(entries, i + 1)
  }

  /** The selection keeps the catalog order: its `k`-th entry is the one at
      the `k`-th untranslated position. */
  lemma UntranslatedInOrder(entries: seq<Entry>)
    ensures var r, pos := Untranslated(entries), PositionsFrom(entries, 0);
      |r| == |pos| && forall k :: 0 <= k < |r| ==> r[k] == entries[pos[k]]
  {
    UntranslatedFrom(entries, 0);
    assert entries[0..] == entries;
  }

  lemma {:induction false} UntranslatedFrom(entries: seq<Entry>, i: nat)
    requires i <= |entries|
    ensures var r, pos := Untranslated(entries[i..]), PositionsFrom(entries, i);
      |r| == |pos| && forall k :: 0 <= k < |r| ==> r[k] == entries[pos[k]]
    decreases |entries| - i
  {
    if i < |entries| {
      var s, e := entries[i..], entries[i];
      assert s[0] == e && s[1..] == entries[i + 1..];
      UntranslatedFrom(entries, i + 1);
      var rest, restPos := Untranslated(entries[i + 1..]), PositionsFrom(entries, i + 1);
      if e.translated {
        assert Untranslated(s) == rest && PositionsFrom(entries, i) == restPos;
      } else {
        assert Untranslated(s) == [e] + rest && PositionsFrom(entries, i) == [i] + restPos;
        SelectCons(entries, i, rest, restPos);
      }
    }
  }

  lemma SelectCons(entries: seq<Entry>, i: nat, rest: seq<Entry>, restPos: seq<nat>)
    requires i < |entries| && |rest| == |restPos|
    requires forall k :: 0 <= k < |restPos| ==> restPos[k] < |entries|
    requires forall k :: 0 <= k < |rest| ==> rest[k] == entries[restPos[k]]
    ensures forall k :: 0 <= k < |rest| + 1 ==> ([entries[i]] + rest)[k] == entries[([i] + restPos)[k]]
  {
  }

  /** Every entry not yet translated is selected as often as it occurs, and
      no translated one is. */
  lemma {:induction false} UntranslatedCounts(entries: seq<Entry>)
    ensures forall e :: multiset(Untranslated(entries))[e] == if e.translated then 0 else multiset(entries)[e]
  {
    if entries != [] {
      var x, rest := entries[0], entries[1..];
      assert entries == [x] + rest;
      UntranslatedCounts(rest);
      var head := if x.translated then [] else [x];
      assert Untranslated(entries) == head + Untranslated(rest);
      assert multiset(Untranslated(entries)) == multiset(head) + multiset(Untranslated(rest));
      assert multiset(entries) == multiset{x} + multiset(rest);
    }
  }

  /** No untranslated entry of the catalog is left out of the selection. */
  lemma {:induction false} UntranslatedComplete(entries: seq<Entry>, e: Entry)
    requires e in entries && !e.translated
    ensures e in Untranslated(entries)
  {
    if entries[0] != e {
      UntranslatedComplete(entries[1..], e);
    }
  }

  /** Selection then selection again changes nothing. */
  lemma {:induction false} UntranslatedIdempotent(entries: seq<Entry>)
    ensures Untranslated(Untranslated(entries)) == Untranslated(entries)
  {
    if entries != [] {
      UntranslatedIdempotent(entries[1..]);
      var head := if entries[0].translated then [] else [entries[0]];
      UntranslatedAppend(head, Untranslated(entries[1..]));
    }
  }

  lemma {:induction false} UntranslatedAppend(a: seq<Entry>, b: seq<Entry>)
    ensures Untranslated(a + b) == Untranslated(a) + Untranslated(b)
  {
    if a == [] {
      assert a + b == b;
    } else {
      assert (a + b)[1..] == a[1..] + b;
      UntranslatedAppend(a[1..], b);
    }
  }

  /** The message ids of a sequence of entries. */
  function Msgids(entries: seq<Entry>): (r: seq<string>)
    ensures |r| == |entries|
    ensures forall k :: 0 <= k < |r| ==> r[k] == entries[k].msgid
  {
    if entries == [] then [] else [entries[0].msgid] + Msgids(entries[1..])
  }

  // ---------------------------------------------------------------------------
  // Metadata

  /** The author string `main.py` writes. */
  const StandaloneAuthor: string := "Zahfron Adani Kautsar (tickernelz)"

  /** The author string the legacy script writes. */
  const LegacyAuthor: string := "Zahfron Adani Kautsar alias tickernelz"

  /** `update_metadata(po)`: sets the two team headers, nothing else. */
  function UpdateMetadata(metadata: map<string, string>, author: string): (r: map<string, string>)
    ensures r.Keys == metadata.Keys + {"Last-Translator", "Language-Team"}
    ensures r["Last-Translator"] == author && r["Language-Team"] == author
    ensures forall k :: k in metadata && k != "Last-Translator" && k != "Language-Team" ==> r[k] == metadata[k]
  {
    metadata["Last-Translator" := author]["Language-Team" := author]
  }

  // ---------------------------------------------------------------------------
  // The rewrite after a successful translation

  /** `po.clear(); po.extend(translated_entries); update_metadata(po)`, where
      the translated entries are the chunk results in completion order. */
  function Rewrite(catalog: Catalog, results: seq<seq<Entry>>, author: string): (r: Catalog)
    // the old entries are gone: only the chunk results remain, each chunk's
    // entries in order, one chunk after the other
    ensures |r.entries| == Total(results)
    ensures forall i, k :: 0 <= i < |results| && 0 <= k < |results[i]| ==>
      r.entries[Offset(results, i) + k] == results[i][k]
    // the two team headers are set and every other header is kept
    ensures r.metadata.Keys == catalog.metadata.Keys + {"Last-Translator", "Language-Team"}
    ensures r.metadata["Last-Translator"] == author && r.metadata["Language-Team"] == author
    ensures forall h :: h in catalog.metadata && h != "Last-Translator" && h != "Language-Team" ==>
      r.metadata[h] == catalog.metadata[h]
  {
    FlattenIndex(results);
    Catalog(Flatten(results), UpdateMetadata(catalog.metadata, author))
  }

  /** Any rearrangement of the chunk results flattens to a rearrangement of
      the flattened chunks: completion order changes only the order. */
  lemma {:induction false} FlattenPermutation<T>(results: seq<seq<T>>, chunks: seq<seq<T>>)
    requires multiset(results) == multiset(chunks)
    ensures multiset(Flatten(results)) == multiset(Flatten(chunks))
    decreases |results|
  {
    if results == [] {
      assert |chunks| == |multiset(chunks)| == 0;
    } else {
      var x := results[0];
      assert x in multiset(chunks);
      var j :| 0 <= j < |chunks| && chunks[j] == x;
      var rest := chunks[..j] + chunks[j + 1..];
      RemoveAt(chunks, j);
      RemoveAt(results, 0);
      assert results[..0] + results[1..] == results[1..];
      MultisetCancel(multiset(results[1..]), multiset(rest), x);
      FlattenPermutation(results[1..], rest);
      FlattenRemoveAt(chunks, j);
    }
  }

  lemma MultisetCancel<T>(a: multiset<T>, b: multiset<T>, x: T)
    requires a + multiset{x} == b + multiset{x}
    ensures a == b
  {
    assert a == (a + multiset{x}) - multiset{x};
    assert b == (b + multiset{x}) - multiset{x};
  }

  /** Taking out the element at `j` takes one copy of it out of the multiset. */
  lemma RemoveAt<T>(s: seq<T>, j: nat)
    requires j < |s|
    ensures multiset(s) == multiset(s[..j] + s[j + 1..]) + multiset{s[j]}
  {
    assert s == s[..j] + [s[j]] + s[j + 1..];
  }

  /** Flattening without the chunk at `j` loses exactly that chunk's items. */
  lemma FlattenRemoveAt<T>(chunks: seq<seq<T>>, j: nat)
    requires j < |chunks|
    ensures multiset(Flatten(chunks)) == multiset(chunks[j]) + multiset(Flatten(chunks[..j] + chunks[j + 1..]))
  {
    var a, b := chunks[..j], chunks[j + 1..];
    var fa, fb := Flatten(a), Flatten(b);
    FlattenAround(chunks, j);
    FlattenAppend(a, b);
    assert multiset(fa + chunks[j] + fb) == multiset(fa) + multiset(chunks[j]) + multiset(fb);
    assert multiset(fa + fb) == multiset(fa) + multiset(fb);
  }

  /** The flattening around the chunk at `j`. */
  lemma FlattenAround<T>(chunks: seq<seq<T>>, j: nat)
    requires j < |chunks|
    ensures Flatten(chunks) == Flatten(chunks[..j]) + chunks[j] + Flatten(chunks[j + 1..])
  {
    var cb := chunks[j..];
    assert chunks == chunks[..j] + cb;
    FlattenAppend(chunks[..j], cb);
    assert cb[1..] == chunks[j + 1..];
  }

  /** The message ids survive flattening. */
  lemma {:induction false} MsgidsFlatten(chunks: seq<seq<Entry>>)
    ensures |Msgids(Flatten(chunks))| == |Flatten(chunks)|
    ensures Msgids(Flatten(chunks)) == Flatten(MapMsgids(chunks))
  {
    if chunks != [] {
      MsgidsFlatten(chunks[1..]);
      MsgidsAppend(chunks[0], Flatten(chunks[1..]));
    }
  }

  function MapMsgids(chunks: seq<seq<Entry>>): (r: seq<seq<string>>)
    ensures |r| == |chunks|
    ensures forall k :: 0 <= k < |r| ==> r[k] == Msgids(chunks[k])
  {
    if chunks == [] then [] else [Msgids(chunks[0])] + MapMsgids(chunks[1..])
  }

  lemma MsgidsAppend(a: seq<Entry>, b: seq<Entry>)
    ensures Msgids(a + b) == Msgids(a) + Msgids(b)
  {
  }
}

=== FILE: chunking.dfy ===
/** Work partitioning, shared by the translators (one chunk per worker task)
    and the file splitter (one chunk per part file):

      chunk_size = max(1, len(entries) // jobs)
      chunks = [entries[i : i + chunk_size] for i in range(0, len(entries), chunk_size)]

    `//` is Python's floor division, which raises `ZeroDivisionError` for a
    zero divisor and rounds towards minus infinity for a negative one. */
module Chunking {
  import opened Wrappers

  /** Python's `a // b`. */
  function FloorDiv(a: int, b: int): (r: Result<int>)
    ensures r.Failure? <==> b == 0
    ensures r.Failure? ==> r.error == ZeroDivisionError
    ensures b > 0 && r.Success? ==> b * r.value <= a < b * r.value + b
    ensures b < 0 && r.Success? ==> b * r.value + b < a <= b * r.value
  {
    if b == 0 then Failure(ZeroDivisionError)
    else if b > 0 || a % b == 0 then Success(a / b)
    else Success(a / b - 1)
  }

  /** `max(1, n // jobs)` */
  function ChunkSize(n: nat, jobs: int): (r: Result<nat>)
    ensures r.Failure? <==> jobs == 0
    ensures r.Success? ==> r.value >= 1
    ensures jobs > 0 ==> r == Success(if n / jobs < 1 then 1 else n / jobs)
    ensures jobs < 0 ==> r == Success(1)
  {
    var q :- FloorDiv(n, jobs);
    Success(if q < 1 then 1 else q)
  }

  /** `entries[i : i + size]`: a slice clipped at the end of the sequence. */
  function Slice<T>(entries: seq<T>, i: nat, size: nat): (s: seq<T>)
    requires i <= |entries|
    ensures |s| == if i + size <= |entries| then size else |entries| - i
    ensures forall k :: 0 <= k < |s| ==> s[k] == entries[i + k]
  {
    if i + size <= |entries| then entries[i..i + size] else entries[i..]
  }

  /** The slices for `range(i, len(entries), size)`. */
  function ChunksFrom<T>(entries: seq<T>, size: nat, i: nat): seq<seq<T>>
    requires size >= 1
    decreases |entries| - i
  {
    if i >= |entries| then []
    else [Slice(entries, i, size)] + ChunksFrom(entries, size, i + size)
  }

  function Chunks<T>(entries: seq<T>, size: nat): seq<seq<T>>
    requires size >= 1
  {
    ChunksFrom(entries, size, 0)
  }

  /** The whole partitioning step, failing where Python raises. */
  function Partition<T>(entries: seq<T>, jobs: int): (r: Result<seq<seq<T>>>)
    ensures r.Failure? <==> jobs == 0
  {
    var size :- ChunkSize(|entries|, jobs);
    Success(Chunks(entries, size))
  }

  /** The concatenation of a sequence of sequences. */
  function Flatten<T>(chunks: seq<seq<T>>): seq<T> {
    if chunks == [] then [] else chunks[0] + Flatten(chunks[1..])
  }

  lemma FlattenAppend<T>(a: seq<seq<T>>, b: seq<seq<T>>)
    ensures Flatten(a + b) == Flatten(a) + Flatten(b)
  {
    if a != [] {
      assert (a + b)[1..] == a[1..] + b;
    } else {
      assert a + b == b;
    }
  }

  /** Where the `i`-th chunk starts once the chunks are laid end to end: the
      total length of the chunks before it. */
  function Offset<T>(chunks: seq<seq<T>>, i: nat): (r: nat)
    requires i <= |chunks|
    ensures i < |chunks| ==> r + |chunks[i]| <= Total(chunks)
    ensures i == |chunks| ==> r == Total(chunks)
  {
    if i == 0 then 0 else |chunks[0]| + Offset(chunks[1..], i - 1)
  }

  /** The summed length of the chunks. */
  function Total<T>(chunks: seq<seq<T>>): nat {
    if chunks == [] then 0 else |chunks[0]| + Total(chunks[1..])
  }

  /** The concatenation holds every chunk at its offset. */
  lemma FlattenIndex<T>(chunks: seq<seq<T>>)
    ensures |Flatten(chunks)| == Total(chunks)
    ensures forall i, k :: 0 <= i < |chunks| && 0 <= k < |chunks[i]| ==>
      Flatten(chunks)[Offset(chunks, i) + k] == chunks[i][k]
  {
    FlattenTotal(chunks);
    forall i, k | 0 <= i < |chunks| && 0 <= k < |chunks[i]|
      ensures Flatten(chunks)[Offset(chunks, i) + k] == chunks[i][k]
    {
      FlattenAt(chunks, i, k);
    }
  }

  lemma {:induction false} FlattenTotal<T>(chunks: seq<seq<T>>)
    ensures |Flatten(chunks)| == Total(chunks)
  {
    if chunks != [] {
      FlattenTotal(chunks[1..]);
    }
  }

  /** The `k`-th item of the `i`-th chunk, found in the concatenation. */
  lemma {:induction false} FlattenAt<T>(chunks: seq<seq<T>>, i: nat, k: nat)
    requires i < |chunks| && k < |chunks[i]|
    ensures Offset(chunks, i) + k < |Flatten(chunks)| && Flatten(chunks)[Offset(chunks, i) + k] == chunks[i][k]
    decreases i
  {
    var rest := chunks[1..];
    FlattenTotal(chunks);
    assert Flatten(chunks) == chunks[0] + Flatten(rest);
    if i > 0 {
      assert chunks[i] == rest[i - 1];
      FlattenAt(rest, i - 1, k);
    }
  }

  /** Ceiling division for a positive divisor. */
  function CeilDiv(n: nat, size: nat): nat
    requires size >= 1
  {
    (n + size - 1) / size
  }

  // ---------------------------------------------------------------------------
  // Properties of the slicing

  /** The chunks concatenate back to the slice they start from. */
  lemma {:induction false} ChunksFromFlatten<T>(entries: seq<T>, size: nat, i: nat)
    requires size >= 1 && i <= |entries|
    ensures Flatten(ChunksFrom(entries, size, i)) == entries[i..]
    decreases |entries| - i
  {
    if i < |entries| {
      var s := Slice(entries, i, size);
      if i + size <= |entries| {
        ChunksFromFlatten(entries, size, i + size);
        assert entries[i..] == s + entries[i + size..];
      } else {
        assert ChunksFrom(entries, size, i + size) == [];
        assert s == entries[i..];
      }
      assert ChunksFrom(entries, size, i)[1..] == ChunksFrom(entries, size, i + size);
    }
  }

  /** Every chunk is non-empty, every chunk but the last holds exactly `size`
      entries, and the last holds at most `size`. */
  lemma {:induction false} ChunksFromSizes<T>(entries: seq<T>, size: nat, i: nat)
    requires size >= 1 && i <= |entries|
    ensures forall k :: 0 <= k < |ChunksFrom(entries, size, i)| ==> 1 <= |ChunksFrom(entries, size, i)[k]| <= size
    ensures forall k :: 0 <= k < |ChunksFrom(entries, size, i)| - 1 ==> |ChunksFrom(entries, size, i)[k]| == size
    decreases |entries| - i
  {
    if i < |entries| {
      var cs := ChunksFrom(entries, size, i);
      var rest := ChunksFrom(entries, size, i + size);
      assert cs == [Slice(entries, i, size)] + rest;
      if i + size <= |entries| {
        ChunksFromSizes(entries, size, i + size);
        assert forall k :: 0 <= k < |rest| ==> 1 <= |rest[k]| <= size;
        assert forall k :: 0 <= k < |rest| - 1 ==> |rest[k]| == size;
      } else {
        assert rest == [];
      }
      forall k | 0 <= k < |cs|
        ensures 1 <= |cs[k]| <= size
        ensures k < |cs| - 1 ==> |cs[k]| == size
      {
        if k > 0 {
          assert cs[k] == rest[k - 1];
        }
      }
    }
  }

  /** There are `ceil((n - i) / size)` chunks. */
  lemma {:induction false} ChunksFromCount<T>(entries: seq<T>, size: nat, i: nat)
    requires size >= 1 && i <= |entries|
    ensures |ChunksFrom(entries, size, i)| == CeilDiv(|entries| - i, size)
    decreases |entries| - i
  {
    var m := |entries| - i;
    if i < |entries| {
      if i + size <= |entries| {
        ChunksFromCount(entries, size, i + size);
        DivAddMultiple(1, size, m - size + size - 1);
      } else {
        assert ChunksFrom(entries, size, i + size) == [];
        DivUnique(m + size - 1, size, 1);
      }
    }
  }

  /** The quotient is the unique `q` with `q * d <= t < q * d + d`. */
  lemma DivUnique(t: int, d: int, q: int)
    requires d >= 1 && q * d <= t < q * d + d
    ensures t / d == q
  {
    var q', r' := t / d, t % d;
    assert t == q' * d + r' && 0 <= r' < d;
    if q' < q {
      MulAtLeast(q - q', d);
      MulSub(q, q', d);
    } else if q' > q {
      MulAtLeast(q' - q, d);
      MulSub(q', q, d);
    }
  }

  lemma MulAtLeast(e: int, d: int)
    requires e >= 1 && d >= 1
    ensures e * d >= d
  {
  }

  lemma MulSub(a: int, b: int, d: int)
    ensures (a - b) * d == a * d - b * d
  {
  }

  lemma DivAddMultiple(k: int, d: int, t: int)
    requires d >= 1
    ensures (d * k + t) / d == k + t / d
  {
    var q, r := t / d, t % d;
    assert t == q * d + r && 0 <= r < d;
    assert d * k + t == (k + q) * d + r;
    DivUnique(d * k + t, d, k + q);
  }

  /** The chunks partition the entries in order. */
  lemma ChunksPartition<T>(entries: seq<T>, size: nat)
    requires size >= 1
    ensures Flatten(Chunks(entries, size)) == entries
    ensures var cs := Chunks(entries, size);
      && |cs| == CeilDiv(|entries|, size)
      && (forall k :: 0 <= k < |cs| ==> 1 <= |cs[k]| <= size)
      && (forall k :: 0 <= k < |cs| - 1 ==> |cs[k]| == size)
  {
    ChunksFromFlatten(entries, size, 0);
    ChunksFromSizes(entries, size, 0);
    ChunksFromCount(entries, size, 0);
  }

  /** With `1 <= jobs <= n` there are at least `jobs` chunks and fewer than
      `2 * jobs`: the count exceeds `jobs` whenever `jobs` does not divide `n`
      into equal shares. */
  lemma ChunkCountBounds(n: nat, jobs: int)
    requires 1 <= jobs <= n
    ensures ChunkSize(n, jobs).Success?
    ensures var size := ChunkSize(n, jobs).value;
      jobs <= CeilDiv(n, size) < 2 * jobs
    ensures n % jobs != 0 ==> CeilDiv(n, ChunkSize(n, jobs).value) > jobs
  {
    var q := n / jobs;
    var r := n % jobs;
    assert n == q * jobs + r;
    assert q >= 1;
    var size := ChunkSize(n, jobs).value;
    assert size == q;
    CeilDivBounds(n, q, jobs, r);
  }

  /** `ceil((q * jobs + r) / q)` lies in `[jobs, jobs + r]`, and exceeds
      `jobs` exactly when `r > 0`. */
  lemma CeilDivBounds(n: nat, q: nat, jobs: nat, r: nat)
    requires q >= 1 && n == q * jobs + r && r < jobs
    ensures jobs <= CeilDiv(n, q) <= jobs + r
    ensures r > 0 ==> CeilDiv(n, q) > jobs
  {
    var t := r + q - 1;
    assert n + q - 1 == q * jobs + t;
    DivAddMultiple(jobs, q, t);
    SmallQuotient(r, q);
  }

  /** `(r + q - 1) // q` lies in `[0, r]`, and is positive when `r` is. */
  lemma SmallQuotient(r: nat, q: nat)
    requires q >= 1
    ensures 0 <= (r + q - 1) / q <= r
    ensures r > 0 ==> (r + q - 1) / q >= 1
  {
    var t := r + q - 1;
    var u := t / q;
    QuotientBounds(t, q);
    MulMonotone(1, q, r);
    MulSucc(r, q);
    MulLessCancel(u, r + 1, q);
    if r > 0 {
      MulLessCancel(0, u, q);
    }
  }

  /** `t // q * q <= t < t // q * q + q` */
  lemma QuotientBounds(t: int, q: int)
    requires q >= 1
    ensures (t / q) * q <= t < (t / q) * q + q
  {
  }

  lemma MulSucc(a: int, d: int)
    ensures (a + 1) * d == a * d + d
  {
  }

  lemma MulLessCancel(a: int, b: int, d: int)
    requires d >= 1 && a * d < b * d
    ensures a < b
  {
    if a >= b {
      MulMonotone(b, a, d);
    }
  }

  lemma MulMonotone(a: int, b: int, d: int)
    requires a <= b && d >= 0
    ensures a * d <= b * d
  {
    MulSub(b, a, d);
    assert (b - a) * d >= 0;
  }

  /** Ten entries asked to be split in three give four parts of sizes
      3, 3, 3, 1. */
  lemma TenEntriesThreeJobs<T>(entries: seq<T>)
    requires |entries| == 10
    ensures Partition(entries, 3).Success?
    ensures |Partition(entries, 3).value| == 4
    ensures |Partition(entries, 3).value[3]| == 1
  {
    var size := ChunkSize(10, 3).value;
    assert size == 3;
    var e := entries;
    assert ChunksFrom(e, 3, 12) == [];
    assert ChunksFrom(e, 3, 9) == [Slice(e, 9, 3)];
    assert ChunksFrom(e, 3, 6) == [Slice(e, 6, 3), Slice(e, 9, 3)];
    assert ChunksFrom(e, 3, 3) == [Slice(e, 3, 3), Slice(e, 6, 3), Slice(e, 9, 3)];
  }
}

=== FILE: cli.dfy ===
/** The command line of `main.py` and of the legacy script: which mode runs,
    which files a folder contributes, and how the folder loop stops.
    Arguments used only as conditions are written as `""` and `0`
    when absent, since absent and empty (or zero) are both false in Python.
    The output folder is used as a path, so its absence is `None`. */
module Cli {
  import opened Wrappers
  import opened Text
  import opened Catalog
  import opened Cache
  import opened Config
  import opened Factory
  import opened Paths
  import opened Processor
  import opened Splitter
  import opened Legacy

  /** The parsed command line of `main.py`. */
  datatype Args = Args(
    filePath: string, folderPath: string, outputFolder: Option<string>, configFile: string,
    odoo: bool, jobs: int, force: bool,
    split: string, numSplit: int, outputSplit: string,
    merge: string, outputMerge: string)

  /** The mode `MainController.run` picks. */
  datatype Action =
    | SplitFile(path: string, numSplit: int, outputFolder: string)
    | MergeFolder(folder: string, outputFile: string)
    | TranslateOne(path: string)
    | TranslateFolder(folder: string)
    | Usage(message: string)

  /** `MainController.run`: split, then merge, then a file, then a folder,
      else a usage error.  A split or merge request missing its companion
      argument is an error; it does not fall through to the next mode. */
  function Dispatch(args: Args): (r: Action)
    ensures r.SplitFile? <==> args.split != "" && args.numSplit != 0 && args.outputSplit != ""
    ensures r.MergeFolder? <==> args.split == "" && args.merge != "" && args.outputMerge != ""
    ensures r.TranslateOne? <==> args.split == "" && args.merge == "" && args.filePath != ""
    ensures r.TranslateFolder? <==>
      args.split == "" && args.merge == "" && args.filePath == "" && args.folderPath != ""
    ensures r.SplitFile? ==> r == SplitFile(args.split, args.numSplit, args.outputSplit)
    ensures r.MergeFolder? ==> r == MergeFolder(args.merge, args.outputMerge)
    ensures r.TranslateOne? ==> r.path == args.filePath
    ensures r.TranslateFolder? ==> r.folder == args.folderPath
  {
    if args.split != "" then
      if args.numSplit == 0 || args.outputSplit == "" then
        Usage("Parameters --num_split and --output_split are required for splitting.")
      else SplitFile(args.split, args.numSplit, args.outputSplit)
    else if args.merge != "" then
      if args.outputMerge == "" then Usage("Parameter --output_merge is required for merging.")
      else MergeFolder(args.merge, args.outputMerge)
    else if args.filePath != "" then TranslateOne(args.filePath)
    else if args.folderPath != "" then TranslateFolder(args.folderPath)
    else Usage("Either --file_path, --folder_path, --split, or --merge must be provided.")
  }

  /** A file the folder modes pick up: its name ends in `.po` or `.pot`. */
  predicate IsPoName(name: string) {
    EndsWith(name, ".po") || EndsWith(name, ".pot")
  }

  /** The folder listing filtered to catalog files, joined to the folder, in
      listing order. */
  function PoFiles(folder: string, names: seq<string>): (r: seq<string>)
    ensures |r| <= |names|
    ensures forall p :: p in r <==> exists n :: n in names && IsPoName(n) && p == Join(folder, n)
  {
    if names == [] then []
    else
      var rest := PoFiles(folder, names[1..]);
      assert forall n :: n in names <==> n == names[0] || n in names[1..];
      if IsPoName(names[0]) then [Join(folder, names[0])] + rest else rest
  }

  /** `main.py` sets its error flag when a translation failed: the file had
      data but nothing came back to write. */
  predicate Flagged(input: Input, outcome: Result<Outcome>) {
    input.Parsed? && outcome == Success(NotWritten)
  }

  /** One file of `main.py`: `process_file` with the outputs present.
      Without `-o` the output path cannot be formed. */
  function ProcessOne(path: string, read: string -> Input, existing: set<string>,
                      config: map<string, Json>, outputFolder: Option<string>, odoo: bool, jobs: int, force: bool,
                      translate: Translator, env: Env, author: string): Result<Outcome>
  {
    match outputFolder
    case None => ProcessWithoutFolder(Standalone, config, odoo)
    case Some(out) =>
      Process(Standalone, existing, path, read(path), config, out, odoo, jobs, force, translate, None, env, author).1
  }

  /** The outputs present once `outcome` is done. */
  function AfterOutcome(existing: set<string>, outcome: Result<Outcome>): set<string> {
    if outcome.Success? && outcome.value.Written? then existing + {outcome.value.path} else existing
  }

  /** The outputs present after the given outcomes, taken in order. */
  function SeenAfter(existing: set<string>, outcomes: seq<(string, Result<Outcome>)>): set<string>
    decreases |outcomes|
  {
    if outcomes == [] then existing else SeenAfter(AfterOutcome(existing, outcomes[0].1), outcomes[1..])
  }

  /** What `main.py` does in folder mode: the files one after another, each
      with the outputs written so far visible to the skip rule; an exception
      from one file is logged and the loop goes on, but after a failed
      translation the loop stops. */
  function RunFolder(paths: seq<string>, read: string -> Input, existing: set<string>,
                     config: map<string, Json>, outputFolder: Option<string>, odoo: bool, jobs: int, force: bool,
                     translate: Translator, env: Env, author: string)
    : (r: seq<(string, Result<Outcome>)>)
    ensures |r| <= |paths|
    ensures forall k :: 0 <= k < |r| ==> r[k].0 == paths[k]
    ensures forall k :: 0 <= k < |r| ==>
      r[k].1 == ProcessOne(paths[k], read, SeenAfter(existing, r[..k]), config, outputFolder, odoo, jobs, force,
                           translate, env, author)
    ensures forall k :: 0 <= k < |r| - 1 ==> !Flagged(read(paths[k]), r[k].1)
    ensures |r| < |paths| ==> r != [] && Flagged(read(paths[|r| - 1]), r[|r| - 1].1)
    ensures paths != [] ==> r != []
  {
    var step := (path, seen) => ProcessOne(path, read, seen, config, outputFolder, odoo, jobs, force, translate, env, author);
    RunStepsFold(paths, read, existing, step);
    RunSteps(paths, read, existing, step)
  }

  /** The folder loop for any per-file step, given the outputs seen so far. */
  function RunSteps(paths: seq<string>, read: string -> Input, existing: set<string>,
                    step: (string, set<string>) -> Result<Outcome>)
    : (r: seq<(string, Result<Outcome>)>)
    ensures |r| <= |paths|
    ensures forall k :: 0 <= k < |r| ==> r[k].0 == paths[k]
    ensures forall k :: 0 <= k < |r| - 1 ==> !Flagged(read(paths[k]), r[k].1)
    ensures |r| < |paths| ==> r != [] && Flagged(read(paths[|r| - 1]), r[|r| - 1].1)
    ensures paths != [] ==> r != []
    ensures paths != [] ==> r[0].1 == step(paths[0], existing)
  {
    if paths == [] then []
    else
      var outcome := step(paths[0], existing);
      if Flagged(read(paths[0]), outcome) then [(paths[0], outcome)]
      else [(paths[0], outcome)] + RunSteps(paths[1..], read, AfterOutcome(existing, outcome), step)
  }

  /** Each file of the loop is processed with the outputs the files before
      it left behind. */
  lemma {:induction false} RunStepsFold(paths: seq<string>, read: string -> Input, existing: set<string>,
                                        step: (string, set<string>) -> Result<Outcome>)
    ensures var r := RunSteps(paths, read, existing, step);
      forall k :: 0 <= k < |r| ==> r[k].1 == step(paths[k], SeenAfter(existing, r[..k]))
    decreases |paths|
  {
    var r := RunSteps(paths, read, existing, step);
    if paths != [] {
      var o := step(paths[0], existing);
      assert r[..0] == [];
      if !Flagged(read(paths[0]), o) {
        var after := AfterOutcome(existing, o);
        var rest := RunSteps(paths[1..], read, after, step);
        assert r == [(paths[0], o)] + rest;
        RunStepsFold(paths[1..], read, after, step);
        forall k | 1 <= k < |r|
          ensures r[k].1 == step(paths[k], SeenAfter(existing, r[..k]))
        {
          SeenAfterCons(existing, (paths[0], o), rest, k);
          assert r[k] == rest[k - 1] && paths[k] == paths[1..][k - 1];
        }
      }
    }
  }

  lemma SeenAfterCons(existing: set<string>, first: (string, Result<Outcome>),
                      rest: seq<(string, Result<Outcome>)>, k: nat)
    requires 1 <= k <= |rest| + 1
    ensures SeenAfter(existing, ([first] + rest)[..k]) == SeenAfter(AfterOutcome(existing, first.1), rest[..k - 1])
  {
    var s := ([first] + rest)[..k];
    assert s[0] == first && s[1..] == rest[..k - 1];
  }

  /** The first two steps of the folder loop: the first file sees the
      outputs present at the start, the second also the first's output. */
  lemma RunFolderFirstSteps(paths: seq<string>, read: string -> Input, existing: set<string>,
                            config: map<string, Json>, outputFolder: Option<string>, odoo: bool, jobs: int, force: bool,
                            translate: Translator, env: Env, author: string)
    requires paths != []
    ensures var r := RunFolder(paths, read, existing, config, outputFolder, odoo, jobs, force, translate, env, author);
      && r[0].1 == ProcessOne(paths[0], read, existing, config, outputFolder, odoo, jobs, force, translate, env, author)
      && (|r| >= 2 ==>
            r[1].1 == ProcessOne(paths[1], read, AfterOutcome(existing, r[0].1), config, outputFolder, odoo, jobs,
                                 force, translate, env, author))
  {
  }

  /** What a run of `main.py` ends with. */
  datatype Run =
    | Parts(parts: Result<seq<Part>>)
    | Merged(folder: string, outputFile: string)
    | Files(outcomes: seq<(string, Result<Outcome>)>)
    | Refused(message: string)
    | Raised(error: Error)

  /** The world a run sees: the command line, the host, the files with their
      parsed content, folder listings, the outputs already present. */
  datatype World = World(host: Host, fs: Files, dirs: set<string>, listings: map<string, seq<string>>,
                         read: string -> Input, existing: set<string>)

  /** Where `main.py` loads its configuration from, as written: the
      directory of `-c` joined with `-c` again (`ConfigPath`), after that
      directory was created. */
  function MainConfigPath(args: Args, w: World): string {
    ConfigPath(args.configFile, args.configFile, w.host)
  }

  function MainDirs(args: Args, w: World): set<string> {
    w.dirs + {ConfigDir(args.configFile, w.host)}
  }

  /** `main.py` once its configuration is loaded: the mode the arguments
      select.  The split mode uses the unpadded part names of `main.py`. */
  function MainModes(args: Args, w: World, config: map<string, Json>, translate: Translator, env: Env,
                     author: string): (r: Run)
    ensures r.Refused? <==> Dispatch(args).Usage?
    ensures r.Parts? <==> Dispatch(args).SplitFile?
    ensures r.Parts? ==> r.parts == Split(args.split, w.read(args.split), args.numSplit, args.outputSplit, false)
    ensures Dispatch(args).TranslateOne? ==>
      r == Files([(args.filePath, ProcessOne(args.filePath, w.read, w.existing, config, args.outputFolder,
                                             args.odoo, args.jobs, args.force, translate, env, author))])
    ensures Dispatch(args).TranslateOne? && args.outputFolder.None? ==>
      |r.outcomes| == 1 && r.outcomes[0].1.Failure?
    ensures Dispatch(args).TranslateFolder? ==>
      r == if args.folderPath in w.listings
           then Files(RunFolder(PoFiles(args.folderPath, w.listings[args.folderPath]), w.read, w.existing,
                                config, args.outputFolder, args.odoo, args.jobs, args.force, translate, env, author))
           else Raised(FileNotFoundError(args.folderPath))
  {
    match Dispatch(args)
    case Usage(m) => Refused(m)
    case SplitFile(path, n, out) => Parts(Split(path, w.read(path), n, out, false))
    case MergeFolder(folder, out) => Merged(folder, out)
    case TranslateOne(path) =>
      var outcome := ProcessOne(path, w.read, w.existing, config, args.outputFolder, args.odoo, args.jobs,
                                args.force, translate, env, author);
      Files([(path, outcome)])
    case TranslateFolder(folder) =>
      if folder !in w.listings then Raised(FileNotFoundError(folder))
      else
        var paths := PoFiles(folder, w.listings[folder]);
        Files(RunFolder(paths, w.read, w.existing, config, args.outputFolder, args.odoo, args.jobs,
                        args.force, translate, env, author))
  }

  /** `main()` of `main.py`: the configuration is loaded (and created if
      missing) before the mode is chosen, and a failed load ends the
      program. */
  function Main(args: Args, w: World, translate: Translator, env: Env, author: string): (r: (Files, Run))
    ensures r.0 == LoadConfig(w.fs, MainDirs(args, w), MainConfigPath(args, w), false).0
    ensures LoadConfig(w.fs, MainDirs(args, w), MainConfigPath(args, w), false).1.Failure?
      ==> r.1 == Raised(LoadConfig(w.fs, MainDirs(args, w), MainConfigPath(args, w), false).1.error)
    ensures r.1.Refused? <==>
      LoadConfig(w.fs, MainDirs(args, w), MainConfigPath(args, w), false).1.Success? && Dispatch(args).Usage?
    ensures r.1.Parts? ==> (Dispatch(args).SplitFile? &&
      r.1.parts == Split(args.split, w.read(args.split), args.numSplit, args.outputSplit, false))
    ensures Dispatch(args).TranslateOne? && args.outputFolder.None? && r.1.Files? ==>
      |r.1.outcomes| == 1 && r.1.outcomes[0].1.Failure?
    // the two translate modes, once the configuration is loaded
    ensures var loaded := LoadConfig(w.fs, MainDirs(args, w), MainConfigPath(args, w), false).1;
      loaded.Success? && Dispatch(args).TranslateOne? ==>
        r.1 == Files([(args.filePath, ProcessOne(args.filePath, w.read, w.existing, loaded.value.fields,
                                                 args.outputFolder, args.odoo, args.jobs, args.force,
                                                 translate, env, author))])
    ensures var loaded := LoadConfig(w.fs, MainDirs(args, w), MainConfigPath(args, w), false).1;
      loaded.Success? && Dispatch(args).TranslateFolder? ==>
        r.1 == if args.folderPath in w.listings
               then Files(RunFolder(PoFiles(args.folderPath, w.listings[args.folderPath]), w.read, w.existing,
                                    loaded.value.fields, args.outputFolder, args.odoo, args.jobs, args.force,
                                    translate, env, author))
               else Raised(FileNotFoundError(args.folderPath))
  {
    var (fs', loaded) := LoadConfig(w.fs, MainDirs(args, w), MainConfigPath(args, w), false);
    match loaded
    case Failure(e) => (fs', Raised(e))
    case Success(content) => (fs', MainModes(args, w, content.fields, translate, env, author))
  }

  // ---------------------------------------------------------------------------
  // The legacy script

  /** The legacy command line: the output folder and the configuration file
      are positional. */
  datatype LegacyArgs = LegacyArgs(filePath: string, folderPath: string, outputFolder: string,
                                   configFile: string, odoo: bool)

  /** The legacy folder loop: every catalog file in listing order, no skip
      rule, and the first exception ends the whole run. */
  function LegacyRunFolder(paths: seq<string>, read: string -> Input, config: Json,
                           outputFolder: string, odoo: bool, translate: Translator)
    : (r: Result<seq<(string, Outcome)>>)
    ensures r.Success? <==> forall k :: 0 <= k < |paths| ==>
      LegacyProcess(paths[k], read(paths[k]), config, outputFolder, odoo, translate).Success?
    ensures r.Success? ==> |r.value| == |paths| && forall k :: 0 <= k < |paths| ==>
      r.value[k] == (paths[k], LegacyProcess(paths[k], read(paths[k]), config, outputFolder, odoo, translate).value)
  {
    if paths == [] then Success([])
    else
      match LegacyProcess(paths[0], read(paths[0]), config, outputFolder, odoo, translate)
      case Failure(e) => Failure(e)
      case Success(first) =>
        match LegacyRunFolder(paths[1..], read, config, outputFolder, odoo, translate)
        case Failure(e) => Failure(e)
        case Success(rest) => Success([(paths[0], first)] + rest)
  }

  /** The legacy script opens its configuration file by the name given,
      relative to the working directory and without normalising it; no file
      has the empty name. */
  function LegacyConfigPath(cwd: string, configFile: string): (r: string)
    ensures configFile == [] <==> r == []
    ensures IsAbsolute(configFile) ==> r == configFile
  {
    if configFile == [] then [] else Join(cwd, configFile)
  }

  /** The legacy script once its configuration is loaded: a file, else a
      folder, else a usage error. */
  function LegacyModes(args: LegacyArgs, w: World, config: Json, translate: Translator): (r: Run)
    ensures r.Refused? <==> args.filePath == "" && args.folderPath == ""
    // a file: its outcome, or the exception that ends the script
    ensures args.filePath != "" ==>
      var o := LegacyProcess(args.filePath, w.read(args.filePath), config, args.outputFolder, args.odoo, translate);
      r == if o.Success? then Files([(args.filePath, o)]) else Raised(o.error)
    // a folder: every catalog file's outcome, or the first exception
    ensures args.filePath == "" && args.folderPath != "" && args.folderPath !in w.listings ==>
      r == Raised(FileNotFoundError(args.folderPath))
    ensures args.filePath == "" && args.folderPath != "" && args.folderPath in w.listings ==>
      var paths := PoFiles(args.folderPath, w.listings[args.folderPath]);
      var run := LegacyRunFolder(paths, w.read, config, args.outputFolder, args.odoo, translate);
      && (r.Raised? <==> run.Failure?)
      && (run.Failure? ==> r == Raised(run.error))
      && (run.Success? ==>
            && r.Files?
            && |r.outcomes| == |paths|
            && forall k :: 0 <= k < |paths| ==>
                 r.outcomes[k] == (paths[k], LegacyProcess(paths[k], w.read(paths[k]), config,
                                                           args.outputFolder, args.odoo, translate)))
  {
    if args.filePath != "" then
      match LegacyProcess(args.filePath, w.read(args.filePath), config, args.outputFolder, args.odoo, translate)
      case Failure(e) => Raised(e)
      case Success(o) => Files([(args.filePath, Success(o))])
    else if args.folderPath != "" then
      if args.folderPath !in w.listings then Raised(FileNotFoundError(args.folderPath))
      else
        var paths := PoFiles(args.folderPath, w.listings[args.folderPath]);
        match LegacyRunFolder(paths, w.read, config, args.outputFolder, args.odoo, translate)
        case Failure(e) => Raised(e)
        case Success(outcomes) =>
          Files(seq(|outcomes|, k requires 0 <= k < |outcomes| => (outcomes[k].0, Success(outcomes[k].1))))
    else Refused("Either --file_path or --folder_path must be provided.")
  }

  /** `main()` of the legacy script: the configuration file is used as given
      (relative to the working directory) and created when missing, and a
      failed load ends the script; then `LegacyModes`.  Any JSON content
      loads. */
  function LegacyMain(args: LegacyArgs, w: World, translate: Translator): (r: (Files, Run))
    ensures r.0 == LoadConfig(w.fs, w.dirs, LegacyConfigPath(w.host.cwd, args.configFile), true).0
    ensures r.1.Refused? <==>
      LoadConfig(w.fs, w.dirs, LegacyConfigPath(w.host.cwd, args.configFile), true).1.Success? &&
      args.filePath == "" && args.folderPath == ""
    ensures var loaded := LoadConfig(w.fs, w.dirs, LegacyConfigPath(w.host.cwd, args.configFile), true).1;
      r.1 == if loaded.Failure? then Raised(loaded.error) else LegacyModes(args, w, loaded.value, translate)
  {
    var (fs', loaded) := LoadConfig(w.fs, w.dirs, LegacyConfigPath(w.host.cwd, args.configFile), true);
    match loaded
    case Failure(e) => (fs', Raised(e))
    case Success(config) => (fs', LegacyModes(args, w, config, translate))
  }

  // ---------------------------------------------------------------------------
  // Properties

  /** `main.py` refuses a zero part count before the splitter sees it, so
      its split mode never divides by zero; a negative count gets through. */
  lemma MainSplitNeverDividesByZero(args: Args, w: World, translate: Translator, env: Env, author: string)
    requires Main(args, w, translate, env, author).1.Parts?
    ensures Main(args, w, translate, env, author).1.parts.Success?
  {
  }

  /** With a relative `-c dir/name`, `main.py` looks for `dir/dir/name`
      under the working directory; when that file is missing its directory
      does not exist either (only `dir` was created), so the run stops with
      `FileNotFoundError` whether or not `dir/name` exists. */
  lemma MainDoubledConfigFails(dir: string, name: string, args: Args, w: World,
                               translate: Translator, env: Env, author: string)
    requires dir != [] && dir != "." && dir != ".." && NoSlash(dir) && name != [] && NoSlash(name)
    requires w.host.cwd != [] && w.host.cwd[|w.host.cwd| - 1] != '/'
    requires args.configFile == dir + "/" + name
    requires w.host.cwd + "/" + dir + "/" + dir + "/" + name !in w.fs
    requires w.host.cwd + "/" + dir + "/" + dir + "/" + name !in w.dirs
    requires w.host.cwd + "/" + dir + "/" + dir !in w.dirs
    ensures Main(args, w, translate, env, author)
         == (w.fs, Raised(FileNotFoundError(w.host.cwd + "/" + dir + "/" + dir + "/" + name)))
  {
    DoubledConfigLocation(dir, name, args, w);
    MainMissingConfig(args, w, translate, env, author);
  }

  /** Where `-c dir/name` leads `main.py`: a file path that is not a
      directory, in a directory that neither exists nor is created. */
  lemma DoubledConfigLocation(dir: string, name: string, args: Args, w: World)
    requires dir != [] && dir != "." && dir != ".." && NoSlash(dir) && name != [] && NoSlash(name)
    requires w.host.cwd != [] && w.host.cwd[|w.host.cwd| - 1] != '/'
    requires args.configFile == dir + "/" + name
    requires w.host.cwd + "/" + dir + "/" + dir + "/" + name !in w.dirs
    requires w.host.cwd + "/" + dir + "/" + dir !in w.dirs
    ensures var doubled := w.host.cwd + "/" + dir + "/" + dir + "/" + name;
      && MainConfigPath(args, w) == doubled
      && !NamesDirectory(MainDirs(args, w), doubled)
      && Dirname(doubled) !in MainDirs(args, w)
  {
    var cwd := w.host.cwd;
    var doubled := cwd + "/" + dir + "/" + dir + "/" + name;
    assert MainConfigPath(args, w) == doubled by {
      ConfigPathDoubled(dir, name, w.host);
    }
    assert MainDirs(args, w) == w.dirs + {cwd + "/" + dir} by {
      RelativeConfigDir(dir, name, w.host);
    }
    DoubledPathShape(dir, name, cwd);
  }

  /** `-c ""` leaves the configuration directory to the host and joins it
      with the empty name, which names the directory itself: reading it
      raises `IsADirectoryError`. */
  lemma MainEmptyConfigIsDirectory(args: Args, w: World, translate: Translator, env: Env, author: string)
    requires args.configFile == "" && ConfigDir("", w.host) != []
    ensures MainConfigPath(args, w) == Join(ConfigDir("", w.host), "")
    ensures Main(args, w, translate, env, author) == (w.fs, Raised(IsADirectoryError(MainConfigPath(args, w))))
  {
    JoinEmptyName(ConfigDir("", w.host));
    MainConfigIsDirectory(args, w, translate, env, author);
  }

  /** `-c conf` where `conf` is a directory of the working directory:
      `IsADirectoryError`. */
  lemma MainConfigNamesDirectory(name: string, args: Args, w: World, translate: Translator, env: Env,
                                 author: string)
    requires name != [] && NoSlash(name)
    requires w.host.cwd != [] && w.host.cwd[|w.host.cwd| - 1] != '/'
    requires args.configFile == name && w.host.cwd + "/" + name in w.dirs
    ensures Main(args, w, translate, env, author) == (w.fs, Raised(IsADirectoryError(w.host.cwd + "/" + name)))
  {
    ConfigPathBareName(name, w.host);
    MainConfigIsDirectory(args, w, translate, env, author);
  }

  /** `-c conf/` names the directory `conf/` under the working directory:
      `IsADirectoryError`, whether or not `conf` exists. */
  lemma MainConfigTrailingSlash(name: string, args: Args, w: World, translate: Translator, env: Env,
                                author: string)
    requires name != [] && NoSlash(name)
    requires w.host.cwd != [] && w.host.cwd[|w.host.cwd| - 1] != '/'
    requires args.configFile == name + "/"
    ensures Main(args, w, translate, env, author) == (w.fs, Raised(IsADirectoryError(w.host.cwd + "/" + name + "/")))
  {
    ConfigPathTrailingSlash(name, w.host);
    MainConfigIsDirectory(args, w, translate, env, author);
  }

  /** A configuration path that names a directory ends `main.py` with
      `IsADirectoryError` before any mode is chosen. */
  lemma MainConfigIsDirectory(args: Args, w: World, translate: Translator, env: Env, author: string)
    requires MainConfigPath(args, w) != [] && NamesDirectory(MainDirs(args, w), MainConfigPath(args, w))
    ensures Main(args, w, translate, env, author) == (w.fs, Raised(IsADirectoryError(MainConfigPath(args, w))))
  {
  }

  /** A configuration file that is missing, in a directory that is missing,
      ends `main.py` with `FileNotFoundError` before any mode is chosen. */
  lemma MainMissingConfig(args: Args, w: World, translate: Translator, env: Env, author: string)
    requires MainConfigPath(args, w) != [] && MainConfigPath(args, w) !in w.fs
    requires !NamesDirectory(MainDirs(args, w), MainConfigPath(args, w))
    requires Dirname(MainConfigPath(args, w)) !in MainDirs(args, w)
    ensures Main(args, w, translate, env, author) == (w.fs, Raised(FileNotFoundError(MainConfigPath(args, w))))
  {
  }

  /** `stem.po` and `stem.pot` in one folder have one output file, so with
      `force` off the second is skipped once the first was written. */
  lemma PoThenPotSkipped(folder: string, stem: string, read: string -> Input, existing: set<string>,
                         config: map<string, Json>, outputFolder: string, odoo: bool, jobs: int,
                         translate: Translator, env: Env, author: string)
    requires folder != [] && folder[|folder| - 1] != '/'
    requires NoSlash(stem) && exists k :: 0 <= k < |stem| && stem[k] != '.'
    requires TargetLang(config).Success? && GetTranslatorInstance(config).Success?
    ensures var paths := [Join(folder, stem + ".po"), Join(folder, stem + ".pot")];
      var r := RunFolder(paths, read, existing, config, Some(outputFolder), odoo, jobs, false, translate, env, author);
      |r| == 2 && r[0].1.Success? && r[0].1.value.Written? ==> r[1].1 == Success(Skipped(r[0].1.value.path))
  {
    var p1, p2 := Join(folder, stem + ".po"), Join(folder, stem + ".pot");
    var lang := TargetLang(config).value;
    SameStemSameOutput(folder, stem, outputFolder, lang, odoo);
    var r := RunFolder([p1, p2], read, existing, config, Some(outputFolder), odoo, jobs, false, translate, env, author);
    RunFolderFirstSteps([p1, p2], read, existing, config, Some(outputFolder), odoo, jobs, false, translate, env, author);
    if |r| == 2 && r[0].1.Success? && r[0].1.value.Written? {
      assert r[0].1.value.path == OutputPath(outputFolder, p1, lang, odoo);
    }
  }

  /** The two names in one folder produce the same output path, in either
      layout. */
  lemma SameStemSameOutput(folder: string, stem: string, outputFolder: string, lang: string, odoo: bool)
    requires folder != [] && folder[|folder| - 1] != '/'
    requires NoSlash(stem) && exists k :: 0 <= k < |stem| && stem[k] != '.'
    ensures OutputPath(outputFolder, Join(folder, stem + ".po"), lang, odoo)
         == OutputPath(outputFolder, Join(folder, stem + ".pot"), lang, odoo)
  {
    StemOfJoin(folder, stem, ".po");
    StemOfJoin(folder, stem, ".pot");
  }

  lemma StemOfJoin(folder: string, stem: string, ext: string)
    requires folder != [] && folder[|folder| - 1] != '/'
    requires NoSlash(stem) && exists k :: 0 <= k < |stem| && stem[k] != '.'
    requires ext == ".po" || ext == ".pot"
    ensures SplitExt(Basename(Join(folder, stem + ext))).0 == stem
  {
    assert NoSlash(stem + ext);
    JoinSplit(folder, stem + ext);
    SplitExtOf(stem, ext);
  }

  /** A failing entry in the first file stops the folder loop: no later file
      is processed. */
  lemma FailedEntryStopsFolder(paths: seq<string>, read: string -> Input, existing: set<string>,
                               config: map<string, Json>, outputFolder: string, odoo: bool, jobs: int, force: bool,
                               translate: Translator, env: Env, author: string, e: Entry)
    requires paths != [] && read(paths[0]).Parsed? && jobs >= 1
    requires TargetLang(config).Success? && GetTranslatorInstance(config).Success?
    requires force || OutputPath(outputFolder, paths[0], TargetLang(config).value, odoo) !in existing
    requires e in Untranslated(read(paths[0]).catalog.entries)
    requires TranslateEntry(e, config, translate, None, env).1.Failure?
    ensures |RunFolder(paths, read, existing, config, Some(outputFolder), odoo, jobs, force, translate, env, author)| == 1
  {
    OneFailureNoOutput(read(paths[0]), config, jobs, translate, env, author, e);
    var o := ProcessOne(paths[0], read, existing, config, Some(outputFolder), odoo, jobs, force, translate, env, author);
    RunFolderFirstSteps(paths, read, existing, config, Some(outputFolder), odoo, jobs, force, translate, env, author);
    assert Flagged(read(paths[0]), o);
  }

  /** The legacy script given the empty configuration name cannot create
      the file: `FileNotFoundError`, and nothing else happens. */
  lemma LegacyEmptyConfigFails(args: LegacyArgs, w: World, translate: Translator)
    requires args.configFile == ""
    ensures LegacyMain(args, w, translate) == (w.fs, Raised(FileNotFoundError("")))
  {
  }

  /** The legacy script opens a configuration name ending in a slash as
      given, so it is a directory: `IsADirectoryError`. */
  lemma LegacyConfigTrailingSlash(args: LegacyArgs, w: World, translate: Translator)
    requires args.configFile != [] && args.configFile[|args.configFile| - 1] == '/'
    ensures LegacyMain(args, w, translate).1.Raised?
    ensures LegacyMain(args, w, translate).1.error.IsADirectoryError?
  {
    var path := LegacyConfigPath(w.host.cwd, args.configFile);
    if !IsAbsolute(args.configFile) {
      assert path[|path| - 1] == '/';
    }
  }

  /** The legacy loop has no skip rule: `stem.po` and `stem.pot` are both
      translated and the second overwrites the first's output. */
  lemma LegacyPotOverwritesPo(folder: string, stem: string, read: string -> Input, config: Json,
                              outputFolder: string, odoo: bool, translate: Translator)
    requires folder != [] && folder[|folder| - 1] != '/'
    requires NoSlash(stem) && exists k :: 0 <= k < |stem| && stem[k] != '.'
    requires read(Join(folder, stem + ".po")).Parsed? && read(Join(folder, stem + ".pot")).Parsed?
    requires LegacyTranslatorInstance(config).Success?
    ensures var r := LegacyRunFolder([Join(folder, stem + ".po"), Join(folder, stem + ".pot")], read, config,
                                     outputFolder, odoo, translate);
      && r.Success? && r.value[0].1.Written? && r.value[1].1.Written?
      && r.value[0].1.path == r.value[1].1.path
  {
    var lang := TargetLang(config.fields).value;
    SameStemSameOutput(folder, stem, outputFolder, lang, odoo);
    LegacyPairSamePath(Join(folder, stem + ".po"), Join(folder, stem + ".pot"), read, config, outputFolder, odoo,
                       translate);
  }

  /** Two parsed files with one output path are both written there. */
  lemma LegacyPairSamePath(p1: string, p2: string, read: string -> Input, config: Json,
                           outputFolder: string, odoo: bool, translate: Translator)
    requires read(p1).Parsed? && read(p2).Parsed?
    requires LegacyTranslatorInstance(config).Success?
    requires config.JObj? && TargetLang(config.fields).Success?
    requires OutputPath(outputFolder, p1, TargetLang(config.fields).value, odoo)
          == OutputPath(outputFolder, p2, TargetLang(config.fields).value, odoo)
    ensures var r := LegacyRunFolder([p1, p2], read, config, outputFolder, odoo, translate);
      && r.Success? && r.value[0].1.Written? && r.value[1].1.Written?
      && r.value[0].1.path == r.value[1].1.path
  {
    LegacyParsedWritten(p1, read(p1), config, outputFolder, odoo, translate);
    LegacyParsedWritten(p2, read(p2), config, outputFolder, odoo, translate);
    LegacyTwoFiles(p1, p2, read, config, outputFolder, odoo, translate);
  }

  lemma LegacyParsedWritten(p: string, input: Input, config: Json, outputFolder: string, odoo: bool,
                            translate: Translator)
    requires input.Parsed? && LegacyTranslatorInstance(config).Success?
    ensures config.JObj? && TargetLang(config.fields).Success?
    ensures var o := LegacyProcess(p, input, config, outputFolder, odoo, translate);
      o.Success? && o.value.Written? && o.value.path == OutputPath(outputFolder, p, TargetLang(config.fields).value, odoo)
  {
  }

  lemma LegacyTwoFiles(p1: string, p2: string, read: string -> Input, config: Json,
                       outputFolder: string, odoo: bool, translate: Translator)
    requires LegacyProcess(p1, read(p1), config, outputFolder, odoo, translate).Success?
    requires LegacyProcess(p2, read(p2), config, outputFolder, odoo, translate).Success?
    ensures LegacyRunFolder([p1, p2], read, config, outputFolder, odoo, translate) ==
      Success([(p1, LegacyProcess(p1, read(p1), config, outputFolder, odoo, translate).value),
               (p2, LegacyProcess(p2, read(p2), config, outputFolder, odoo, translate).value)])
  {
    var paths := [p1, p2];
    var r := LegacyRunFolder(paths, read, config, outputFolder, odoo, translate);
    forall k | 0 <= k < |paths|
      ensures LegacyProcess(paths[k], read(paths[k]), config, outputFolder, odoo, translate).Success?
    {
      if k == 1 {
        assert paths[k] == p2;
      }
    }
    assert r.Success? && |r.value| == 2;
    assert r.value[0] == (p1, LegacyProcess(p1, read(p1), config, outputFolder, odoo, translate).value);
    assert r.value[1] == (p2, LegacyProcess(p2, read(p2), config, outputFolder, odoo, translate).value);
    assert r.value == [r.value[0], r.value[1]];
  }
}

=== FILE: config.dfy ===
/** Configuration: the default settings, where the configuration file lives,
    and loading it with the default written on first use.  The file system is
    a map from path to parsed JSON content; reading and writing JSON text is
    not modelled. */
module Config {
  import opened Wrappers
  import opened Text
  import opened Paths

  /** The JSON values a configuration holds (arrays and floats are not
      modelled). */
  datatype Json = JNull | JBool(b: bool) | JInt(i: int) | JStr(s: string) | JObj(fields: map<string, Json>)

  /** Python's `str()` of a scalar, as a lookup error or an f-string shows it.
      An object is abbreviated to `{...}`, where Python prints the whole
      dictionary literal. */
  function Describe(j: Json): string {
    match j
    case JNull => "None"
    case JBool(b) => if b then "True" else "False"
    case JInt(i) => IntToString(i)
    case JStr(s) => s
    case JObj(_) => "{...}"
  }

  const DefaultTranslator: string := "GoogleTranslator"
  const DefaultMaxMsgidLength: nat := 300

  /** `DEFAULT_CONFIG`, identical in the package, `main.py` and the legacy
      script. */
  function DefaultConfig(): (c: map<string, Json>)
    ensures c.Keys == {"translator", "source_lang", "target_lang", "max_msgid_length",
                       "DeeplTranslator", "QcriTranslator", "YandexTranslator", "MicrosoftTranslator",
                       "LibreTranslator", "PapagoTranslator", "ChatGptTranslator", "BaiduTranslator"}
    ensures c["translator"] == JStr(DefaultTranslator)
    ensures c["source_lang"] == JStr("id") && c["target_lang"] == JStr("en")
    ensures c["max_msgid_length"] == JInt(DefaultMaxMsgidLength)
  {
    map[
      "translator" := JStr(DefaultTranslator),
      "source_lang" := JStr("id"),
      "target_lang" := JStr("en"),
      "max_msgid_length" := JInt(DefaultMaxMsgidLength),
      "DeeplTranslator" := JObj(map["api_key" := JStr(""), "use_free_api" := JBool(true)]),
      "QcriTranslator" := JObj(map["api_key" := JStr("")]),
      "YandexTranslator" := JObj(map["api_key" := JStr("")]),
      "MicrosoftTranslator" := JObj(map["api_key" := JStr(""), "region" := JStr("")]),
      "LibreTranslator" := JObj(map["api_key" := JStr(""), "use_free_api" := JBool(true), "custom_url" := JStr("")]),
      "PapagoTranslator" := JObj(map["client_id" := JStr(""), "secret_key" := JStr("")]),
      "ChatGptTranslator" := JObj(map["api_key" := JStr(""), "model" := JStr("gpt-3.5-turbo")]),
      "BaiduTranslator" := JObj(map["appid" := JStr(""), "appkey" := JStr("")])
    ]
  }

  // ---------------------------------------------------------------------------
  // Where the configuration file lives

  /** What the process can observe about its surroundings: the working
      directory, the home directory, the absolute path of the module file and
      the site-packages directories. */
  datatype Host = Host(cwd: string, home: string, moduleFile: string, sitePackages: seq<string>)

  /** The module runs from an installed copy when its path contains a
      site-packages directory. */
  predicate Installed(host: Host) {
    exists k :: 0 <= k < |host.sitePackages| && Contains(AbsPath(host.cwd, host.moduleFile), host.sitePackages[k])
  }

  /** `_determine_config_dir`.  `cli` is the command-line path, `""` standing
      for both `None` and an empty argument (both are false in Python). */
  function ConfigDir(cli: string, host: Host): (r: string)
    ensures cli != "" ==> r == Dirname(AbsPath(host.cwd, cli))
    ensures cli == "" && Installed(host) && host.home != [] && host.home[|host.home| - 1] != '/'
      ==> r == host.home + "/.translator_po"
    ensures cli == "" && !Installed(host) ==> r == Dirname(AbsPath(host.cwd, host.moduleFile))
  {
    if cli != "" then Dirname(AbsPath(host.cwd, cli))
    else if Installed(host) then Join(host.home, ".translator_po")
    else Dirname(AbsPath(host.cwd, host.moduleFile))
  }

  /** `config_path = os.path.join(config_dir, config_file)`, as written. */
  function ConfigPath(configFile: string, cli: string, host: Host): string {
    Join(ConfigDir(cli, host), configFile)
  }

  /** An absolute configuration file is used as given, wherever the
      directory was looked for. */
  lemma ConfigPathAbsolute(configFile: string, cli: string, host: Host)
    requires IsAbsolute(configFile)
    ensures ConfigPath(configFile, cli, host) == configFile
  {
  }

  /** A bare file name given on the command line is found in the working
      directory. */
  lemma ConfigPathBareName(configFile: string, host: Host)
    requires configFile != [] && NoSlash(configFile)
    requires host.cwd != [] && host.cwd[|host.cwd| - 1] != '/'
    ensures ConfigPath(configFile, configFile, host) == host.cwd + "/" + configFile
    ensures ConfigPath(configFile, configFile, host) == AbsPath(host.cwd, configFile)
  {
    JoinSplit(host.cwd, configFile);
    AbsPathPlain(host.cwd, configFile);
  }

  /** A relative command-line path with a directory part has that part
      applied twice: `-c conf/c.json` run in `/w` reads `/w/conf/conf/c.json`.
      (`abspath` removes `.` and `..` components, which are excluded.) */
  lemma ConfigPathDoubled(dir: string, name: string, host: Host)
    requires dir != [] && dir != "." && dir != ".." && NoSlash(dir) && name != [] && NoSlash(name)
    requires host.cwd != [] && host.cwd[|host.cwd| - 1] != '/'
    ensures ConfigPath(dir + "/" + name, dir + "/" + name, host) == host.cwd + "/" + dir + "/" + dir + "/" + name
    ensures ConfigPath(dir + "/" + name, dir + "/" + name, host) != AbsPath(host.cwd, dir + "/" + name)
  {
    DoubledConfigPath(dir, name, host);
    DoubledNotAbsPath(dir, name, host.cwd);
  }

  lemma DoubledConfigPath(dir: string, name: string, host: Host)
    requires dir != [] && NoSlash(dir) && name != [] && NoSlash(name)
    requires host.cwd != [] && host.cwd[|host.cwd| - 1] != '/'
    ensures ConfigPath(dir + "/" + name, dir + "/" + name, host) == host.cwd + "/" + dir + "/" + dir + "/" + name
  {
    var d := host.cwd + "/" + dir;
    RelativeConfigDir(dir, name, host);
    JoinRelative(d, dir, name);
  }

  lemma DoubledNotAbsPath(dir: string, name: string, cwd: string)
    requires dir != [] && NoSlash(dir) && name != [] && NoSlash(name)
    requires cwd != [] && cwd[|cwd| - 1] != '/'
    ensures cwd + "/" + dir + "/" + dir + "/" + name != AbsPath(cwd, dir + "/" + name)
  {
    RelativeAbsPath(cwd, dir, name);
    assert |(cwd + "/" + dir) + "/" + name| < |cwd + "/" + dir + "/" + dir + "/" + name|;
  }

  /** The configuration directory of a relative command-line path with one
      directory part is that directory under the working directory. */
  lemma RelativeConfigDir(dir: string, name: string, host: Host)
    requires dir != [] && NoSlash(dir) && name != [] && NoSlash(name)
    requires host.cwd != [] && host.cwd[|host.cwd| - 1] != '/'
    ensures ConfigDir(dir + "/" + name, host) == host.cwd + "/" + dir
  {
    RelativeAbsPath(host.cwd, dir, name);
    DirOfRelative(host.cwd, dir, name);
  }

  /** `abspath` drops a trailing slash, so `-c conf/` run in `/w` looks in
      `/w` and names the directory `/w/conf/` itself. */
  lemma ConfigPathTrailingSlash(name: string, host: Host)
    requires name != [] && NoSlash(name)
    requires host.cwd != [] && host.cwd[|host.cwd| - 1] != '/'
    ensures ConfigDir(name + "/", host) == host.cwd
    ensures ConfigPath(name + "/", name + "/", host) == host.cwd + "/" + name + "/"
  {
    AbsPathTrailingSlash(host.cwd, name);
    JoinSplit(host.cwd, name);
  }

  /** The doubled path is a file name, in a directory below the one that
      `makedirs` creates. */
  lemma DoubledPathShape(dir: string, name: string, cwd: string)
    requires dir != [] && NoSlash(dir) && name != [] && NoSlash(name)
    requires cwd != [] && cwd[|cwd| - 1] != '/'
    ensures var doubled := cwd + "/" + dir + "/" + dir + "/" + name;
      && doubled[|doubled| - 1] != '/'
      && Dirname(doubled) == cwd + "/" + dir + "/" + dir
      && |cwd + "/" + dir| < |cwd + "/" + dir + "/" + dir| < |doubled|
  {
    var d := cwd + "/" + dir;
    var doubled := cwd + "/" + dir + "/" + dir + "/" + name;
    assert doubled == (d + "/" + dir) + "/" + name;
    assert (d + "/" + dir)[|d + "/" + dir| - 1] == dir[|dir| - 1];
    DirOfRelative(d, dir, name);
    assert doubled[|doubled| - 1] == name[|name| - 1];
  }

  /** A relative path with a directory part, made absolute. */
  lemma RelativeAbsPath(cwd: string, dir: string, name: string)
    requires cwd != [] && cwd[|cwd| - 1] != '/' && dir != [] && NoSlash(dir) && name != [] && name[|name| - 1] != '/'
    ensures AbsPath(cwd, dir + "/" + name) == (cwd + "/" + dir) + "/" + name
  {
    assert (dir + "/" + name)[0] == dir[0];
    AbsPathPlain(cwd, dir + "/" + name);
    JoinRelative(cwd, dir, name);
  }

  lemma JoinRelative(base: string, dir: string, name: string)
    requires base != [] && base[|base| - 1] != '/' && dir != [] && dir[0] != '/'
    ensures Join(base, dir + "/" + name) == base + "/" + (dir + "/" + name)
  {
    assert (dir + "/" + name)[0] == dir[0];
  }

  lemma DirOfRelative(cwd: string, dir: string, name: string)
    requires cwd != [] && cwd[|cwd| - 1] != '/' && dir != [] && NoSlash(dir) && NoSlash(name)
    ensures Dirname((cwd + "/" + dir) + "/" + name) == cwd + "/" + dir
  {
    var d := cwd + "/" + dir;
    assert d[|d| - 1] == dir[|dir| - 1];
    JoinSplit(d, name);
  }

  /** The evident intent: the command-line path names the file itself. */
  function ConfigPathCorrected(configFile: string, cli: string, host: Host): (r: string)
    ensures cli != "" ==> r == AbsPath(host.cwd, cli)
    ensures cli == "" ==> r == ConfigPath(configFile, cli, host)
  {
    if cli != "" then AbsPath(host.cwd, cli) else ConfigPath(configFile, cli, host)
  }

  /** The two agree on the paths the program is normally given: an absolute
      path, or a bare file name. */
  lemma CorrectedAgrees(configFile: string, host: Host)
    requires (IsAbsolute(configFile) && configFile[|configFile| - 1] != '/') || (configFile != [] && NoSlash(configFile))
    requires host.cwd != [] && host.cwd[|host.cwd| - 1] != '/'
    ensures ConfigPathCorrected(configFile, configFile, host) == ConfigPath(configFile, configFile, host)
  {
    if !IsAbsolute(configFile) {
      ConfigPathBareName(configFile, host);
    } else {
      AbsPathPlain(host.cwd, configFile);
    }
  }

  // ---------------------------------------------------------------------------
  // Loading

  /** The files the program can see, by path, with their parsed content. */
  type Files = map<string, Json>

  /** The path names a directory: an existing one, or any path ending in a
      slash, which `open` refuses whether it reads or creates. */
  predicate NamesDirectory(dirs: set<string>, path: string) {
    path in dirs || (path != [] && path[|path| - 1] == '/')
  }

  /** `_load_config` (and the legacy `main`): the empty path does not
      exist and cannot be created; a path naming a directory exists, or
      cannot be created, and cannot be read; a missing file is first created
      with the defaults, which needs its directory to exist (`dirs` are the
      directories present), then the file is read back.  The package and
      `main.py` also look up `config['translator']` to log it, which fails on
      a content that is not an object or has no `translator`; the legacy
      script only parses the file, so any JSON content loads. */
  function LoadConfig(fs: Files, dirs: set<string>, path: string, legacy: bool): (r: (Files, Result<Json>))
    ensures path in fs ==> r.0 == fs
    ensures path == [] ==> r == (fs, Failure(FileNotFoundError(path)))
    ensures path != [] && NamesDirectory(dirs, path) ==> r == (fs, Failure(IsADirectoryError(path)))
    ensures path !in fs && !NamesDirectory(dirs, path) && path != [] && Dirname(path) in dirs ==>
      r.0 == fs[path := JObj(DefaultConfig())] && r.1 == Success(JObj(DefaultConfig()))
    ensures path !in fs && !NamesDirectory(dirs, path) && Dirname(path) !in dirs ==>
      r == (fs, Failure(FileNotFoundError(path)))
    ensures path in r.0 && path != [] && !NamesDirectory(dirs, path) ==>
      (r.1.Success? <==> legacy || (r.0[path].JObj? && "translator" in r.0[path].fields))
    ensures r.1.Success? ==> path in r.0 && r.1.value == r.0[path] && path != [] && !NamesDirectory(dirs, path)
    ensures !legacy && r.1.Success? ==> r.1.value.JObj?
  {
    if path == [] then (fs, Failure(FileNotFoundError(path)))
    else if NamesDirectory(dirs, path) then (fs, Failure(IsADirectoryError(path)))
    else if path !in fs && Dirname(path) !in dirs then (fs, Failure(FileNotFoundError(path)))
    else
      var fs' := if path in fs then fs else fs[path := JObj(DefaultConfig())];
      var content := fs'[path];
      if legacy then (fs', Success(content))
      else if !content.JObj? then (fs', Failure(TypeError("configuration is not a JSON object")))
      else if "translator" !in content.fields then (fs', Failure(KeyError("translator")))
      else (fs', Success(content))
  }

  /** Loading twice reads the same configuration and leaves the files as the
      first load left them. */
  lemma LoadConfigIdempotent(fs: Files, dirs: set<string>, path: string, legacy: bool)
    ensures var (fs1, c1) := LoadConfig(fs, dirs, path, legacy);
      LoadConfig(fs1, dirs, path, legacy) == (fs1, c1)
  {
  }
}

=== FILE: factory.dfy ===
/** Choosing a translator and the keyword arguments it is built with.  The
    translator clients themselves are external; the model stops at the name
    and the parameters handed to the constructor. */
module Factory {
  import opened Wrappers
  import opened Config

  /** The keys of `TRANSLATORS`. */
  const TranslatorNames: set<string> := {
    "GoogleTranslator", "PonsTranslator", "LingueeTranslator", "MyMemoryTranslator",
    "YandexTranslator", "MicrosoftTranslator", "QcriTranslator", "DeeplTranslator",
    "LibreTranslator", "PapagoTranslator", "ChatGptTranslator", "BaiduTranslator"
  }

  type Params = map<string, Json>

  /** What building a translator yields: the chosen name, the keyword
      arguments, and the configuration as it stands afterwards. */
  datatype Built = Built(name: string, params: Params, config: map<string, Json>)

  /** `config[key]` */
  function Lookup(config: map<string, Json>, key: string): (r: Result<Json>)
    ensures r.Success? <==> key in config
    ensures r.Success? ==> r.value == config[key]
    ensures r.Failure? ==> r.error == KeyError(key)
  {
    if key in config then Success(config[key]) else Failure(KeyError(key))
  }

  /** `TRANSLATORS[config["translator"]]`: the name must be one of the twelve.
      A JSON object is not hashable, so it fails with a type error. */
  function TranslatorName(config: map<string, Json>): (r: Result<string>)
    ensures r.Success? <==> "translator" in config && config["translator"].JStr?
                            && config["translator"].s in TranslatorNames
    ensures r.Success? ==> r.value in TranslatorNames && config["translator"] == JStr(r.value)
    // an object cannot be a dictionary key; any other unknown name is missing
    ensures r.Failure? ==>
      if "translator" in config && config["translator"].JObj? then r.error.TypeError? else r.error.KeyError?
  {
    var name :- Lookup(config, "translator");
    if name.JObj? then Failure(TypeError("unhashable type: 'dict'"))
    else if name.JStr? && name.s in TranslatorNames then Success(name.s)
    else Failure(KeyError(Describe(name)))
  }

  /** `get_translator_instance` of the package and `main.py`: the parameters
      are the configuration's block for the translator (the same dictionary
      object, or a fresh empty one when there is no block), updated in place
      with `source` and `target`.  `.update` is looked up before its argument
      is built, so a block that is not an object fails before a missing
      language does. */
  function GetTranslatorInstance(config: map<string, Json>): (r: Result<Built>)
    ensures r.Success? <==>
      && TranslatorName(config).Success?
      && (TranslatorName(config).value in config ==> config[TranslatorName(config).value].JObj?)
      && "source_lang" in config && "target_lang" in config
    ensures r.Success? ==> r.value.name == TranslatorName(config).value
  {
    var name :- TranslatorName(config);
    var block := if name in config then config[name] else JObj(map[]);
    if !block.JObj? then Failure(AttributeError("update"))
    else
      var source :- Lookup(config, "source_lang");
      var target :- Lookup(config, "target_lang");
      var params := block.fields["source" := source]["target" := target];
      Success(Built(name, params, if name in config then config[name := JObj(params)] else config))
  }

  // ---------------------------------------------------------------------------
  // Properties of the parameter merge

  /** The merged parameters hold every key of the block, with `source` and
      `target` taken from the languages whatever the block said. */
  lemma MergeSpec(config: map<string, Json>)
    requires GetTranslatorInstance(config).Success?
    ensures var b := GetTranslatorInstance(config).value;
      var block := if b.name in config then config[b.name].fields else map[];
      && b.params.Keys == block.Keys + {"source", "target"}
      && b.params["source"] == config["source_lang"]
      && b.params["target"] == config["target_lang"]
      && (forall k :: k in block && k != "source" && k != "target" ==> b.params[k] == block[k])
  {
  }

  /** The update writes through to the configuration: its block for the
      translator now holds the merged parameters, and nothing else changed.
      Without a block the configuration is untouched. */
  lemma MergeMutatesConfig(config: map<string, Json>)
    requires GetTranslatorInstance(config).Success?
    ensures var b := GetTranslatorInstance(config).value;
      && b.config.Keys == config.Keys
      && (b.name in config ==> b.config[b.name] == JObj(b.params))
      && (b.name !in config ==> b.config == config)
      && (forall k :: k in config && k != b.name ==> b.config[k] == config[k])
  {
  }

  /** Building again from the mutated configuration gives the same
      parameters and changes nothing more: the merge is idempotent. */
  lemma MergeIdempotent(config: map<string, Json>)
    requires GetTranslatorInstance(config).Success?
    ensures var b := GetTranslatorInstance(config).value;
      GetTranslatorInstance(b.config) == Success(b)
  {
    var b := GetTranslatorInstance(config).value;
    assert b.config["translator"] == config["translator"];
    assert TranslatorName(b.config) == Success(b.name);
    assert b.config["source_lang"] == config["source_lang"];
    assert b.config["target_lang"] == config["target_lang"];
    if b.name in config {
      var p := b.params;
      assert p["source" := config["source_lang"]]["target" := config["target_lang"]] == p;
      assert b.config[b.name := JObj(p)] == b.config;
    }
  }

  /** With the defaults the Google translator is built with only the two
      languages, and the configuration is left as it was. */
  lemma DefaultBuildsGoogle()
    ensures GetTranslatorInstance(DefaultConfig()) ==
      Success(Built(DefaultTranslator, map["source" := JStr("id"), "target" := JStr("en")], DefaultConfig()))
  {
    var c := DefaultConfig();
    assert DefaultTranslator !in c;
    assert TranslatorName(c) == Success(DefaultTranslator);
  }

  // ---------------------------------------------------------------------------
  // The legacy script's parameter table

  /** The eight translators with a block of their own, and the keys read from
      each block, in the order the table is built. */
  const LegacyBlocks: seq<(string, seq<string>)> := [
    ("DeeplTranslator", ["api_key", "use_free_api"]),
    ("QcriTranslator", ["api_key"]),
    ("YandexTranslator", ["api_key"]),
    ("MicrosoftTranslator", ["api_key", "region"]),
    ("LibreTranslator", ["api_key", "use_free_api", "custom_url"]),
    ("PapagoTranslator", ["client_id", "secret_key"]),
    ("ChatGptTranslator", ["api_key", "model"]),
    ("BaiduTranslator", ["appid", "appkey"])
  ]

  /** `config[block][key]` for each key in turn. */
  function ReadKeys(config: map<string, Json>, block: string, keys: seq<string>): (r: Result<Params>)
    ensures r.Success? <==> keys == [] || (block in config && config[block].JObj?
                                           && forall k :: 0 <= k < |keys| ==> keys[k] in config[block].fields)
    ensures r.Success? ==> r.value.Keys == set k | k in keys
    ensures r.Success? ==> forall k :: k in r.value ==> block in config && config[block].JObj? && r.value[k] == config[block].fields[k]
  {
    if keys == [] then Success(map[])
    else
      var b :- Lookup(config, block);
      if !b.JObj? then Failure(TypeError("string indices must be integers"))
      else if keys[0] !in b.fields then Failure(KeyError(keys[0]))
      else
        var rest :- ReadKeys(config, block, keys[1..]);
        Success(rest[keys[0] := b.fields[keys[0]]])
  }

  /** The whole table, evaluated eagerly: every block is read, in order,
      whichever translator is chosen. */
  function ReadAllBlocks(config: map<string, Json>, blocks: seq<(string, seq<string>)>): (r: Result<()>)
    ensures r.Success? <==> forall k :: 0 <= k < |blocks| ==> ReadKeys(config, blocks[k].0, blocks[k].1).Success?
  {
    if blocks == [] then Success(())
    else
      var _ :- ReadKeys(config, blocks[0].0, blocks[0].1);
      assert forall k :: 1 <= k < |blocks| ==> blocks[k] == blocks[1..][k - 1];
      ReadAllBlocks(config, blocks[1..])
  }

  /** The keys the table reads for a translator, if it has a row. */
  function BlockKeys(name: string, blocks: seq<(string, seq<string>)>): (r: Option<seq<string>>)
    ensures r.Some? ==> exists k :: 0 <= k < |blocks| && blocks[k] == (name, r.value)
    ensures r.None? ==> forall k :: 0 <= k < |blocks| ==> blocks[k].0 != name
  {
    if blocks == [] then None
    else if blocks[0].0 == name then Some(blocks[0].1)
    else
      var r := BlockKeys(name, blocks[1..]);
      assert forall k :: 1 <= k < |blocks| ==> blocks[k] == blocks[1..][k - 1];
      r
  }

  /** A translator built from a parameter table: the name and the languages
      are looked up first, then every row of the table is read, and the
      chosen translator gets its row, or only the languages when it has none. */
  function TableInstance(config: map<string, Json>, blocks: seq<(string, seq<string>)>): (r: Result<(string, Params)>)
    ensures r.Success? <==>
      && TranslatorName(config).Success?
      && "source_lang" in config && "target_lang" in config
      && ReadAllBlocks(config, blocks).Success?
    ensures r.Success? ==> r.value.0 == TranslatorName(config).value
    ensures r.Success? ==> (r.value.1.Keys == {"source", "target"} +
      (match BlockKeys(r.value.0, blocks) case None => {} case Some(keys) => set k | k in keys))
    ensures r.Success? ==> r.value.1["source"] == config["source_lang"] && r.value.1["target"] == config["target_lang"]
    // the chosen row's values are copied from the translator's block
    ensures r.Success? && BlockKeys(r.value.0, blocks).Some? ==>
      forall k :: k in BlockKeys(r.value.0, blocks).value && k != "source" && k != "target" ==>
        r.value.0 in config && config[r.value.0].JObj? && k in config[r.value.0].fields &&
        r.value.1[k] == config[r.value.0].fields[k]
  {
    var name :- TranslatorName(config);
    var source :- Lookup(config, "source_lang");
    var target :- Lookup(config, "target_lang");
    var _ :- ReadAllBlocks(config, blocks);
    match BlockKeys(name, blocks)
    case None => Success((name, map["source" := source, "target" := target]))
    case Some(keys) =>
      assert ReadKeys(config, name, keys).Success?;
      Success((name, ReadKeys(config, name, keys).value["source" := source]["target" := target]))
  }

  /** `PoFileTranslator.__init__` and `create_translator_instance` of the
      legacy script, over its eight-row table.  The legacy script loads any
      JSON content, so `config["translator"]` is the first place where a
      content that is not an object fails. */
  function LegacyTranslatorInstance(config: Json): (r: Result<(string, Params)>)
    ensures !config.JObj? ==> r.Failure? && r.error.TypeError?
    ensures r.Success? ==> config.JObj?
    ensures r.Success? ==> forall k :: 0 <= k < |LegacyBlocks| ==>
      ReadKeys(config.fields, LegacyBlocks[k].0, LegacyBlocks[k].1).Success?
    ensures r.Success? ==> TranslatorName(config.fields).Success? && r.value.0 == TranslatorName(config.fields).value
    ensures r.Success? ==> "source_lang" in config.fields && "target_lang" in config.fields
  {
    match config
    case JObj(fields) => TableInstance(fields, LegacyBlocks)
    case _ => Failure(TypeError("the configuration is not subscriptable by a string"))
  }

  /** The legacy table needs every block even for a translator that uses
      none: without the Baidu block the default Google configuration fails,
      where the package builds it. */
  lemma LegacyNeedsEveryBlock()
    ensures LegacyTranslatorInstance(JObj(DefaultConfig() - {"BaiduTranslator"})).Failure?
    ensures GetTranslatorInstance(DefaultConfig() - {"BaiduTranslator"}).Success?
  {
    var c := DefaultConfig() - {"BaiduTranslator"};
    NoBaiduTableFails(c);
    NoBaiduPackageBuilds(c);
  }

  lemma NoBaiduTableFails(c: map<string, Json>)
    requires c == DefaultConfig() - {"BaiduTranslator"}
    ensures ReadAllBlocks(c, LegacyBlocks).Failure?
  {
    assert LegacyBlocks[7] == ("BaiduTranslator", ["appid", "appkey"]);
    assert "BaiduTranslator" !in c;
    assert !ReadKeys(c, LegacyBlocks[7].0, LegacyBlocks[7].1).Success?;
  }

  lemma NoBaiduPackageBuilds(c: map<string, Json>)
    requires c == DefaultConfig() - {"BaiduTranslator"}
    ensures GetTranslatorInstance(c).Success?
  {
    assert c["translator"] == JStr(DefaultTranslator);
    assert TranslatorName(c) == Success(DefaultTranslator);
    assert DefaultTranslator !in c;
  }

  /** With the defaults both versions build the Google translator from the
      two languages alone. */
  lemma LegacyDefaultBuildsGoogle()
    ensures LegacyTranslatorInstance(JObj(DefaultConfig())) ==
      Success((DefaultTranslator, map["source" := JStr("id"), "target" := JStr("en")]))
  {
    DefaultTableBuildsGoogle();
    assert LegacyTranslatorInstance(JObj(DefaultConfig())) == TableInstance(DefaultConfig(), LegacyBlocks);
  }

  lemma DefaultTableBuildsGoogle()
    ensures TableInstance(DefaultConfig(), LegacyBlocks) ==
      Success((DefaultTranslator, map["source" := JStr("id"), "target" := JStr("en")]))
  {
    var c := DefaultConfig();
    assert TranslatorName(c) == Success(DefaultTranslator);
    DefaultBlocksReadable();
    GoogleHasNoRow();
  }

  lemma GoogleHasNoRow()
    ensures BlockKeys(DefaultTranslator, LegacyBlocks) == None
  {
    var b := LegacyBlocks;
    assert forall k :: 0 <= k < |b| ==> b[k].0 != DefaultTranslator;
  }

  lemma DefaultBlocksReadable()
    ensures ReadAllBlocks(DefaultConfig(), LegacyBlocks).Success?
  {
    var c := DefaultConfig();
    DefaultBlocksFirst(c);
    DefaultBlocksSecond(c);
  }

  lemma DefaultBlocksFirst(c: map<string, Json>)
    requires c == DefaultConfig()
    ensures forall k :: 0 <= k < 4 ==> ReadKeys(c, LegacyBlocks[k].0, LegacyBlocks[k].1).Success?
  {
    assert c["DeeplTranslator"] == JObj(map["api_key" := JStr(""), "use_free_api" := JBool(true)]);
    assert c["QcriTranslator"] == JObj(map["api_key" := JStr("")]);
    assert c["YandexTranslator"] == JObj(map["api_key" := JStr("")]);
    assert c["MicrosoftTranslator"] == JObj(map["api_key" := JStr(""), "region" := JStr("")]);
  }

  lemma DefaultBlocksSecond(c: map<string, Json>)
    requires c == DefaultConfig()
    ensures forall k :: 4 <= k < 8 ==> ReadKeys(c, LegacyBlocks[k].0, LegacyBlocks[k].1).Success?
  {
    assert c["LibreTranslator"] == JObj(map["api_key" := JStr(""), "use_free_api" := JBool(true), "custom_url" := JStr("")]);
    assert c["PapagoTranslator"] == JObj(map["client_id" := JStr(""), "secret_key" := JStr("")]);
    assert c["ChatGptTranslator"] == JObj(map["api_key" := JStr(""), "model" := JStr("gpt-3.5-turbo")]);
    assert c["BaiduTranslator"] == JObj(map["appid" := JStr(""), "appkey" := JStr("")]);
  }
}

=== FILE: legacy.dfy ===
/** The legacy single-file script: the same masking, but failures are
    swallowed per entry, every entry with a message id is translated
    (translated ones included), the catalog keeps all its entries, and a
    file without data is written as an empty file. */
module Legacy {
  import opened Wrappers
  import opened Text
  import opened Placeholders
  import opened Catalog
  import opened Config
  import opened Factory
  import opened Paths
  import opened Processor

  /** `translate_entry`: the translation, or `None` when the message id is
      over the limit or anything raised (a limit Python cannot compare, a
      failing translator); exceptions do not leave the entry. */
  function LegacyTranslation(msgid: string, config: map<string, Json>, translate: Translator): (r: Option<string>)
    ensures r.Some? <==> MaxLength(config).Success? && |msgid| <= MaxLength(config).value && translate(Mask(msgid)).Some?
    ensures r.Some? ==> r.value == Restore(translate(Mask(msgid)).value, FindAll(msgid))
  {
    match MaxLength(config)
    case Failure(_) => None
    case Success(limit) =>
      if |msgid| > limit then None
      else match translate(Mask(msgid))
        case None => None
        case Some(t) => Some(Restore(t, FindAll(msgid)))
  }

  /** One entry after the pool: submitted only with a non-empty message id,
      and its `msgstr` replaced only when a translation came back. */
  function LegacyEntry(e: Entry, config: map<string, Json>, translate: Translator): (r: Entry)
    ensures r.msgid == e.msgid && r.translated == e.translated
    ensures e.msgid == "" || LegacyTranslation(e.msgid, config, translate).None? ==> r == e
    ensures e.msgid != "" && LegacyTranslation(e.msgid, config, translate).Some? ==>
      r.msgstr == LegacyTranslation(e.msgid, config, translate).value
  {
    if e.msgid == "" then e
    else match LegacyTranslation(e.msgid, config, translate)
      case None => e
      case Some(t) => e.(msgstr := t)
  }

  function LegacyEntries(entries: seq<Entry>, config: map<string, Json>, translate: Translator): (r: seq<Entry>)
    ensures |r| == |entries|
    ensures forall k :: 0 <= k < |r| ==> r[k] == LegacyEntry(entries[k], config, translate)
  {
    if entries == [] then [] else [LegacyEntry(entries[0], config, translate)] + LegacyEntries(entries[1..], config, translate)
  }

  /** `translate_po_file` of the legacy script: `None` when there is no data,
      otherwise the whole catalog with its entries translated in place and
      the legacy author in the metadata. */
  function LegacyTranslateFile(input: Input, config: map<string, Json>, translate: Translator): (r: Option<Catalog>)
    ensures r.Some? <==> input.Parsed?
    ensures r.Some? ==> r.value.metadata == UpdateMetadata(input.catalog.metadata, LegacyAuthor)
    ensures r.Some? ==> |r.value.entries| == |input.catalog.entries| && forall k :: 0 <= k < |r.value.entries| ==>
      r.value.entries[k] == LegacyEntry(input.catalog.entries[k], config, translate)
  {
    match input
    case Parsed(c) => Some(Catalog(LegacyEntries(c.entries, config, translate), UpdateMetadata(c.metadata, LegacyAuthor)))
    case _ => None
  }

  /** `process_file`: an unreadable file ends quietly; otherwise the
      translator is built (its errors escape, and a configuration that is not
      an object fails here), the file translated, and the result written to
      the output path.  Writing `None` fails after the file was opened for
      writing, which leaves it empty. */
  function LegacyProcess(filePath: string, input: Input, config: Json, outputFolder: string,
                         odoo: bool, translate: Translator): (r: Result<Outcome>)
    ensures input.Unreadable? ==> r == Success(NotWritten)
    ensures !input.Unreadable? ==> (r.Success? <==> LegacyTranslatorInstance(config).Success?)
    ensures !input.Unreadable? && !config.JObj? ==> r.Failure? && r.error.TypeError?
    ensures r.Success? && !input.Unreadable? ==>
      && config.JObj? && TargetLang(config.fields).Success?
      && var path := OutputPath(outputFolder, filePath, TargetLang(config.fields).value, odoo);
        r.value == if input.Blank? then Truncated(path) else Written(path, LegacyTranslateFile(input, config.fields, translate).value)
  {
    if input.Unreadable? then Success(NotWritten)
    else
      var _ :- LegacyTranslatorInstance(config);
      var lang := TargetLang(config.fields).value;
      var path := OutputPath(outputFolder, filePath, lang, odoo);
      match LegacyTranslateFile(input, config.fields, translate)
      case None => Success(Truncated(path))
      case Some(c) => Success(Written(path, c))
  }

  // ---------------------------------------------------------------------------
  // Properties

  /** The legacy file keeps every entry, in order, with its message id:
      nothing is dropped, and only `msgstr` fields change. */
  lemma LegacyKeepsEntries(input: Input, config: map<string, Json>, translate: Translator)
    requires input.Parsed?
    ensures var c := LegacyTranslateFile(input, config, translate).value;
      && Msgids(c.entries) == Msgids(input.catalog.entries)
      && forall k :: 0 <= k < |c.entries| ==>
           c.entries[k] == input.catalog.entries[k].(msgstr := c.entries[k].msgstr)
  {
  }

  /** Already translated entries are translated again, while the package
      drops them from its output altogether. */
  lemma LegacyRetranslates(e: Entry, config: map<string, Json>, translate: Translator)
    requires e.translated && e.msgid != ""
    requires LegacyTranslation(e.msgid, config, translate).Some?
    ensures LegacyEntry(e, config, translate).msgstr == LegacyTranslation(e.msgid, config, translate).value
    ensures Untranslated([e]) == []
  {
  }

  /** A failing translator leaves the entry as it was: the error never
      reaches the caller. */
  lemma LegacySwallowsFailure(e: Entry, config: map<string, Json>, translate: Translator)
    requires translate(Mask(e.msgid)).None?
    ensures LegacyEntry(e, config, translate) == e
  {
  }

  /** With a translator that returns its input, every entry under the limit
      gets its own message id as translation, under the same conditions as
      the package. */
  lemma LegacyIdentityRoundTrip(e: Entry, config: map<string, Json>)
    requires e.msgid != ""
    requires MaxLength(config).Success? && |e.msgid| <= MaxLength(config).value
    requires !Contains(e.msgid, "%%") && !Contains(e.msgid, MarkerPrefix)
    requires |FindAll(e.msgid)| <= 10
    ensures LegacyEntry(e, config, s => Some(s)).msgstr == e.msgid
  {
    MaskRestoreRoundTrip(e.msgid);
  }
}

=== FILE: paths.dfy ===
/** The `posixpath` functions the program uses to name its files, and the
    output-file naming shared by the three copies of the translator. */
module Paths {
  import opened Text

  predicate NoSlash(s: string) {
    forall k :: 0 <= k < |s| ==> s[k] != '/'
  }

  predicate IsAbsolute(p: string) {
    |p| > 0 && p[0] == '/'
  }

  /** `p.rfind(c)`: the last index of `c`, or -1. */
  function RFind(p: string, c: char): (i: int)
    ensures -1 <= i < |p|
    ensures i >= 0 ==> p[i] == c
    ensures forall k :: i < k < |p| ==> p[k] != c
  {
    if p == [] then -1
    else if p[|p| - 1] == c then |p| - 1
    else RFind(p[..|p| - 1], c)
  }

  /** `os.path.join(a, b)` */
  function Join(a: string, b: string): string {
    if IsAbsolute(b) then b
    else if a == [] || a[|a| - 1] == '/' then a + b
    else a + "/" + b
  }

  /** `os.path.basename(p)`: everything after the last slash. */
  function Basename(p: string): (r: string)
    ensures NoSlash(r)
    ensures |r| <= |p| && r == p[|p| - |r|..]
    ensures |r| < |p| ==> p[|p| - |r| - 1] == '/'
  {
    p[RFind(p, '/') + 1..]
  }

  /** Some character is not a slash. */
  predicate HasNonSlash(s: string) {
    exists k :: 0 <= k < |s| && s[k] != '/'
  }

  /** Strips trailing slashes. */
  function RStripSlash(s: string): (r: string)
    ensures |r| <= |s| && r == s[..|r|]
    ensures forall k :: |r| <= k < |s| ==> s[k] == '/'
    ensures HasNonSlash(s) ==> r != [] && r[|r| - 1] != '/'
  {
    if s != [] && s[|s| - 1] == '/' then
      assert HasNonSlash(s) ==> HasNonSlash(s[..|s| - 1]);
      RStripSlash(s[..|s| - 1])
    else s
  }

  /** `os.path.dirname(p)`: everything before the last slash, with trailing
      slashes removed unless the head is nothing but slashes. */
  function Dirname(p: string): string {
    var head := p[..RFind(p, '/') + 1];
    if head != [] && HasNonSlash(head) then RStripSlash(head) else head
  }

  /** `os.path.splitext(p)`: the extension starts at the last dot of the
      last path component, unless only dots precede it there. */
  function SplitExt(p: string): (r: (string, string))
    ensures r.0 + r.1 == p
    // a split extension is a dot followed by neither dots nor slashes ...
    ensures r.1 != [] ==> r.1[0] == '.' && forall j :: 1 <= j < |r.1| ==> r.1[j] != '.' && r.1[j] != '/'
    // ... after a last component that is not all dots
    ensures r.1 != [] ==> exists k :: 0 <= k < |r.0| && r.0[k] != '.' && r.0[k] != '/' &&
                                      forall j :: k < j < |r.0| ==> r.0[j] != '/'
    // and there is none exactly when no dot follows such a character in the last component
    ensures r.1 == [] ==> forall k, i :: 0 <= k < i < |p| && p[k] != '.' && p[k] != '/' && p[i] == '.' ==>
      exists j :: k < j < |p| && p[j] == '/'
  {
    var sep := RFind(p, '/');
    var dot := RFind(p, '.');
    if dot > sep && exists k :: sep + 1 <= k < dot && p[k] != '.' then (p[..dot], p[dot..])
    else (p, [])
  }

  /** `os.path.abspath(p)` relative to the working directory `cwd`: joined,
      with the trailing slashes removed unless the path is only slashes; the
      normalisation of `.` and `..` components and of repeated slashes is
      not modelled. */
  function AbsPath(cwd: string, p: string): string {
    var q := Join(cwd, p);
    if HasNonSlash(q) then RStripSlash(q) else q
  }

  /** A relative name with a trailing slash is made absolute without it. */
  lemma AbsPathTrailingSlash(cwd: string, name: string)
    requires name != [] && NoSlash(name)
    requires cwd != [] && cwd[|cwd| - 1] != '/'
    ensures Join(cwd, name + "/") == cwd + "/" + name + "/"
    ensures AbsPath(cwd, name + "/") == cwd + "/" + name
  {
    var q := cwd + "/" + name;
    assert Join(cwd, name + "/") == q + "/";
    assert (q + "/")[..|q + "/"| - 1] == q;
    assert q[|q| - 1] == name[|name| - 1];
    assert (q + "/")[|q| - 1] != '/';
  }

  /** Joining the empty name gives the directory with a trailing slash. */
  lemma JoinEmptyName(a: string)
    requires a != []
    ensures var p := Join(a, ""); p != [] && p[|p| - 1] == '/'
  {
  }

  /** A path that does not end in a slash is made absolute by joining. */
  lemma AbsPathPlain(cwd: string, p: string)
    requires p != [] && p[|p| - 1] != '/'
    ensures AbsPath(cwd, p) == Join(cwd, p)
  {
    var q := Join(cwd, p);
    assert q[|q| - 1] == p[|p| - 1];
    assert HasNonSlash(q);
  }

  // ---------------------------------------------------------------------------
  // Output naming

  /** `process` / `write_output_file` (and the legacy `process_file`): the
      Odoo layout `<out>/<base>/i18n/<lang>.po`, otherwise `<out>/<base>_<lang>.po`,
      where `<base>` is the input's file name without its extension. */
  function OutputPath(outputFolder: string, filePath: string, targetLang: string, odoo: bool): string {
    var base := SplitExt(Basename(filePath)).0;
    if odoo then Join(Join(Join(outputFolder, base), "i18n"), targetLang + ".po")
    else Join(outputFolder, base + "_" + targetLang + ".po")
  }

  /** `process`: translation runs unless the output exists and `force` is off. */
  predicate ShouldTranslate(force: bool, outputExists: bool) {
    force || !outputExists
  }

  // ---------------------------------------------------------------------------
  // Properties

  /** An absolute second component replaces the first. */
  lemma JoinAbsolute(a: string, b: string)
    requires IsAbsolute(b)
    ensures Join(a, b) == b
  {
  }

  lemma RFindAbsent(p: string, c: char)
    requires forall k :: 0 <= k < |p| ==> p[k] != c
    ensures RFind(p, c) == -1
  {
  }

  /** `RFind` of `a + "/" + b` with a slash-free `b` lands on the added slash. */
  lemma {:induction false} RFindAfter(a: string, c: char, b: string)
    requires forall k :: 0 <= k < |b| ==> b[k] != c
    ensures RFind(a + [c] + b, c) == |a|
    decreases |b|
  {
    var p := a + [c] + b;
    if b != [] {
      assert p[..|p| - 1] == a + [c] + b[..|b| - 1];
      RFindAfter(a, c, b[..|b| - 1]);
    }
  }

  /** Joining a slash-free name: basename and dirname take it apart again. */
  lemma JoinSplit(a: string, b: string)
    requires NoSlash(b)
    requires a != [] && a[|a| - 1] != '/'
    ensures Basename(Join(a, b)) == b
    ensures Dirname(Join(a, b)) == a
  {
    var p := Join(a, b);
    assert p == a + ['/'] + b;
    RFindAfter(a, '/', b);
    assert p[..|a| + 1] == a + "/";
    assert p[|a| + 1..] == b;
    var head := a + "/";
    assert head[|a| - 1] != '/';
    assert RStripSlash(head) == a by {
      assert head[..|head| - 1] == a;
    }
  }

  /** A name made of a stem with some character other than a dot, and an
      extension of one dot and no other dot, splits back into the two. */
  lemma SplitExtOf(stem: string, ext: string)
    requires NoSlash(stem) && NoSlash(ext)
    requires exists k :: 0 <= k < |stem| && stem[k] != '.'
    requires |ext| >= 1 && ext[0] == '.'
    requires forall k :: 1 <= k < |ext| ==> ext[k] != '.'
    ensures SplitExt(stem + ext) == (stem, ext)
  {
    var p := stem + ext;
    RFindAbsent(p, '/');
    assert p == stem + ['.'] + ext[1..];
    RFindAfter(stem, '.', ext[1..]);
    var k :| 0 <= k < |stem| && stem[k] != '.';
    assert p[k] != '.';
  }

  /** The stem of a file name holds no slash. */
  lemma StemNoSlash(filePath: string)
    ensures NoSlash(SplitExt(Basename(filePath)).0)
  {
    var name := Basename(filePath);
    var base := SplitExt(name).0;
    assert name == base + SplitExt(name).1;
    forall k | 0 <= k < |base|
      ensures base[k] != '/'
    {
      assert base[k] == name[k];
    }
  }

  /** The flat layout, taken apart: `<base>_<lang>.po` inside the output folder. */
  lemma FlatOutputParts(outputFolder: string, filePath: string, targetLang: string)
    requires outputFolder != [] && outputFolder[|outputFolder| - 1] != '/'
    requires NoSlash(targetLang)
    ensures Basename(OutputPath(outputFolder, filePath, targetLang, false))
      == SplitExt(Basename(filePath)).0 + "_" + targetLang + ".po"
    ensures Dirname(OutputPath(outputFolder, filePath, targetLang, false)) == outputFolder
  {
    StemNoSlash(filePath);
    FlatParts(outputFolder, SplitExt(Basename(filePath)).0, targetLang);
  }

  lemma FlatParts(outputFolder: string, base: string, targetLang: string)
    requires outputFolder != [] && outputFolder[|outputFolder| - 1] != '/'
    requires NoSlash(base) && NoSlash(targetLang)
    ensures Basename(Join(outputFolder, base + "_" + targetLang + ".po")) == base + "_" + targetLang + ".po"
    ensures Dirname(Join(outputFolder, base + "_" + targetLang + ".po")) == outputFolder
  {
    var name := base + "_" + targetLang + ".po";
    assert NoSlash(name) by {
      assert name == base + ("_" + targetLang + ".po");
    }
    JoinSplit(outputFolder, name);
  }

  /** The Odoo layout, taken apart: `<lang>.po` inside `<out>/<base>/i18n`. */
  lemma OdooOutputParts(outputFolder: string, filePath: string, targetLang: string)
    requires outputFolder != [] && outputFolder[|outputFolder| - 1] != '/'
    requires NoSlash(targetLang)
    requires SplitExt(Basename(filePath)).0 != []
    ensures Basename(OutputPath(outputFolder, filePath, targetLang, true)) == targetLang + ".po"
    ensures Dirname(OutputPath(outputFolder, filePath, targetLang, true))
      == outputFolder + "/" + SplitExt(Basename(filePath)).0 + "/i18n"
  {
    StemNoSlash(filePath);
    OdooParts(outputFolder, SplitExt(Basename(filePath)).0, targetLang);
  }

  lemma OdooParts(outputFolder: string, base: string, targetLang: string)
    requires outputFolder != [] && outputFolder[|outputFolder| - 1] != '/'
    requires NoSlash(base) && NoSlash(targetLang) && base != []
    ensures Basename(Join(Join(Join(outputFolder, base), "i18n"), targetLang + ".po")) == targetLang + ".po"
    ensures Dirname(Join(Join(Join(outputFolder, base), "i18n"), targetLang + ".po"))
      == outputFolder + "/" + base + "/i18n"
  {
    var d := Join(outputFolder, base);
    assert d == outputFolder + "/" + base;
    var d' := Join(d, "i18n");
    assert d' == d + "/" + "i18n";
    assert NoSlash(targetLang + ".po");
    JoinSplit(d', targetLang + ".po");
  }

  /** In the flat layout `a.po` and `a.pot` are written to the same file. */
  lemma PoAndPotCollide(outputFolder: string, stem: string, targetLang: string)
    requires NoSlash(stem) && exists k :: 0 <= k < |stem| && stem[k] != '.'
    ensures OutputPath(outputFolder, stem + ".po", targetLang, false) ==
            OutputPath(outputFolder, stem + ".pot", targetLang, false)
  {
    SplitExtOf(stem, ".po");
    SplitExtOf(stem, ".pot");
    RFindAbsent(stem + ".po", '/');
    RFindAbsent(stem + ".pot", '/');
  }
}

=== FILE: placeholders.dfy ===
/** Placeholder masking around the translator call.

    Before a message id is sent to a translation service, every match of the
    regular expression `%\(\w+\)s|%\w|%%` is found by a left-to-right scan,
    and the i-th match is replaced everywhere (with `str.replace`) by the marker
    `PLACEHOLDER_i`.  After translation the markers are replaced back in index
    order.  The three copies of the program (the package, its standalone
    `main.py` and the legacy script) share this code verbatim.

    The proof of the round trip views the message id as the token sequence the
    scan produces: literal characters and placeholders.  A map from placeholder
    text to marker text says which placeholders are currently masked. */
module Placeholders {
  import opened Wrappers
  import opened Text

  // ---------------------------------------------------------------------------
  // The regular expression

  /** `%(name)s`: a named placeholder. */
  predicate IsNamed(p: string) {
    && |p| >= 5 && p[0] == '%' && p[1] == '(' && p[|p| - 2] == ')' && p[|p| - 1] == 's'
    && forall k :: 2 <= k < |p| - 2 ==> IsWordChar(p[k])
  }

  /** `%d`, `%s`, ...: a percent sign and one word character. */
  predicate IsShort(p: string) {
    |p| == 2 && p[0] == '%' && IsWordChar(p[1])
  }

  /** A text the regular expression `%\(\w+\)s|%\w|%%` matches. */
  predicate IsPlaceholder(p: string) {
    IsNamed(p) || IsShort(p) || p == "%%"
  }

  /** Index just past the run of word characters starting at `i`. */
  function WordRunEnd(s: string, i: nat): (j: nat)
    requires i <= |s|
    ensures i <= j <= |s|
    ensures forall k :: i <= k < j ==> IsWordChar(s[k])
    ensures j == |s| || !IsWordChar(s[j])
    decreases |s| - i
  {
    if i < |s| && IsWordChar(s[i]) then WordRunEnd(s, i + 1) else i
  }

  /** The length of the regular expression's match at the start of `s`,
      trying the three alternatives in order.  The greedy `\w+` never needs
      to give characters back, because `)` is not a word character. */
  function MatchLength(s: string): (r: Option<nat>)
    ensures r.Some? ==> 2 <= r.value <= |s|
  {
    if |s| >= 2 && s[0] == '%' then
      var j := WordRunEnd(s, 2);
      if s[1] == '(' && j > 2 && j + 1 < |s| && s[j] == ')' && s[j + 1] == 's' then Some(j + 2)
      else if IsWordChar(s[1]) || s[1] == '%' then Some(2)
      else None
    else None
  }

  /** At most one placeholder is a prefix of any text. */
  lemma PrefixCode(p: string, q: string, s: string)
    requires IsPlaceholder(p) && IsPlaceholder(q)
    requires p <= s && q <= s
    ensures p == q
  {
    assert p[0] == s[0] && p[1] == s[1] && q[0] == s[0] && q[1] == s[1];
    if IsNamed(p) && IsNamed(q) {
      assert |p| == |q|;
      assert p == s[..|p|] == q;
    } else if !IsNamed(p) && !IsNamed(q) {
      assert p == s[..2] == q;
    }
  }

  /** Whenever a placeholder starts the text, the match is that placeholder. */
  lemma MatchLengthComplete(p: string, s: string)
    requires IsPlaceholder(p) && p <= s
    ensures MatchLength(s) == Some(|p|)
  {
    assert s[0] == p[0] && s[1] == p[1];
    if IsNamed(p) {
      forall k | 2 <= k < |p| - 2
        ensures IsWordChar(s[k])
      {
        assert s[k] == p[k];
      }
      assert s[|p| - 2] == p[|p| - 2] && s[|p| - 1] == p[|p| - 1];
      assert WordRunEnd(s, 2) == |p| - 2;
    }
  }

  /** The match found is a placeholder. */
  lemma MatchLengthSound(s: string)
    requires MatchLength(s).Some?
    ensures IsPlaceholder(s[..MatchLength(s).value])
  {
    var n := MatchLength(s).value;
    var p := s[..n];
    if n > 2 {
      var j := WordRunEnd(s, 2);
      assert n == j + 2;
      forall k | 2 <= k < |p| - 2
        ensures IsWordChar(p[k])
      {
        assert p[k] == s[k];
      }
      assert IsNamed(p);
    } else if IsWordChar(s[1]) {
      assert IsShort(p);
    } else {
      assert p == "%%";
    }
  }

  /** `MatchLength` finds a match of length `n` exactly when the first `n`
      characters form a placeholder. */
  lemma MatchLengthSpec(s: string, n: nat)
    ensures MatchLength(s) == Some(n) <==> n <= |s| && IsPlaceholder(s[..n])
  {
    if MatchLength(s) == Some(n) {
      MatchLengthSound(s);
    }
    if n <= |s| && IsPlaceholder(s[..n]) {
      MatchLengthComplete(s[..n], s);
    }
  }

  /** `re.findall`: the matches of a left-to-right scan that resumes after
      each match and advances one character where nothing matches. */
  function FindAll(s: string): (found: seq<string>)
    ensures forall k :: 0 <= k < |found| ==> IsPlaceholder(found[k])
    decreases |s|
  {
    if s == [] then []
    else match MatchLength(s)
      case Some(n) =>
        MatchLengthSound(s);
        [s[..n]] + FindAll(s[n..])
      case None => FindAll(s[1..])
  }

  // ---------------------------------------------------------------------------
  // Masking and restoring, as the program does it

  const MarkerPrefix: string := "PLACEHOLDER_"

  /** `f'PLACEHOLDER_{i}'` */
  function Marker(i: nat): string {
    MarkerPrefix + NatToString(i)
  }

  /** `temp_msgid.replace(placeholder, f'PLACEHOLDER_{i}')` for each found
      placeholder in turn, starting with the one at index `i`. */
  function MaskFrom(text: string, found: seq<string>, i: nat): string
    requires forall k :: 0 <= k < |found| ==> IsPlaceholder(found[k])
    decreases |found| - i
  {
    if i >= |found| then text
    else
      assert IsPlaceholder(found[i]);
      MaskFrom(ReplaceAll(text, found[i], Marker(i)), found, i + 1)
  }

  /** The text sent to the translator. */
  function Mask(msgid: string): string {
    MaskFrom(msgid, FindAll(msgid), 0)
  }

  /** `translated_text.replace(marker, placeholder)` for the markers in the
      order they were created, starting with marker `i`.  The program's
      `placeholder_map` holds one entry per index, so iterating over it is
      iterating over the indices in order. */
  function RestoreFrom(text: string, found: seq<string>, i: nat): string
    decreases |found| - i
  {
    if i >= |found| then text
    else RestoreFrom(ReplaceAll(text, Marker(i), found[i]), found, i + 1)
  }

  function Restore(translated: string, found: seq<string>): string {
    RestoreFrom(translated, found, 0)
  }

  // ---------------------------------------------------------------------------
  // Token view of the scan

  datatype Token = Lit(c: char) | Ph(p: string)

  /** The scan of `FindAll`, keeping the characters between matches. */
  function Tokenize(s: string): seq<Token>
    decreases |s|
  {
    if s == [] then []
    else match MatchLength(s)
      case Some(n) => [Ph(s[..n])] + Tokenize(s[n..])
      case None => [Lit(s[0])] + Tokenize(s[1..])
  }

  /** A token as it reads when the placeholders in `m` are replaced by their
      markers. */
  function TokenText(t: Token, m: map<string, string>): string {
    match t
    case Lit(c) => [c]
    case Ph(p) => if p in m then m[p] else p
  }

  function Render(ts: seq<Token>, m: map<string, string>): string
    decreases |ts|
  {
    if ts == [] then [] else TokenText(ts[0], m) + Render(ts[1..], m)
  }

  function PhStrings(ts: seq<Token>): seq<string>
    decreases |ts|
  {
    if ts == [] then []
    else (if ts[0].Ph? then [ts[0].p] else []) + PhStrings(ts[1..])
  }

  predicate NoPlaceholderPrefix(x: string) {
    forall n :: 0 < n <= |x| ==> !IsPlaceholder(x[..n])
  }

  /** A declarative account of the regular-expression scan: every placeholder
      token is a match, and no match starts at a literal character. */
  predicate IsScan(ts: seq<Token>)
    decreases |ts|
  {
    if ts == [] then true
    else
      && (match ts[0]
          case Lit(_) => NoPlaceholderPrefix(Render(ts, map[]))
          case Ph(p) => IsPlaceholder(p))
      && IsScan(ts[1..])
  }

  /** The tokens of the scan spell the text. */
  lemma {:induction false} TokenizeRender(s: string)
    ensures Render(Tokenize(s), map[]) == s
    decreases |s|
  {
    if s != [] {
      var ts := Tokenize(s);
      match MatchLength(s)
      case Some(n) =>
        TokenizeRender(s[n..]);
        assert ts[1..] == Tokenize(s[n..]);
        assert s == s[..n] + s[n..];
      case None =>
        TokenizeRender(s[1..]);
        assert ts[1..] == Tokenize(s[1..]);
        assert s == [s[0]] + s[1..];
    }
  }

  /** The placeholders of the scan are what `re.findall` returns. */
  lemma {:induction false} TokenizePhStrings(s: string)
    ensures PhStrings(Tokenize(s)) == FindAll(s)
    decreases |s|
  {
    if s != [] {
      var ts := Tokenize(s);
      match MatchLength(s)
      case Some(n) =>
        TokenizePhStrings(s[n..]);
        assert ts[1..] == Tokenize(s[n..]);
      case None =>
        TokenizePhStrings(s[1..]);
        assert ts[1..] == Tokenize(s[1..]);
    }
  }

  /** The scan reads the whole text, is a scan in the declarative sense, and
      its placeholders are what `re.findall` returns. */
  lemma {:induction false} TokenizeIsScan(s: string)
    ensures Render(Tokenize(s), map[]) == s
    ensures IsScan(Tokenize(s))
    ensures PhStrings(Tokenize(s)) == FindAll(s)
    decreases |s|
  {
    TokenizeRender(s);
    TokenizePhStrings(s);
    if s != [] {
      var ts := Tokenize(s);
      match MatchLength(s)
      case Some(n) =>
        MatchLengthSound(s);
        TokenizeIsScan(s[n..]);
        assert ts[1..] == Tokenize(s[n..]);
      case None =>
        TokenizeIsScan(s[1..]);
        assert ts[1..] == Tokenize(s[1..]);
        forall n | 0 < n <= |s|
          ensures !IsPlaceholder(s[..n])
        {
          MatchLengthSpec(s, n);
        }
    }
  }

  /** The scan is the only one: any declarative scan of a text is the one
      `Tokenize` computes, so `FindAll` returns exactly the left-to-right
      non-overlapping matches. */
  lemma {:induction false} ScanIsUnique(ts: seq<Token>)
    requires IsScan(ts)
    ensures Tokenize(Render(ts, map[])) == ts
    decreases |ts|
  {
    if ts != [] {
      var x := Render(ts, map[]);
      var rest := Render(ts[1..], map[]);
      ScanIsUnique(ts[1..]);
      match ts[0]
      case Lit(c) =>
        assert x == [c] + rest;
        if MatchLength(x).Some? {
          MatchLengthSound(x);
          assert false;
        }
        assert x[1..] == rest;
      case Ph(p) =>
        assert x == p + rest;
        MatchLengthComplete(p, x);
        assert x[..|p|] == p && x[|p|..] == rest;
    }
  }

  // ---------------------------------------------------------------------------
  // Facts about markers and original tokens

  predicate IsMarker(v: string) {
    |v| == 13 && v[..12] == MarkerPrefix && IsDigit(v[12])
  }

  predicate MarkerValues(m: map<string, string>) {
    forall p :: p in m ==> IsMarker(m[p])
  }

  lemma MarkerChars(v: string)
    requires IsMarker(v)
    ensures v[0] == 'P'
    ensures forall k :: 0 <= k < 13 ==> v[k] != '%' && v[k] != ')'
    ensures forall k :: 1 <= k < 13 ==> v[k] != 'P'
  {
    assert forall k :: 0 <= k < 12 ==> v[k] == MarkerPrefix[k];
  }

  lemma MarkerIsMarker(i: nat)
    requires i < 10
    ensures IsMarker(Marker(i))
  {
    assert Marker(i)[..12] == MarkerPrefix;
  }

  lemma MarkerDistinct(i: nat, j: nat)
    requires i < 10 && j < 10 && i != j
    ensures Marker(i) != Marker(j)
  {
    if Marker(i) == Marker(j) {
      MarkerInjective(i, j);
    }
  }

  lemma MarkerInjective(i: nat, j: nat)
    requires i < 10 && j < 10
    requires Marker(i) == Marker(j)
    ensures i == j
  {
    assert Marker(i)[12] == DigitChar(i) && Marker(j)[12] == DigitChar(j);
    DigitCharValue(i);
    DigitCharValue(j);
  }

  /** The tokens of a message id that contains neither `%%` nor the marker
      prefix. */
  predicate Original(ts: seq<Token>) {
    && IsScan(ts)
    && !Contains(Render(ts, map[]), "%%")
    && !Contains(Render(ts, map[]), MarkerPrefix)
  }

  /** Placeholders that can occur in such a message id: no `%%`, no marker
      prefix, and a percent sign only in front. */
  predicate Maskable(p: string) {
    && (IsNamed(p) || IsShort(p))
    && !Contains(p, MarkerPrefix)
  }

  lemma MaskableChars(p: string)
    requires Maskable(p)
    ensures p[0] == '%'
    ensures forall k :: 1 <= k < |p| ==> p[k] != '%'
  {
  }

  lemma OriginalTail(ts: seq<Token>)
    requires Original(ts) && ts != []
    ensures Original(ts[1..])
    ensures ts[0].Ph? ==> Maskable(ts[0].p)
    ensures ts[0].Lit? ==> NoPlaceholderPrefix(Render(ts, map[]))
  {
    var a, rest := TokenText(ts[0], map[]), Render(ts[1..], map[]);
    assert Render(ts, map[]) == a + rest;
    ContainsConcat(a, rest, "%%");
    ContainsConcat(a, rest, MarkerPrefix);
    if ts[0].Ph? {
      if ts[0].p == "%%" {
        assert OccursAt(a, "%%", 0);
        assert false;
      }
    }
  }

  lemma {:induction false} OriginalPlaceholders(ts: seq<Token>)
    requires Original(ts)
    ensures forall k :: 0 <= k < |PhStrings(ts)| ==> Maskable(PhStrings(ts)[k])
    decreases |ts|
  {
    if ts != [] {
      OriginalTail(ts);
      OriginalPlaceholders(ts[1..]);
    }
  }

  // ---------------------------------------------------------------------------
  // Where the original and the masked rendering first differ

  ghost function FirstMismatch(x: string, y: string, lo: nat, hi: nat): (d: nat)
    requires lo <= hi
    ensures lo <= d <= hi
    ensures forall k :: lo <= k < d ==> k < |x| && k < |y| && x[k] == y[k]
    ensures d < hi ==> d >= |x| || d >= |y| || x[d] != y[d]
    ensures lo <= |x| && lo <= |y| ==> d <= |x| && d <= |y|
    decreases hi - lo
  {
    if lo == hi || lo >= |x| || lo >= |y| || x[lo] != y[lo] then lo
    else FirstMismatch(x, y, lo + 1, hi)
  }

  lemma DiffAtMarker(a: string, b: string, x': string, y': string, d: nat)
    requires |a| > 0 && a[0] == '%' && IsMarker(b)
    requires d <= |a + x'| && d < |b + y'| && (a + x')[..d] == (b + y')[..d]
    ensures d == 0 && d < |a + x'| && (a + x')[d] == '%'
    ensures d + 12 <= |b + y'| && (b + y')[d..d + 12] == MarkerPrefix
  {
    MarkerChars(b);
    assert (a + x')[0] == '%' && (b + y')[0] == 'P';
    SliceHead(a + x', b + y', d);
    assert (b + y')[0..12] == b[..12];
  }

  lemma SliceHead(u: string, v: string, d: int)
    ensures 0 < d <= |u| && d <= |v| && u[..d] == v[..d] ==> u[0] == v[0]
  {
    if 0 < d <= |u| && d <= |v| && u[..d] == v[..d] {
      assert u[..d][0] == v[..d][0];
    }
  }

  lemma ConcatLeft(a: string, u: string, k: int)
    ensures 0 <= k < |a| ==> (a + u)[k] == a[k]
  {
  }

  lemma DiffAfterCommon(a: string, x': string, y': string, d: nat)
    requires d <= |a + x'| && d < |a + y'| && (a + x')[..d] == (a + y')[..d]
    requires d == |a + x'| || (a + x')[d] != (a + y')[d]
    ensures |a| <= d
    ensures d - |a| <= |x'| && d - |a| < |y'|
    ensures x'[..d - |a|] == y'[..d - |a|]
    ensures d - |a| == |x'| || x'[d - |a|] != y'[d - |a|]
  {
    ConcatLeft(a, x', d);
    ConcatLeft(a, y', d);
    assert x'[..d - |a|] == (a + x')[..d][|a|..];
    assert y'[..d - |a|] == (a + y')[..d][|a|..];
  }

  /** Every placeholder token is a match of the regular expression. */
  predicate PhPlaceholders(ts: seq<Token>) {
    forall k :: 0 <= k < |ts| && ts[k].Ph? ==> IsPlaceholder(ts[k].p)
  }

  lemma PhPlaceholdersTail(ts: seq<Token>)
    requires ts != [] && PhPlaceholders(ts)
    ensures PhPlaceholders(ts[1..])
  {
    forall k | 0 <= k < |ts| - 1 && ts[1..][k].Ph?
      ensures IsPlaceholder(ts[1..][k].p)
    {
      assert ts[1..][k] == ts[k + 1];
    }
  }

  lemma {:induction false} ScanPhPlaceholders(ts: seq<Token>)
    requires IsScan(ts)
    ensures PhPlaceholders(ts)
    decreases |ts|
  {
    if ts != [] {
      ScanPhPlaceholders(ts[1..]);
      assert forall k :: 1 <= k < |ts| ==> ts[k] == ts[1..][k - 1];
    }
  }

  lemma DiffShift(a: string, x': string, y': string, d: nat)
    requires |a| <= d && d - |a| < |x'| && d - |a| + 12 <= |y'|
    ensures (a + x')[d] == x'[d - |a|]
    ensures (a + y')[d..d + 12] == y'[d - |a|..d - |a| + 12]
  {
  }

  /** The first place where the masked rendering departs from the original is
      the start of a masked placeholder: a `%` in the original, a marker in
      the masked text. */
  lemma {:induction false} FirstDiff(ts: seq<Token>, m: map<string, string>, d: nat)
    requires PhPlaceholders(ts) && MarkerValues(m)
    requires d <= |Render(ts, map[])| && d < |Render(ts, m)|
    requires Render(ts, map[])[..d] == Render(ts, m)[..d]
    requires d == |Render(ts, map[])| || Render(ts, map[])[d] != Render(ts, m)[d]
    ensures d < |Render(ts, map[])| && Render(ts, map[])[d] == '%'
    ensures d + 12 <= |Render(ts, m)| && Render(ts, m)[d..d + 12] == MarkerPrefix
    decreases |ts|, 1
  {
    assert ts != [];
    if ts[0].Ph? && ts[0].p in m {
      var a, b := TokenText(ts[0], map[]), TokenText(ts[0], m);
      var x', y' := Render(ts[1..], map[]), Render(ts[1..], m);
      assert Render(ts, map[]) == a + x' && Render(ts, m) == b + y';
      assert IsPlaceholder(ts[0].p);
      DiffAtMarker(a, b, x', y', d);
    } else {
      FirstDiffTail(ts, m, d);
    }
  }

  lemma RenderCons(ts: seq<Token>, m: map<string, string>)
    requires ts != []
    ensures Render(ts, m) == TokenText(ts[0], m) + Render(ts[1..], m)
  {
  }

  lemma UnmaskedToken(t: Token, m: map<string, string>)
    requires t.Lit? || t.p !in m
    ensures TokenText(t, m) == TokenText(t, map[])
  {
  }

  /** `FirstDiff` when the first token reads the same in both renderings. */
  lemma FirstDiffTail(ts: seq<Token>, m: map<string, string>, d: nat)
    requires PhPlaceholders(ts) && MarkerValues(m) && ts != []
    requires ts[0].Lit? || ts[0].p !in m
    requires d <= |Render(ts, map[])| && d < |Render(ts, m)|
    requires Render(ts, map[])[..d] == Render(ts, m)[..d]
    requires d == |Render(ts, map[])| || Render(ts, map[])[d] != Render(ts, m)[d]
    ensures d < |Render(ts, map[])| && Render(ts, map[])[d] == '%'
    ensures d + 12 <= |Render(ts, m)| && Render(ts, m)[d..d + 12] == MarkerPrefix
    decreases |ts|, 0
  {
    var a := TokenText(ts[0], m);
    var x', y' := Render(ts[1..], map[]), Render(ts[1..], m);
    UnmaskedToken(ts[0], m);
    RenderCons(ts, map[]);
    RenderCons(ts, m);
    PhPlaceholdersTail(ts);
    DiffAfterCommon(a, x', y', d);
    FirstDiff(ts[1..], m, d - |a|);
    DiffShift(a, x', y', d);
  }

  // ---------------------------------------------------------------------------
  // One masking step

  /** A placeholder of the message id never matches at a literal `%`: the
      scan found no match there, and masking later placeholders cannot make
      one, since the marker prefix does not occur in the placeholder. */
  lemma LitPercentSafe(ts: seq<Token>, m: map<string, string>, pat: string)
    requires Original(ts) && ts != [] && ts[0] == Lit('%')
    requires MarkerValues(m)
    requires Maskable(pat)
    ensures !(pat <= Render(ts, m))
  {
    var x, y := Render(ts, map[]), Render(ts, m);
    OriginalTail(ts);
    ScanPhPlaceholders(ts);
    if pat <= y {
      var d := FirstMismatch(x, y, 0, |pat|);
      if d == |pat| {
        AgreeSlice(x, y, 0, |pat|);
        assert false;
      }
      AgreeSlice(x, y, 0, d);
      FirstDiff(ts, m, d);
      MarkerInsidePlaceholder(pat, y, d);
      DoublePercent(x);
      assert false;
    }
  }

  lemma DoublePercent(x: string)
    requires |x| >= 2 && x[0] == '%' && x[1] == '%'
    ensures Contains(x, "%%")
  {
    assert OccursAt(x, "%%", 0);
  }

  lemma CommonPrefixBound(a: string, x': string, y': string, d: nat, hi: nat)
    requires |a| <= hi
    requires forall k :: 0 <= k < d ==> k < |a + x'| && k < |a + y'| && (a + x')[k] == (a + y')[k]
    requires d < hi ==> d >= |a + x'| || d >= |a + y'| || (a + x')[d] != (a + y')[d]
    ensures |a| <= d
  {
  }

  /** A marker that begins inside a maskable placeholder at `d` forces the
      placeholder to be `%P`, with the marker starting after the `%`. */
  lemma MarkerInsidePlaceholder(pat: string, y: string, d: nat)
    requires Maskable(pat) && pat <= y && d < |pat|
    requires d + 12 <= |y| && y[d..d + 12] == MarkerPrefix
    ensures IsShort(pat) && d == 1
  {
    assert pat[d] == y[d] == y[d..d + 12][0] == 'P';
    SharedSliceOccurs(pat, y, d);
    SharedChar(pat, y, d, |pat| - 2);
  }

  /** A marker inside the common prefix of `pat` and `y` occurs in `pat`. */
  lemma SharedSliceOccurs(pat: string, y: string, d: int)
    ensures pat <= y && 0 <= d && d + 12 <= |pat| && y[d..d + 12] == MarkerPrefix
      ==> Contains(pat, MarkerPrefix)
  {
    if pat <= y && 0 <= d && d + 12 <= |pat| && y[d..d + 12] == MarkerPrefix {
      assert pat[d..d + 12] == y[d..d + 12];
      assert OccursAt(pat, MarkerPrefix, d);
    }
  }

  /** A character of `pat` that falls inside the marker at `d` of `y`. */
  lemma SharedChar(pat: string, y: string, d: int, e: int)
    ensures pat <= y && 0 <= d < e < d + 12 && e < |pat| && d + 12 <= |y|
      ==> pat[e] == y[d..d + 12][e - d]
  {
  }

  /** If `x` and `y` agree up to `d`, `x` holds no marker prefix, and `y`
      holds one at `d` unless `d` is past `i + 12`, then no marker of `y`
      starts at `i`. */
  lemma StraddleClash(x: string, y: string, pat: string, i: nat, d: nat)
    requires |pat| == 13 && pat[..12] == MarkerPrefix && i < d <= i + 12
    requires d <= |x| && d <= |y| && forall k :: 0 <= k < d ==> x[k] == y[k]
    requires !Contains(x, MarkerPrefix)
    requires d < i + 12 ==> d + 12 <= |y| && y[d..d + 12] == MarkerPrefix
    ensures !OccursAt(y, pat, i)
  {
    if OccursAt(y, pat, i) {
      if d == i + 12 {
        AgreeSlice(x, y, i, i + 12);
        assert y[i..i + 12] == y[i..i + 13][..12];
        assert OccursAt(x, MarkerPrefix, i);
      } else {
        assert y[d] == y[d..d + 12][0];
        MarkerStartsOnce(y, pat, i, d);
      }
    }
  }

  /** Only the first character of a marker is a `P`. */
  lemma MarkerStartsOnce(y: string, pat: string, i: nat, d: nat)
    requires |pat| == 13 && pat[..12] == MarkerPrefix && OccursAt(y, pat, i)
    requires i < d < i + 12
    ensures y[d] != 'P'
  {
    assert y[d] == y[i..i + 13][d - i] == pat[d - i] == MarkerPrefix[d - i];
  }

  /** Replacing a placeholder inside one token. */
  lemma MaskToken(t: Token, m: map<string, string>, pat: string, r: string)
    requires MarkerValues(m) && Maskable(pat)
    requires t.Ph? ==> Maskable(t.p)
    ensures ReplaceAll(TokenText(t, m), pat, r)
      == TokenText(t, if pat in m then m else m[pat := r])
  {
    var m' := if pat in m then m else m[pat := r];
    match t
    case Lit(c) =>
      ReplaceShort([c], pat, r);
    case Ph(p) =>
      if p in m {
        MarkerChars(m[p]);
        ReplaceSkip(m[p], [], pat, r);
        assert m[p] + [] == m[p];
      } else if p == pat {
        assert pat <= p;
        assert p[|pat|..] == [];
      } else {
        MaskableChars(p);
        if Contains(p, pat) {
          var i :| 0 <= i <= |p| - |pat| && OccursAt(p, pat, i);
          if i == 0 {
            assert pat <= p;
            PrefixCode(p, pat, p);
          }
          assert false;
        }
        ReplaceAbsent(p, pat, r);
      }
  }

  /** Masking one placeholder of the message id replaces exactly the tokens
      of that placeholder. */
  lemma {:induction false} MaskStep(ts: seq<Token>, m: map<string, string>, pat: string, r: string)
    requires Original(ts) && MarkerValues(m) && Maskable(pat)
    ensures ReplaceAll(Render(ts, m), pat, r) == Render(ts, if pat in m then m else m[pat := r])
    decreases |ts|
  {
    var m' := if pat in m then m else m[pat := r];
    if ts != [] {
      OriginalTail(ts);
      var a, b := TokenText(ts[0], m), Render(ts[1..], m);
      assert Render(ts, m) == a + b;
      forall i: nat | i < |a| < i + |pat|
        ensures !OccursAt(a + b, pat, i)
      {
        MaskableChars(pat);
        if OccursAt(a + b, pat, i) {
          assert (a + b)[i] == '%';
          match ts[0]
          case Lit(c) =>
            assert c == '%';
            assert pat <= Render(ts, m);
            LitPercentSafe(ts, m, pat);
          case Ph(p) =>
            if p in m {
              MarkerChars(m[p]);
            } else {
              MaskableChars(p);
              assert i == 0;
              assert pat <= p + b;
              PrefixCode(p, pat, p + b);
            }
        }
      }
      ReplaceSplit(a, b, pat, r);
      MaskToken(ts[0], m, pat, r);
      MaskStep(ts[1..], m, pat, r);
    }
  }

  // ---------------------------------------------------------------------------
  // One restoring step

  /** `m` without the placeholders masked by marker `v`. */
  function Unmask(m: map<string, string>, v: string): map<string, string> {
    map p | p in m && m[p] != v :: m[p]
  }

  /** No marker occurrence starts inside an unmasked token and runs past it. */
  lemma UnmaskedNoStraddle(ts: seq<Token>, m: map<string, string>, pat: string, i: nat)
    requires Original(ts) && MarkerValues(m) && ts != []
    requires ts[0].Lit? || ts[0].p !in m
    requires |pat| == 13 && pat[..12] == MarkerPrefix
    requires i < |TokenText(ts[0], m)| < i + 13
    ensures !OccursAt(Render(ts, m), pat, i)
  {
    var x, y := Render(ts, map[]), Render(ts, m);
    var a := TokenText(ts[0], m);
    assert a == TokenText(ts[0], map[]);
    var x', y' := Render(ts[1..], map[]), Render(ts[1..], m);
    assert x == a + x' && y == a + y';
    ScanPhPlaceholders(ts);
    if OccursAt(y, pat, i) {
      var d := FirstMismatch(x, y, 0, i + 12);
      CommonPrefixBound(a, x', y', d, i + 12);
      if d < i + 12 {
        AgreeSlice(x, y, 0, d);
        FirstDiff(ts, m, d);
      }
      StraddleClash(x, y, pat, i, d);
    }
  }

  lemma AgreeSlice(x: string, y: string, lo: int, hi: int)
    requires 0 <= lo <= hi <= |x| && hi <= |y|
    requires forall k :: lo <= k < hi ==> x[k] == y[k]
    ensures x[lo..hi] == y[lo..hi]
  {
    assert forall k :: lo <= k < hi ==> x[lo..hi][k - lo] == x[k] && y[lo..hi][k - lo] == y[k];
  }

  /** Restoring marker `i` inside one token. */
  lemma RestoreToken(t: Token, m: map<string, string>, i: nat, rep: string)
    requires MarkerValues(m) && i < 10
    requires t.Ph? ==> Maskable(t.p)
    requires forall p :: p in m && m[p] == Marker(i) ==> p == rep
    ensures ReplaceAll(TokenText(t, m), Marker(i), rep) == TokenText(t, Unmask(m, Marker(i)))
  {
    var pat := Marker(i);
    MarkerIsMarker(i);
    match t
    case Lit(c) =>
      ReplaceShort([c], pat, rep);
    case Ph(p) =>
      if p in m && m[p] == pat {
        assert pat <= m[p];
        assert m[p][|pat|..] == [];
      } else if p in m {
        assert !Contains(m[p], pat);
        ReplaceAbsent(m[p], pat, rep);
      } else {
        if Contains(p, pat) {
          var k :| 0 <= k <= |p| - |pat| && OccursAt(p, pat, k);
          assert p[k..k + 12] == pat[..12];
          assert OccursAt(p, MarkerPrefix, k);
          assert false;
        }
        ReplaceAbsent(p, pat, rep);
      }
  }

  /** Restoring marker `i` turns back exactly the tokens it masked. */
  lemma {:induction false} RestoreStep(ts: seq<Token>, m: map<string, string>, i: nat, rep: string)
    requires Original(ts) && MarkerValues(m) && i < 10
    requires forall p :: p in m && m[p] == Marker(i) ==> p == rep
    ensures ReplaceAll(Render(ts, m), Marker(i), rep) == Render(ts, Unmask(m, Marker(i)))
    decreases |ts|
  {
    var pat := Marker(i);
    MarkerIsMarker(i);
    if ts != [] {
      OriginalTail(ts);
      var a, b := TokenText(ts[0], m), Render(ts[1..], m);
      assert Render(ts, m) == a + b;
      forall k: nat | k < |a| < k + |pat|
        ensures !OccursAt(a + b, pat, k)
      {
        if ts[0].Ph? && ts[0].p in m {
          MarkerChars(a);
          MarkerChars(pat);
          assert k >= 1;
          assert (a + b)[k] == a[k] != pat[0];
        } else {
          UnmaskedNoStraddle(ts, m, pat, k);
        }
      }
      ReplaceSplit(a, b, pat, rep);
      RestoreToken(ts[0], m, i, rep);
      RestoreStep(ts[1..], m, i, rep);
    }
  }

  // ---------------------------------------------------------------------------
  // The whole loops

  /** Index of the first occurrence of `p` in `found`. */
  function FirstIndex(found: seq<string>, p: string): (j: nat)
    requires p in found
    ensures j < |found| && found[j] == p
    ensures forall k :: 0 <= k < j ==> found[k] != p
  {
    if found[0] == p then 0 else 1 + FirstIndex(found[1..], p)
  }

  /** The masking state after the first `i` replacements: each placeholder
      seen so far reads as the marker of its first occurrence. */
  function MaskMap(found: seq<string>, i: nat): map<string, string>
    requires i <= |found|
  {
    map p | p in found[..i] :: Marker(FirstIndex(found, p))
  }

  /** The state after restoring the markers below `i`. */
  function RestoreMap(found: seq<string>, i: nat): map<string, string> {
    map p | p in found && FirstIndex(found, p) >= i :: Marker(FirstIndex(found, p))
  }

  lemma MaskMapMarkers(found: seq<string>, i: nat)
    requires i <= |found| <= 10
    ensures MarkerValues(MaskMap(found, i))
  {
    forall p | p in MaskMap(found, i)
      ensures IsMarker(MaskMap(found, i)[p])
    {
      MarkerIsMarker(FirstIndex(found, p));
    }
  }

  lemma MaskMapNext(found: seq<string>, i: nat)
    requires i < |found|
    ensures MaskMap(found, i + 1)
      == if found[i] in MaskMap(found, i) then MaskMap(found, i)
         else MaskMap(found, i)[found[i] := Marker(i)]
  {
    assert found[..i + 1] == found[..i] + [found[i]];
    if found[i] !in found[..i] {
      assert FirstIndex(found, found[i]) == i;
    }
  }

  lemma {:induction false} MaskLoop(ts: seq<Token>, found: seq<string>, i: nat)
    requires Original(ts) && i <= |found| <= 10
    requires forall k :: 0 <= k < |found| ==> IsPlaceholder(found[k])
    requires forall k :: 0 <= k < |found| ==> Maskable(found[k])
    ensures MaskFrom(Render(ts, MaskMap(found, i)), found, i) == Render(ts, MaskMap(found, |found|))
    decreases |found| - i
  {
    if i < |found| {
      MaskMapMarkers(found, i);
      MaskStep(ts, MaskMap(found, i), found[i], Marker(i));
      MaskMapNext(found, i);
      MaskLoop(ts, found, i + 1);
    }
  }

  lemma RestoreMapMarkers(found: seq<string>, i: nat)
    requires |found| <= 10
    ensures MarkerValues(RestoreMap(found, i))
  {
    forall p | p in RestoreMap(found, i)
      ensures IsMarker(RestoreMap(found, i)[p])
    {
      MarkerIsMarker(FirstIndex(found, p));
    }
  }

  lemma RestoreMapOwner(found: seq<string>, i: nat)
    requires i < |found| <= 10
    ensures forall p :: p in RestoreMap(found, i) && RestoreMap(found, i)[p] == Marker(i) ==> p == found[i]
  {
    forall p | p in RestoreMap(found, i) && RestoreMap(found, i)[p] == Marker(i)
      ensures p == found[i]
    {
      MarkerInjective(FirstIndex(found, p), i);
    }
  }

  lemma RestoreMapNext(found: seq<string>, i: nat)
    requires i < |found| <= 10
    ensures Unmask(RestoreMap(found, i), Marker(i)) == RestoreMap(found, i + 1)
  {
    var m, m' := RestoreMap(found, i), RestoreMap(found, i + 1);
    var u := Unmask(m, Marker(i));
    forall p | p in found
      ensures p in u <==> p in m'
    {
      var j := FirstIndex(found, p);
      if j != i {
        MarkerDistinct(j, i);
      }
    }
    assert u.Keys == m'.Keys;
  }

  lemma {:induction false} RestoreLoop(ts: seq<Token>, found: seq<string>, i: nat)
    requires Original(ts) && i <= |found| <= 10
    ensures RestoreFrom(Render(ts, RestoreMap(found, i)), found, i) == Render(ts, map[])
    decreases |found| - i
  {
    if i < |found| {
      RestoreMapMarkers(found, i);
      RestoreMapOwner(found, i);
      RestoreStep(ts, RestoreMap(found, i), i, found[i]);
      RestoreMapNext(found, i);
      RestoreLoop(ts, found, i + 1);
    } else {
      assert RestoreMap(found, i) == map[];
    }
  }

  /** What masking produces: every occurrence of a found placeholder reads as
      the marker of its first position in the match list, and every other
      character is kept. */
  lemma MaskIsTokenwise(msgid: string)
    requires !Contains(msgid, "%%") && !Contains(msgid, MarkerPrefix)
    requires |FindAll(msgid)| <= 10
    ensures Mask(msgid) == Render(Tokenize(msgid), MaskMap(FindAll(msgid), |FindAll(msgid)|))
  {
    var ts, found := Tokenize(msgid), FindAll(msgid);
    TokenizeIsScan(msgid);
    OriginalPlaceholders(ts);
    assert MaskMap(found, 0) == map[];
    MaskLoop(ts, found, 0);
  }

  /** Restoring the masked text, untouched by the translator, gives back the
      message id, provided it contains no `%%`, no `PLACEHOLDER_`, and at
      most ten matches. */
  lemma MaskRestoreRoundTrip(msgid: string)
    requires !Contains(msgid, "%%") && !Contains(msgid, MarkerPrefix)
    requires |FindAll(msgid)| <= 10
    ensures Restore(Mask(msgid), FindAll(msgid)) == msgid
  {
    var ts, found := Tokenize(msgid), FindAll(msgid);
    TokenizeIsScan(msgid);
    MaskIsTokenwise(msgid);
    assert MaskMap(found, |found|) == RestoreMap(found, 0) by {
      assert found[..|found|] == found;
    }
    RestoreLoop(ts, found, 0);
  }

  // ---------------------------------------------------------------------------
  // Where the round trip stops

  /** Another marker is passed over whole when restoring marker `i`. */
  lemma MarkerSkip(i: nat, j: nat, rest: string, rep: string)
    requires i < 10 && j < 10 && i != j
    ensures ReplaceAll(Marker(j) + rest, Marker(i), rep) == Marker(j) + ReplaceAll(rest, Marker(i), rep)
  {
    var mi, mj := Marker(i), Marker(j);
    MarkerIsMarker(i);
    MarkerIsMarker(j);
    MarkerDistinct(i, j);
    assert mi[..12] == mj[..12];
    assert mi[12] != mj[12];
    assert (mj + rest)[12] == mj[12];
    assert !(mi <= mj + rest);
    assert mj + rest == [mj[0]] + (mj[1..] + rest);
    ReplaceMiss(mj[0], mj[1..] + rest, mi, rep);
    assert forall k :: 0 <= k < |mj[1..]| ==> mj[1..][k] == mj[k + 1];
    MarkerChars(mj);
    ReplaceSkip(mj[1..], rest, mi, rep);
  }

  /** The scan of `%d%%d%P`: the `%d` inside `%%d` is not a match. */
  lemma ExampleScan()
    ensures FindAll("%d%%d%P") == ["%d", "%%", "%P"]
  {
    assert FindAll("%P") == ["%P"] by {
      assert MatchLength("%P") == Some(2);
      assert "%P"[2..] == [] && "%P"[..2] == "%P";
      assert FindAll([]) == [];
    }
    assert FindAll("d%P") == ["%P"] by {
      assert MatchLength("d%P") == None;
      assert "d%P"[1..] == "%P";
    }
    assert FindAll("%%d%P") == ["%%", "%P"] by {
      assert WordRunEnd("%%d%P", 2) == 3;
      assert MatchLength("%%d%P") == Some(2);
      assert "%%d%P"[2..] == "d%P" && "%%d%P"[..2] == "%%";
    }
    assert WordRunEnd("%d%%d%P", 2) == 2;
    assert MatchLength("%d%%d%P") == Some(2);
    assert "%d%%d%P"[2..] == "%%d%P" && "%d%%d%P"[..2] == "%d";
  }

  /** `%P` is left alone by a pattern other than itself. */
  lemma PercentPKept(pat: string, rep: string)
    requires |pat| == 2 && pat[0] == '%' && pat[1] != 'P'
    ensures ReplaceAll("%P", pat, rep) == "%P"
  {
    assert "%P" == ['%'] + "P";
    assert (['%'] + "P")[1] == 'P';
    ReplaceMiss('%', "P", pat, rep);
    ReplaceShort("P", pat, rep);
  }

  /** Masking `%d` rewrites the hidden `%d` too. */
  lemma ExampleMask0(m0: string)
    ensures ReplaceAll("%d" + ("%" + ("%d" + "%P")), "%d", m0) == m0 + ("%" + (m0 + "%P"))
  {
    PercentPKept("%d", m0);
    ReplaceHit("%P", "%d", m0);
    assert (['%'] + ("%d" + "%P"))[1] == '%';
    ReplaceMiss('%', "%d" + "%P", "%d", m0);
    ReplaceHit("%" + ("%d" + "%P"), "%d", m0);
  }

  /** After that no `%%` is left to mask. */
  lemma ExampleMask1(m0: string, m1: string)
    requires IsMarker(m0)
    ensures ReplaceAll(m0 + ("%" + (m0 + "%P")), "%%", m1) == m0 + ("%" + (m0 + "%P"))
  {
    MarkerChars(m0);
    PercentPKept("%%", m1);
    ReplaceSkip(m0, "%P", "%%", m1);
    assert (['%'] + (m0 + "%P"))[1] == 'P';
    ReplaceMiss('%', m0 + "%P", "%%", m1);
    ReplaceSkip(m0, "%" + (m0 + "%P"), "%%", m1);
  }

  /** Masking `%P` takes the `%` in front of marker 0 and that marker's `P`. */
  lemma ExampleMask2(m0: string, m2: string)
    requires IsMarker(m0)
    ensures ReplaceAll(m0 + ("%" + (m0 + "%P")), "%P", m2) == m0 + (m2 + (m0[1..] + m2))
  {
    MarkerChars(m0);
    var tail := m0[1..];
    assert forall k :: 0 <= k < |tail| ==> tail[k] == m0[k + 1];
    assert ReplaceAll([], "%P", m2) == [];
    ReplaceHit([], "%P", m2);
    assert "%P" + [] == "%P";
    ReplaceSkip(tail, "%P", "%P", m2);
    assert "%" + (m0 + "%P") == "%P" + (tail + "%P");
    ReplaceHit(tail + "%P", "%P", m2);
    ReplaceSkip(m0, "%" + (m0 + "%P"), "%P", m2);
  }

  /** Restoring marker `i` leaves `Marker(j) + tail + Marker(j)` alone. */
  lemma RestoreOther(i: nat, j: nat, tail: string, rep: string)
    requires i < 10 && j < 10 && i != j
    requires forall k :: 0 <= k < |tail| ==> tail[k] != 'P'
    ensures ReplaceAll(Marker(j) + (tail + Marker(j)), Marker(i), rep) == Marker(j) + (tail + Marker(j))
  {
    var mi, mj := Marker(i), Marker(j);
    MarkerIsMarker(i);
    MarkerChars(mi);
    MarkerSkip(i, j, [], rep);
    assert mj + [] == mj;
    ReplaceSkip(tail, mj, mi, rep);
    MarkerSkip(i, j, tail + mj, rep);
  }

  /** Restoring marker `j` in `Marker(j) + tail + Marker(j)`. */
  lemma RestoreOwn(j: nat, tail: string, rep: string)
    requires j < 10
    requires forall k :: 0 <= k < |tail| ==> tail[k] != 'P'
    ensures ReplaceAll(Marker(j) + (tail + Marker(j)), Marker(j), rep) == rep + (tail + rep)
  {
    var mj := Marker(j);
    MarkerIsMarker(j);
    MarkerChars(mj);
    assert ReplaceAll([], mj, rep) == [];
    ReplaceHit([], mj, rep);
    assert mj + [] == mj;
    ReplaceSkip(tail, mj, mj, rep);
    ReplaceHit(tail + mj, mj, rep);
  }

  /** Restoring marker 0 on the masked example, untouched by a translator. */
  lemma ExampleRestore0(tail: string)
    requires forall k :: 0 <= k < |tail| ==> tail[k] != 'P'
    ensures ReplaceAll(Marker(0) + (Marker(2) + (tail + Marker(2))), Marker(0), "%d")
      == "%d" + (Marker(2) + (tail + Marker(2)))
  {
    RestoreOther(0, 2, tail, "%d");
    ReplaceHit(Marker(2) + (tail + Marker(2)), Marker(0), "%d");
  }

  /** Marker 1 (for `%%`) no longer occurs. */
  lemma ExampleRestore1(tail: string)
    requires forall k :: 0 <= k < |tail| ==> tail[k] != 'P'
    ensures ReplaceAll("%d" + (Marker(2) + (tail + Marker(2))), Marker(1), "%%")
      == "%d" + (Marker(2) + (tail + Marker(2)))
  {
    var m1, body := Marker(1), Marker(2) + (tail + Marker(2));
    MarkerIsMarker(1);
    MarkerChars(m1);
    RestoreOther(1, 2, tail, "%%");
    assert forall i :: 0 <= i < |"%d"| ==> "%d"[i] != m1[0];
    ReplaceSkip("%d", body, m1, "%%");
  }

  /** Restoring marker 2 turns both copies into `%P`. */
  lemma ExampleRestore2(tail: string)
    requires forall k :: 0 <= k < |tail| ==> tail[k] != 'P'
    ensures ReplaceAll("%d" + (Marker(2) + (tail + Marker(2))), Marker(2), "%P")
      == "%d" + ("%P" + (tail + "%P"))
  {
    MarkerIsMarker(2);
    MarkerChars(Marker(2));
    RestoreOwn(2, tail, "%P");
    ReplaceSkip("%d", Marker(2) + (tail + Marker(2)), Marker(2), "%P");
  }

  lemma ExampleLiterals()
    ensures "%d%%d%P" == "%d" + ("%" + ("%d" + "%P"))
    ensures Marker(0) == "PLACEHOLDER_0" && Marker(2) == "PLACEHOLDER_2"
    ensures "%d" + ("%P" + ("PLACEHOLDER_0"[1..] + "%P")) == "%d%PLACEHOLDER_0%P"
  {
    assert NatToString(0) == "0" && NatToString(2) == "2";
  }

  /** A literal `%%` hides a `%d` that is not a match; masking `%d` also
      rewrites it, and masking `%P` then eats the first letter of that marker,
      so the message id `%d%%d%P` does not come back. */
  lemma PercentPercentBreaksRoundTrip()
    ensures FindAll("%d%%d%P") == ["%d", "%%", "%P"]
    ensures Restore(Mask("%d%%d%P"), FindAll("%d%%d%P")) == "%d%PLACEHOLDER_0%P"
  {
    var found := ["%d", "%%", "%P"];
    var m0, m1, m2 := Marker(0), Marker(1), Marker(2);
    ExampleScan();
    ExampleLiterals();
    MarkerIsMarker(0);
    MarkerChars(m0);
    var t1 := m0 + ("%" + (m0 + "%P"));
    var t3 := m0 + (m2 + (m0[1..] + m2));
    ExampleMask0(m0);
    ExampleMask1(m0, m1);
    ExampleMask2(m0, m2);
    assert MaskFrom("%d%%d%P", found, 0) == t3;
    assert forall k :: 0 <= k < |m0[1..]| ==> m0[1..][k] == m0[k + 1];
    ExampleRestore0(m0[1..]);
    ExampleRestore1(m0[1..]);
    ExampleRestore2(m0[1..]);
    assert RestoreFrom(t3, found, 0) == "%d" + ("%P" + (m0[1..] + "%P"));
  }

  /** Marker 1 is a prefix of marker 10, so with more than ten matches
      restoring marker 1 also rewrites the front of marker 10. */
  lemma MarkerPrefixCollision()
    ensures Marker(1) <= Marker(10)
    ensures ReplaceAll(Marker(10), Marker(1), "%b") == "%b0"
  {
    assert Marker(10) == "PLACEHOLDER_10" && Marker(1) == "PLACEHOLDER_1";
    assert Marker(10) == Marker(1) + "0";
    ReplaceHit("0", Marker(1), "%b");
    assert ReplaceAll("0", Marker(1), "%b") == "0";
  }
}

=== FILE: processor.dfy ===
/** Translating one catalog file: the per-entry decision (length cut-off,
    masking, cache or translator, restoring), the chunked run over the
    untranslated entries, the rewrite of the catalog, and where the result
    is written.  The translator is a partial function: `None` stands for a
    call that raised.  The package (`po_file_processor.py`) and the
    standalone `main.py` share this model; they differ only in the cache and
    in when the translator is built. */
module Processor {
  import opened Wrappers
  import opened Text
  import opened Placeholders
  import opened Chunking
  import opened Catalog
  import opened Cache
  import opened Config
  import opened Factory
  import opened Paths

  type Translator = string -> Option<string>

  /** `self.config.get("max_msgid_length", 300)`, as the comparison with a
      length sees it: Python compares an int with an int or a bool, and
      raises a type error for anything else. */
  function MaxLength(config: map<string, Json>): (r: Result<int>)
    ensures "max_msgid_length" !in config ==> r == Success(DefaultMaxMsgidLength)
    ensures "max_msgid_length" in config ==>
      (r.Success? <==> config["max_msgid_length"].JInt? || config["max_msgid_length"].JBool?)
    ensures r.Failure? ==> r.error.TypeError?
  {
    if "max_msgid_length" !in config then Success(DefaultMaxMsgidLength)
    else match config["max_msgid_length"]
      case JInt(i) => Success(i)
      case JBool(b) => Success(if b then 1 else 0)
      case _ => Failure(TypeError("'>' not supported between instances of 'int' and the limit"))
  }

  /** The open cache of one worker: the cache directory and its handler. */
  datatype CacheState = CacheState(store: Store, handler: Handler)

  /** The reconnecting handler never holds a dropped connection. */
  predicate Usable(cache: Option<CacheState>) {
    cache.None? || !cache.value.handler.conn.Dropped?
  }

  /** The three configuration fields the cache key is made of, as the
      f-string formats them. */
  function KeyFields(config: map<string, Json>): (r: Result<(string, string, string)>)
    ensures r.Success? <==> "source_lang" in config && "target_lang" in config && "translator" in config
  {
    var source :- Lookup(config, "source_lang");
    var target :- Lookup(config, "target_lang");
    var translator :- Lookup(config, "translator");
    Success((Describe(source), Describe(target), Describe(translator)))
  }

  /** The entry with the restored translation as its `msgstr`. */
  function WithTranslation(entry: Entry, translated: string): (e: Entry)
    ensures e.msgid == entry.msgid && e.translated == entry.translated
  {
    entry.(msgstr := Restore(translated, FindAll(entry.msgid)))
  }

  /** `_translate_entry`: an over-length message id is returned as it is;
      otherwise the masked text is looked up in the cache (when there is
      one), a truthy cached text is used as the translation, and on a miss
      the translator is called and its answer saved under the same four
      fields.  Any failure propagates. */
  function TranslateEntry(entry: Entry, config: map<string, Json>, translate: Translator,
                          cache: Option<CacheState>, env: Env): (r: (Option<CacheState>, Result<Entry>))
    requires Usable(cache)
    ensures Usable(r.0) && (cache.None? <==> r.0.None?)
    ensures r.1.Success? ==> r.1.value.msgid == entry.msgid && r.1.value.translated == entry.translated
  {
    match MaxLength(config)
    case Failure(e) => (cache, Failure(e))
    case Success(limit) =>
      if |entry.msgid| > limit then (cache, Success(entry))
      else
        var masked := Mask(entry.msgid);
        match cache
        case None =>
          (match translate(masked)
           case None => (None, Failure(TranslationFailed(masked)))
           case Some(t) => (None, Success(WithTranslation(entry, t))))
        case Some(c) =>
          match KeyFields(config)
          case Failure(e) => (cache, Failure(e))
          case Success((source, target, name)) =>
            var (s1, h1, hit) := Get(c.store, c.handler, env, source, target, name, masked);
            if hit.Some? && hit.value != "" then (Some(CacheState(s1, h1)), Success(WithTranslation(entry, hit.value)))
            else match translate(masked)
              case None => (Some(CacheState(s1, h1)), Failure(TranslationFailed(masked)))
              case Some(t) =>
                match SaveReconnecting(s1, h1, env, source, target, name, masked, t)
                case Failure(e) => (Some(CacheState(s1, h1)), Failure(e))
                case Success((s2, h2)) => (Some(CacheState(s2, h2)), Success(WithTranslation(entry, t)))
  }

  /** The loop of `_translate_entries_chunk` over its entries, one cache
      threaded through; the first failure ends the chunk. */
  function TranslateEntries(entries: seq<Entry>, config: map<string, Json>, translate: Translator,
                            cache: Option<CacheState>, env: Env): (r: (Option<CacheState>, Result<seq<Entry>>))
    requires Usable(cache)
    ensures Usable(r.0) && (cache.None? <==> r.0.None?)
    ensures r.1.Success? ==> |r.1.value| == |entries|
    ensures r.1.Success? ==> forall k :: 0 <= k < |entries| ==>
      r.1.value[k].msgid == entries[k].msgid && r.1.value[k].translated == entries[k].translated
  {
    if entries == [] then (cache, Success([]))
    else
      var (c1, first) := TranslateEntry(entries[0], config, translate, cache, env);
      match first
      case Failure(e) => (c1, Failure(e))
      case Success(e0) =>
        var (c2, rest) := TranslateEntries(entries[1..], config, translate, c1, env);
        match rest
        case Failure(e) => (c2, Failure(e))
        case Success(es) => (c2, Success([e0] + es))
  }

  /** `_translate_entries_chunk`: build a translator (the package builds one
      per chunk, so a bad configuration fails every chunk), open the cache
      unless it is switched off, and translate the entries in order.
      `store` is `None` when the cache is switched off. */
  function TranslateChunk(chunk: seq<Entry>, config: map<string, Json>, translate: Translator,
                          store: Option<Store>, env: Env): (r: (Option<Store>, Result<seq<Entry>>))
    ensures store.None? <==> r.0.None?
    ensures GetTranslatorInstance(config).Failure? ==> r == (store, Failure(GetTranslatorInstance(config).error))
    ensures r.1.Success? ==> |r.1.value| == |chunk|
    ensures r.1.Success? ==> Msgids(r.1.value) == Msgids(chunk)
    ensures r.1.Success? ==> forall k :: 0 <= k < |chunk| ==> r.1.value[k].translated == chunk[k].translated
  {
    match GetTranslatorInstance(config)
    case Failure(e) => (store, Failure(e))
    case Success(_) =>
      match store
      case None =>
        var (_, res) := TranslateEntries(chunk, config, translate, None, env);
        (None, res)
      case Some(s) =>
        match Open(s, env)
        case Failure(e) => (store, Failure(e))
        case Success(h) =>
          var (c, res) := TranslateEntries(chunk, config, translate, Some(CacheState(s, h)), env);
          (Some(c.value.store), res)
  }

  /** All chunks, one after another; any failure fails the run. */
  function TranslateChunks(chunks: seq<seq<Entry>>, config: map<string, Json>, translate: Translator,
                           store: Option<Store>, env: Env): (r: (Option<Store>, Result<seq<seq<Entry>>>))
    ensures store.None? <==> r.0.None?
    ensures r.1.Success? ==> |r.1.value| == |chunks|
    ensures r.1.Success? ==> MapMsgids(r.1.value) == MapMsgids(chunks)
    ensures r.1.Success? ==> forall k, j :: 0 <= k < |chunks| && 0 <= j < |chunks[k]| ==>
      |r.1.value[k]| == |chunks[k]| && r.1.value[k][j].translated == chunks[k][j].translated
  {
    if chunks == [] then (store, Success([]))
    else
      var (s1, first) := TranslateChunk(chunks[0], config, translate, store, env);
      match first
      case Failure(e) => (s1, Failure(e))
      case Success(r0) =>
        var (s2, rest) := TranslateChunks(chunks[1..], config, translate, s1, env);
        match rest
        case Failure(e) => (s2, Failure(e))
        case Success(rs) =>
          assert MapMsgids([r0] + rs) == [Msgids(r0)] + MapMsgids(rs);
          assert MapMsgids(chunks) == [Msgids(chunks[0])] + MapMsgids(chunks[1..]);
          (s2, Success([r0] + rs))
  }

  /** Where translation stopped: an exception escaping `translate_po_file`
      (`Failure`), nothing to write (`None`: no data, or a chunk failed and
      the error flag is set), or the rewritten catalog. */
  type FileResult = Result<Option<Catalog>>

  /** `translate_po_file`: only when the file has data, the untranslated
      entries are cut into chunks (floor division by `jobs`), a pool of
      `jobs` workers is created (which refuses a count below one), the
      chunks are translated, and on success the catalog is replaced by the
      concatenated results and its metadata updated.  The results are taken
      here in submission order; `CompletionOrder` covers any other. */
  function TranslateFile(input: Input, config: map<string, Json>, jobs: int, translate: Translator,
                         store: Option<Store>, env: Env, author: string): (r: (Option<Store>, FileResult))
    ensures store.None? <==> r.0.None?
    ensures !input.Parsed? ==> r == (store, Success(None))
    ensures input.Parsed? && jobs == 0 ==> r.1 == Failure(ZeroDivisionError)
    ensures input.Parsed? && jobs < 0 ==> r.1.Failure? && r.1.error.ValueError?
  {
    match input
    case Parsed(catalog) =>
      var entries := Untranslated(catalog.entries);
      (match Partition(entries, jobs)
       case Failure(e) => (store, Failure(e))
       case Success(chunks) =>
         if jobs <= 0 then (store, Failure(ValueError("max_workers must be greater than 0")))
         else
           var (s, res) := TranslateChunks(chunks, config, translate, store, env);
           (s, Success(if res.Failure? then None else Some(Rewrite(catalog, res.value, author)))))
    case _ => (store, Success(None))
  }

  // ---------------------------------------------------------------------------
  // Properties of one entry

  /** An over-length message id comes back unchanged, and neither the
      translator nor the cache is consulted. */
  lemma OverLengthUnchanged(entry: Entry, config: map<string, Json>, t1: Translator, t2: Translator,
                            cache: Option<CacheState>, env: Env)
    requires Usable(cache)
    requires MaxLength(config).Success? && |entry.msgid| > MaxLength(config).value
    ensures TranslateEntry(entry, config, t1, cache, env) == (cache, Success(entry))
    ensures TranslateEntry(entry, config, t1, cache, env) == TranslateEntry(entry, config, t2, cache, env)
  {
  }

  /** With a translator that returns its input and no cache, the entry's
      translation is its own message id, as long as the message id has no
      `%%`, no `PLACEHOLDER_` and at most ten placeholders. */
  lemma IdentityRoundTrip(entry: Entry, config: map<string, Json>, env: Env)
    requires MaxLength(config).Success? && |entry.msgid| <= MaxLength(config).value
    requires !Contains(entry.msgid, "%%") && !Contains(entry.msgid, MarkerPrefix)
    requires |FindAll(entry.msgid)| <= 10
    ensures TranslateEntry(entry, config, s => Some(s), None, env).1 == Success(entry.(msgstr := entry.msgid))
  {
    MaskRestoreRoundTrip(entry.msgid);
  }

  /** Without a cache a failing translator fails the entry. */
  lemma TranslatorFailureFails(entry: Entry, config: map<string, Json>, translate: Translator, env: Env)
    requires MaxLength(config).Success? && |entry.msgid| <= MaxLength(config).value
    requires translate(Mask(entry.msgid)).None?
    ensures TranslateEntry(entry, config, translate, None, env).1 == Failure(TranslationFailed(Mask(entry.msgid)))
  {
  }

  /** The cache lookup that `TranslateEntry` makes for an entry. */
  function Lookup4(entry: Entry, config: map<string, Json>, c: CacheState, env: Env): Option<string>
    requires KeyFields(config).Success?
  {
    var (source, target, name) := KeyFields(config).value;
    Get(c.store, c.handler, env, source, target, name, Mask(entry.msgid)).2
  }

  /** A truthy cached text is used as the translation: the translator is not
      consulted. */
  lemma CacheHitSkipsTranslator(entry: Entry, config: map<string, Json>, t1: Translator, t2: Translator,
                                c: CacheState, env: Env)
    requires !c.handler.conn.Dropped?
    requires MaxLength(config).Success? && |entry.msgid| <= MaxLength(config).value
    requires KeyFields(config).Success?
    requires Lookup4(entry, config, c, env).Some? && Lookup4(entry, config, c, env).value != ""
    ensures TranslateEntry(entry, config, t1, Some(c), env).1
      == Success(WithTranslation(entry, Lookup4(entry, config, c, env).value))
    ensures TranslateEntry(entry, config, t1, Some(c), env) == TranslateEntry(entry, config, t2, Some(c), env)
  {
  }

  /** On a miss (or an empty cached text) the translator's answer is saved
      under the masked text and the same three fields: a later lookup
      through the returned cache finds it, unless the save filled the file
      and the handler moved on to the next one. */
  lemma CacheMissSaves(entry: Entry, config: map<string, Json>, translate: Translator, c: CacheState, env: Env)
    requires !c.handler.conn.Dropped?
    requires MaxLength(config).Success? && |entry.msgid| <= MaxLength(config).value
    requires KeyFields(config).Success?
    requires Lookup4(entry, config, c, env).None? || Lookup4(entry, config, c, env) == Some("")
    requires translate(Mask(entry.msgid)).Some?
    ensures var r := TranslateEntry(entry, config, translate, Some(c), env);
      r.1.Success? ==>
        && r.1.value == WithTranslation(entry, translate(Mask(entry.msgid)).value)
        && (CursorFile(r.0.value.handler) == CursorFile(c.handler) ==>
              Lookup4(entry, config, r.0.value, env) == translate(Mask(entry.msgid)))
  {
    var (source, target, name) := KeyFields(config).value;
    var masked := Mask(entry.msgid);
    var g := Get(c.store, c.handler, env, source, target, name, masked);
    var t := translate(masked).value;
    var save := SaveReconnecting(g.0, g.1, env, source, target, name, masked, t);
    var r := TranslateEntry(entry, config, translate, Some(c), env);
    if save.Success? {
      assert r == (Some(CacheState(save.value.0, save.value.1)), Success(WithTranslation(entry, t)));
    } else {
      assert r.1.Failure?;
    }
  }

  /** A cache that agrees with the translator changes nothing: an entry comes
      out as it would without a cache. */
  lemma CacheTransparent(entry: Entry, config: map<string, Json>, translate: Translator, c: CacheState, env: Env)
    requires !c.handler.conn.Dropped?
    requires KeyFields(config).Success?
    requires var hit := Lookup4(entry, config, c, env);
      hit.Some? && hit.value != "" ==> translate(Mask(entry.msgid)) == hit
    ensures var r := TranslateEntry(entry, config, translate, Some(c), env).1;
      r.Success? ==> r == TranslateEntry(entry, config, translate, None, env).1
  {
  }

  // ---------------------------------------------------------------------------
  // Properties of the whole file

  /** Without a cache the chunk is the entries translated one by one: it
      succeeds exactly when every entry does, with their results in order. */
  lemma {:induction false} EntriesAreEntrywise(entries: seq<Entry>, config: map<string, Json>,
                                               translate: Translator, env: Env)
    ensures var r := TranslateEntries(entries, config, translate, None, env).1;
      r.Success? <==> forall k :: 0 <= k < |entries| ==> TranslateEntry(entries[k], config, translate, None, env).1.Success?
    ensures var r := TranslateEntries(entries, config, translate, None, env).1;
      r.Success? ==> forall k :: 0 <= k < |entries| ==> r.value[k] == TranslateEntry(entries[k], config, translate, None, env).1.value
  {
    if entries != [] {
      EntriesAreEntrywise(entries[1..], config, translate, env);
      assert forall k :: 1 <= k < |entries| ==> entries[k] == entries[1..][k - 1];
    }
  }

  /** On success the file holds exactly the previously untranslated entries,
      in order and with their message ids: translated entries are dropped,
      and only the two team headers of the metadata change. */
  lemma FileKeepsUntranslated(input: Input, config: map<string, Json>, jobs: int, translate: Translator,
                              store: Option<Store>, env: Env, author: string)
    requires TranslateFile(input, config, jobs, translate, store, env, author).1.Success?
    requires TranslateFile(input, config, jobs, translate, store, env, author).1.value.Some?
    ensures input.Parsed? && jobs >= 1
    ensures var c := TranslateFile(input, config, jobs, translate, store, env, author).1.value.value;
      && Msgids(c.entries) == Msgids(Untranslated(input.catalog.entries))
      && (forall k :: 0 <= k < |c.entries| ==> !c.entries[k].translated)
      && c.metadata == UpdateMetadata(input.catalog.metadata, author)
  {
    var entries := Untranslated(input.catalog.entries);
    var size := ChunkSize(|entries|, jobs).value;
    var chunks := Chunks(entries, size);
    ChunksPartition(entries, size);
    ChunkResultsFlatten(chunks, config, translate, store, env);
  }

  /** The concatenated chunk results carry the message ids and flags of the
      concatenated chunks. */
  lemma ChunkResultsFlatten(chunks: seq<seq<Entry>>, config: map<string, Json>, translate: Translator,
                            store: Option<Store>, env: Env)
    requires TranslateChunks(chunks, config, translate, store, env).1.Success?
    requires forall k :: 0 <= k < |Flatten(chunks)| ==> !Flatten(chunks)[k].translated
    ensures var results := TranslateChunks(chunks, config, translate, store, env).1.value;
      && Msgids(Flatten(results)) == Msgids(Flatten(chunks))
      && forall k :: 0 <= k < |Flatten(results)| ==> !Flatten(results)[k].translated
  {
    var results := TranslateChunks(chunks, config, translate, store, env).1.value;
    MsgidsFlatten(results);
    MsgidsFlatten(chunks);
    FlattenTranslated(results, chunks);
  }

  /** The flag of every flattened result is the flag of the entry it came
      from. */
  lemma {:induction false} FlattenTranslated(results: seq<seq<Entry>>, chunks: seq<seq<Entry>>)
    requires |results| == |chunks|
    requires forall k, j :: 0 <= k < |chunks| && 0 <= j < |chunks[k]| ==>
      |results[k]| == |chunks[k]| && results[k][j].translated == chunks[k][j].translated
    requires forall k :: 0 <= k < |chunks| ==> |results[k]| == |chunks[k]|
    requires forall k :: 0 <= k < |Flatten(chunks)| ==> !Flatten(chunks)[k].translated
    ensures forall k :: 0 <= k < |Flatten(results)| ==> !Flatten(results)[k].translated
  {
    if results != [] {
      var a, b := results[0], chunks[0];
      assert Flatten(chunks) == b + Flatten(chunks[1..]);
      assert Flatten(results) == a + Flatten(results[1..]);
      forall k | 0 <= k < |Flatten(chunks[1..])|
        ensures !Flatten(chunks[1..])[k].translated
      {
        assert Flatten(chunks)[|b| + k] == Flatten(chunks[1..])[k];
      }
      forall k, j | 0 <= k < |chunks[1..]| && 0 <= j < |chunks[1..][k]|
        ensures |results[1..][k]| == |chunks[1..][k]| && results[1..][k][j].translated == chunks[1..][k][j].translated
      {
        assert results[1..][k] == results[k + 1] && chunks[1..][k] == chunks[k + 1];
      }
      FlattenTranslated(results[1..], chunks[1..]);
      forall k | 0 <= k < |Flatten(results)|
        ensures !Flatten(results)[k].translated
      {
        if k < |a| {
          assert Flatten(results)[k] == a[k];
          assert Flatten(chunks)[k] == b[k];
        } else {
          assert Flatten(results)[k] == Flatten(results[1..])[k - |a|];
        }
      }
    }
  }

  /** The order in which workers complete only reorders the result: any
      rearrangement of the chunk results rewrites the catalog to a
      rearrangement of the same entries, with the same metadata. */
  lemma CompletionOrder(catalog: Catalog, results: seq<seq<Entry>>, completed: seq<seq<Entry>>, author: string)
    requires multiset(completed) == multiset(results)
    ensures multiset(Rewrite(catalog, completed, author).entries) == multiset(Rewrite(catalog, results, author).entries)
    ensures Rewrite(catalog, completed, author).metadata == Rewrite(catalog, results, author).metadata
  {
    FlattenPermutation(completed, results);
  }

  /** Without a cache, one failing entry means nothing is written. */
  lemma OneFailureNoOutput(input: Input, config: map<string, Json>, jobs: int, translate: Translator,
                           env: Env, author: string, e: Entry)
    requires input.Parsed? && jobs >= 1
    requires e in Untranslated(input.catalog.entries)
    requires TranslateEntry(e, config, translate, None, env).1.Failure?
    ensures TranslateFile(input, config, jobs, translate, None, env, author).1 == Success(None)
  {
    var entries := Untranslated(input.catalog.entries);
    var size := ChunkSize(|entries|, jobs).value;
    var chunks := Chunks(entries, size);
    ChunksPartition(entries, size);
    ChunksFailIfOneFails(chunks, config, translate, env, e);
  }

  lemma {:induction false} ChunksFailIfOneFails(chunks: seq<seq<Entry>>, config: map<string, Json>,
                                                translate: Translator, env: Env, e: Entry)
    requires e in Flatten(chunks)
    requires TranslateEntry(e, config, translate, None, env).1.Failure?
    ensures TranslateChunks(chunks, config, translate, None, env).1.Failure?
  {
    assert chunks != [];
    assert Flatten(chunks) == chunks[0] + Flatten(chunks[1..]);
    var (s1, first) := TranslateChunk(chunks[0], config, translate, None, env);
    if e in chunks[0] {
      if GetTranslatorInstance(config).Success? {
        var k :| 0 <= k < |chunks[0]| && chunks[0][k] == e;
        EntriesAreEntrywise(chunks[0], config, translate, env);
      }
    } else if first.Success? {
      ChunksFailIfOneFails(chunks[1..], config, translate, env, e);
    }
  }

  // ---------------------------------------------------------------------------
  // Processing one file: output path, skip rule, write

  /** Which version of the program runs the file. */
  datatype Variant = Package | Standalone

  /** What processing a file did. */
  datatype Outcome =
    | Skipped(path: string)               // the output exists and `force` is off
    | NotWritten                          // nothing to write
    | Written(path: string, catalog: Catalog)
    | Truncated(path: string)             // the legacy script writing `None`

  /** `config['target_lang']` as the output name formats it. */
  function TargetLang(config: map<string, Json>): (r: Result<string>)
    ensures r.Success? <==> "target_lang" in config
  {
    var t :- Lookup(config, "target_lang");
    Success(Describe(t))
  }

  /** `process` followed by `write_output_file`.  Both compute the output
      path the same way (`OutputPath`).  `main.py` builds its translator when
      the processor is created, before anything else; the package builds one
      per chunk and may use the cache (`store` is `None` without it). */
  function Process(variant: Variant, existing: set<string>, filePath: string, input: Input,
                   config: map<string, Json>, outputFolder: string, odoo: bool, jobs: int, force: bool,
                   translate: Translator, store: Option<Store>, env: Env, author: string)
    : (r: (Option<Store>, Result<Outcome>))
    requires variant.Standalone? ==> store.None?
    ensures r.1.Success? && r.1.value.Skipped? ==>
      !force && r.1.value.path in existing && r.0 == store
    ensures r.1.Success? && (r.1.value.Written? || r.1.value.Skipped?) ==>
      TargetLang(config).Success? && r.1.value.path == OutputPath(outputFolder, filePath, TargetLang(config).value, odoo)
    ensures r.1.Success? && r.1.value.Written? ==>
      TranslateFile(input, config, jobs, translate, store, env, author).1 == Success(Some(r.1.value.catalog))
    ensures TargetLang(config).Success? && (variant.Package? || GetTranslatorInstance(config).Success?) ==>
      var path := OutputPath(outputFolder, filePath, TargetLang(config).value, odoo);
      (r == (store, Success(Skipped(path))) <==> !force && path in existing)
  {
    if variant.Standalone? && GetTranslatorInstance(config).Failure? then
      (store, Failure(GetTranslatorInstance(config).error))
    else
      match TargetLang(config)
      case Failure(e) => (store, Failure(e))
      case Success(lang) =>
        var path := OutputPath(outputFolder, filePath, lang, odoo);
        if !ShouldTranslate(force, path in existing) then (store, Success(Skipped(path)))
        else
          var (s, res) := TranslateFile(input, config, jobs, translate, store, env, author);
          match res
          case Failure(e) => (s, Failure(e))
          case Success(None) => (s, Success(NotWritten))
          case Success(Some(c)) => (s, Success(Written(path, c)))
  }

  /** `process` when no output folder was given: `os.path.join(None, …)`
      raises a type error as soon as the output path is computed.  Before
      that, `main.py` has built its translator, and the flat layout has
      looked up `target_lang`. */
  function ProcessWithoutFolder(variant: Variant, config: map<string, Json>, odoo: bool): (r: Result<Outcome>)
    ensures r.Failure?
    ensures variant.Standalone? && GetTranslatorInstance(config).Failure? ==> r == Failure(GetTranslatorInstance(config).error)
    ensures (variant.Package? || GetTranslatorInstance(config).Success?) && (odoo || TargetLang(config).Success?) ==>
      r.error.TypeError?
    ensures (variant.Package? || GetTranslatorInstance(config).Success?) && !odoo && TargetLang(config).Failure? ==>
      r == Failure(TargetLang(config).error)
  {
    if variant.Standalone? && GetTranslatorInstance(config).Failure? then Failure(GetTranslatorInstance(config).error)
    else if !odoo && TargetLang(config).Failure? then Failure(TargetLang(config).error)
    else Failure(TypeError("expected str, bytes or os.PathLike object, not NoneType"))
  }

  /** With or without an output folder, a run fails in the same way up to
      the point where the path is computed. */
  lemma WithoutFolderSameEarlyErrors(variant: Variant, existing: set<string>, filePath: string, input: Input,
                                     config: map<string, Json>, outputFolder: string, odoo: bool, jobs: int,
                                     force: bool, translate: Translator, store: Option<Store>, env: Env, author: string)
    requires variant.Standalone? ==> store.None?
    requires (variant.Standalone? && GetTranslatorInstance(config).Failure?) || (!odoo && TargetLang(config).Failure?)
    ensures ProcessWithoutFolder(variant, config, odoo)
         == Process(variant, existing, filePath, input, config, outputFolder, odoo, jobs, force, translate, store, env, author).1
  {
  }
}

=== FILE: splitter.dfy ===
/** The file splitter: the untranslated entries of a catalog cut into part
    files, with the same chunking as the translator.  The package pads the
    part number with zeros to the width of the requested part count; the
    standalone `main.py` does not. */
module Splitter {
  import opened Wrappers
  import opened Text
  import opened Chunking
  import opened Catalog
  import opened Paths

  /** `len(str(num_split))` */
  function Width(numSplit: int): nat {
    |IntToString(numSplit)|
  }

  /** The number part of a part file's name: `str(i + 1)`, zero-filled in
      the package. */
  function PartNumber(i: nat, numSplit: int, padded: bool): string {
    if padded then ZFill(IntToString(i + 1), Width(numSplit)) else IntToString(i + 1)
  }

  /** `<base>_part_<n>.po` for the part at index `i`. */
  function PartName(fileName: string, i: nat, numSplit: int, padded: bool): string {
    SplitExt(fileName).0 + "_part_" + PartNumber(i, numSplit, padded) + ".po"
  }

  datatype Part = Part(path: string, entries: seq<Entry>)

  /** `split_po_file`: nothing without data; otherwise one part per chunk of
      the untranslated entries, in order, saved under the output folder. */
  function Split(filePath: string, input: Input, numSplit: int, outputFolder: string, padded: bool)
    : (r: Result<seq<Part>>)
    ensures !input.Parsed? ==> r == Success([])
    ensures input.Parsed? ==> (r.Failure? <==> numSplit == 0)
    ensures r.Failure? ==> r.error == ZeroDivisionError
    ensures r.Success? ==> forall i :: 0 <= i < |r.value| ==>
      r.value[i].path == Join(outputFolder, PartName(Basename(filePath), i, numSplit, padded))
  {
    match input
    case Parsed(catalog) =>
      var chunks :- Partition(Untranslated(catalog.entries), numSplit);
      Success(seq(|chunks|, i requires 0 <= i < |chunks| =>
        Part(Join(outputFolder, PartName(Basename(filePath), i, numSplit, padded)), chunks[i])))
    case _ => Success([])
  }

  function PartEntries(parts: seq<Part>): (r: seq<seq<Entry>>)
    ensures |r| == |parts|
    ensures forall i :: 0 <= i < |parts| ==> r[i] == parts[i].entries
  {
    if parts == [] then [] else [parts[0].entries] + PartEntries(parts[1..])
  }

  // ---------------------------------------------------------------------------
  // Properties

  /** The parts partition the untranslated entries, in order: their
      concatenation is exactly those entries, so no translated entry is in
      any part.  Every part is non-empty, all but the last have the chunk
      size, and there are `ceil(n / max(1, n // num_split))` of them. */
  lemma PartsPartition(filePath: string, input: Input, numSplit: int, outputFolder: string, padded: bool)
    requires input.Parsed? && numSplit != 0
    ensures var parts := Split(filePath, input, numSplit, outputFolder, padded).value;
      var entries := Untranslated(input.catalog.entries);
      && Flatten(PartEntries(parts)) == entries
      && |parts| == CeilDiv(|entries|, ChunkSize(|entries|, numSplit).value)
      && (forall i :: 0 <= i < |parts| ==> 1 <= |parts[i].entries|)
      && (forall e :: e in Flatten(PartEntries(parts)) ==> !e.translated)
  {
    var entries := Untranslated(input.catalog.entries);
    var size := ChunkSize(|entries|, numSplit).value;
    var parts := Split(filePath, input, numSplit, outputFolder, padded).value;
    ChunksPartition(entries, size);
    assert PartEntries(parts) == Chunks(entries, size);
  }

  /** More parts than requested: ten untranslated entries split in three
      give four part files. */
  lemma TenEntriesFourParts(filePath: string, input: Input, outputFolder: string, padded: bool)
    requires input.Parsed? && |Untranslated(input.catalog.entries)| == 10
    ensures |Split(filePath, input, 3, outputFolder, padded).value| == 4
  {
    TenEntriesThreeJobs(Untranslated(input.catalog.entries));
  }

  /** A padded part number within the requested count: the digits of the
      part number, zero-filled to exactly the width of the count. */
  lemma PaddedNumber(numSplit: nat, i: nat)
    requires i < numSplit
    ensures |PartNumber(i, numSplit, true)| == |NatToString(numSplit)|
    ensures AllDigits(PartNumber(i, numSplit, true))
    ensures DigitsValue(PartNumber(i, numSplit, true)) == i + 1
  {
    var w := |NatToString(numSplit)|;
    assert PartNumber(i, numSplit, true) == ZFill(NatToString(i + 1), w);
    NatToStringLengthMono(i + 1, numSplit);
    ZFillNat(i + 1, w);
  }

  /** Padded numbers within the requested count sort in numeric order. */
  lemma PaddedNumbersSorted(numSplit: nat, i: nat, j: nat)
    requires i < j < numSplit
    ensures |PartNumber(i, numSplit, true)| == |PartNumber(j, numSplit, true)|
    ensures LexLess(PartNumber(i, numSplit, true), PartNumber(j, numSplit, true))
  {
    PaddedNumber(numSplit, i);
    PaddedNumber(numSplit, j);
    EqualWidthDigitsOrder(PartNumber(i, numSplit, true), PartNumber(j, numSplit, true));
  }

  /** With the package's padding, as long as there are no more parts than
      requested, part names sort in part order. */
  lemma PaddedNamesSorted(fileName: string, numSplit: nat, i: nat, j: nat)
    requires i < j < numSplit
    ensures LexLess(PartName(fileName, i, numSplit, true), PartName(fileName, j, numSplit, true))
  {
    var x, y := PartNumber(i, numSplit, true), PartNumber(j, numSplit, true);
    PaddedNumbersSorted(numSplit, i, j);
    LexLessExtend(x, y, ".po", ".po");
    var p := SplitExt(fileName).0 + "_part_";
    LexLessCommonPrefix(p, x + ".po", y + ".po");
    assert PartName(fileName, i, numSplit, true) == p + (x + ".po");
    assert PartName(fileName, j, numSplit, true) == p + (y + ".po");
  }

  /** Without padding the order breaks at ten parts: part 10 sorts before
      part 2. */
  lemma UnpaddedNamesMisorder(fileName: string)
    ensures LexLess(PartName(fileName, 9, 10, false), PartName(fileName, 1, 10, false))
  {
    var p := SplitExt(fileName).0 + "_part_";
    assert PartNumber(9, 10, false) == "10" by {
      assert NatToString(10) == NatToString(1) + [DigitChar(0)];
    }
    assert PartNumber(1, 10, false) == "2";
    assert LexLess("10.po", "2.po");
    LexLessCommonPrefix(p, "10.po", "2.po");
    assert PartName(fileName, 9, 10, false) == p + "10.po";
    assert PartName(fileName, 1, 10, false) == p + "2.po";
  }

  /** Every padded part number, within the requested count or beyond it,
      is the digits of the part number: zero-filling only ever adds leading
      zeros, and leaves a number wider than the count as it is. */
  lemma PaddedNumberValue(numSplit: int, i: nat)
    ensures AllDigits(PartNumber(i, numSplit, true))
    ensures DigitsValue(PartNumber(i, numSplit, true)) == i + 1
  {
    var w := Width(numSplit);
    assert PartNumber(i, numSplit, true) == ZFill(NatToString(i + 1), w);
    if |NatToString(i + 1)| <= w {
      ZFillNat(i + 1, w);
    } else {
      NatToStringValue(i + 1);
    }
  }

  /** Padded part names are distinct for every pair of parts, including
      the parts beyond the requested count. */
  lemma PaddedNamesDistinct(fileName: string, numSplit: int, i: nat, j: nat)
    requires i != j
    ensures PartName(fileName, i, numSplit, true) != PartName(fileName, j, numSplit, true)
  {
    var x, y := PartNumber(i, numSplit, true), PartNumber(j, numSplit, true);
    PaddedNumberValue(numSplit, i);
    PaddedNumberValue(numSplit, j);
    var p := SplitExt(fileName).0 + "_part_";
    var a, b := PartName(fileName, i, numSplit, true), PartName(fileName, j, numSplit, true);
    assert a == p + x + ".po";
    assert b == p + y + ".po";
    if a == b {
      CommonAffixes(p, x, y, ".po");
      assert false;
    }
  }

  /** Strings that agree around their middles agree in their middles. */
  lemma CommonAffixes(p: string, x: string, y: string, q: string)
    requires p + x + q == p + y + q
    ensures x == y
  {
    var a := p + x + q;
    assert |x| == |y|;
    assert x == a[|p|..|p| + |x|];
  }

  /** The padding is to the width of the requested count, not of the number
      of parts written, so the order still breaks when the split gives more
      parts than requested: seventeen untranslated entries split in nine
      give chunks of one entry and seventeen parts, padded to one digit, and
      part 10 sorts before part 2. */
  lemma PaddedNamesMisorderBeyondCount(filePath: string, input: Input, outputFolder: string)
    requires input.Parsed? && |Untranslated(input.catalog.entries)| == 17
    ensures |Split(filePath, input, 9, outputFolder, true).value| == 17
    ensures LexLess(PartName(Basename(filePath), 9, 9, true), PartName(Basename(filePath), 1, 9, true))
  {
    PartsPartition(filePath, input, 9, outputFolder, true);
    assert ChunkSize(17, 9).value == 1;
    PaddedTenBeforeTwo(Basename(filePath));
  }

  /** With nine parts requested, part 10 is padded to one digit. */
  lemma PaddedTenBeforeTwo(fileName: string)
    ensures LexLess(PartName(fileName, 9, 9, true), PartName(fileName, 1, 9, true))
  {
    var p := SplitExt(fileName).0 + "_part_";
    assert Width(9) == 1;
    assert NatToString(10) == "10" by {
      assert NatToString(10) == NatToString(1) + [DigitChar(0)];
    }
    assert PartNumber(9, 9, true) == "10";
    assert PartNumber(1, 9, true) == "2";
    assert LexLess("10.po", "2.po");
    LexLessCommonPrefix(p, "10.po", "2.po");
    assert PartName(fileName, 9, 9, true) == p + "10.po";
    assert PartName(fileName, 1, 9, true) == p + "2.po";
  }

  lemma {:induction false} LexLessIrreflexive(a: string)
    ensures !LexLess(a, a)
    decreases |a|
  {
    if a != [] {
      LexLessIrreflexive(a[1..]);
    }
  }
}

=== FILE: text.dfy ===
/** String primitives the program relies on from Python's `str`: the `\w`
    character class, substring search, `str.replace`, `str(int)`, `int(str)`,
    `str.zfill`, and the code-point order used to compare file names. */
module Text {
  import opened Wrappers

  /** The regular-expression class `\w`, restricted to ASCII. */
  predicate IsWordChar(c: char) {
    ('a' <= c <= 'z') || ('A' <= c <= 'Z') || ('0' <= c <= '9') || c == '_'
  }

  predicate IsDigit(c: char) {
    '0' <= c <= '9'
  }

  predicate AllDigits(s: string) {
    forall i :: 0 <= i < |s| ==> IsDigit(s[i])
  }

  /** `pat` occurs in `s` at index `i`. */
  predicate OccursAt(s: string, pat: string, i: nat) {
    i + |pat| <= |s| && s[i..i + |pat|] == pat
  }

  /** Python's `pat in s`. */
  predicate Contains(s: string, pat: string) {
    exists i | 0 <= i <= |s| - |pat| :: OccursAt(s, pat, i)
  }

  /** An occurrence in either part is an occurrence in the concatenation. */
  lemma ContainsConcat(a: string, b: string, pat: string)
    ensures Contains(a, pat) ==> Contains(a + b, pat)
    ensures Contains(b, pat) ==> Contains(a + b, pat)
  {
    if Contains(a, pat) {
      var i :| 0 <= i <= |a| - |pat| && OccursAt(a, pat, i);
      assert (a + b)[i..i + |pat|] == a[i..i + |pat|];
      assert OccursAt(a + b, pat, i);
    }
    if Contains(b, pat) {
      var i :| 0 <= i <= |b| - |pat| && OccursAt(b, pat, i);
      assert (a + b)[|a| + i..|a| + i + |pat|] == b[i..i + |pat|];
      assert OccursAt(a + b, pat, |a| + i);
    }
  }

  predicate EndsWith(s: string, suffix: string) {
    |suffix| <= |s| && s[|s| - |suffix|..] == suffix
  }

  // ---------------------------------------------------------------------------
  // str.replace

  /** Python's `s.replace(pat, rep)` for a non-empty `pat`: every leftmost,
      non-overlapping occurrence, scanning left to right, is replaced. */
  function ReplaceAll(s: string, pat: string, rep: string): string
    requires |pat| > 0
    decreases |s|
  {
    if s == [] then []
    else if pat <= s then rep + ReplaceAll(s[|pat|..], pat, rep)
    else [s[0]] + ReplaceAll(s[1..], pat, rep)
  }

  /** Replacing a pattern that does not occur leaves the string unchanged. */
  lemma {:induction false} ReplaceAbsent(s: string, pat: string, rep: string)
    requires |pat| > 0
    requires !Contains(s, pat)
    ensures ReplaceAll(s, pat, rep) == s
    decreases |s|
  {
    if s == [] {
    } else if pat <= s {
      assert OccursAt(s, pat, 0);
      assert false;
    } else {
      forall i | 0 <= i <= |s[1..]| - |pat|
        ensures !OccursAt(s[1..], pat, i)
      {
        if OccursAt(s[1..], pat, i) {
          assert s[1..][i..i + |pat|] == s[i + 1..i + 1 + |pat|];
          assert OccursAt(s, pat, i + 1);
        }
      }
      ReplaceAbsent(s[1..], pat, rep);
    }
  }

  /** A leading stretch without the pattern's first character is copied
      verbatim. */
  lemma {:induction false} ReplaceSkip(a: string, b: string, pat: string, rep: string)
    requires |pat| > 0
    requires forall i :: 0 <= i < |a| ==> a[i] != pat[0]
    ensures ReplaceAll(a + b, pat, rep) == a + ReplaceAll(b, pat, rep)
    decreases |a|
  {
    if a != [] {
      assert (a + b)[0] == a[0];
      assert !(pat <= a + b);
      assert (a + b)[1..] == a[1..] + b;
      ReplaceSkip(a[1..], b, pat, rep);
    } else {
      assert a + b == b;
    }
  }

  /** An occurrence at the front is replaced and the scan resumes after it. */
  lemma ReplaceHit(t: string, pat: string, rep: string)
    requires |pat| > 0
    ensures ReplaceAll(pat + t, pat, rep) == rep + ReplaceAll(t, pat, rep)
  {
    assert (pat + t)[|pat|..] == t;
  }

  /** A character that does not start an occurrence is copied. */
  lemma ReplaceMiss(c: char, t: string, pat: string, rep: string)
    requires |pat| > 0 && !(pat <= [c] + t)
    ensures ReplaceAll([c] + t, pat, rep) == [c] + ReplaceAll(t, pat, rep)
  {
    assert ([c] + t)[1..] == t;
  }

  /** When no occurrence of the pattern starts inside `a` and ends inside `b`,
      replacing in `a + b` is replacing in each part. */
  lemma {:induction false} ReplaceSplit(a: string, b: string, pat: string, rep: string)
    requires |pat| > 0
    requires forall i: nat :: i < |a| < i + |pat| ==> !OccursAt(a + b, pat, i)
    ensures ReplaceAll(a + b, pat, rep) == ReplaceAll(a, pat, rep) + ReplaceAll(b, pat, rep)
    decreases |a|
  {
    var s := a + b;
    if a == [] {
      assert s == b;
    } else if pat <= s {
      assert OccursAt(s, pat, 0);
      assert |pat| <= |a|;
      assert a[..|pat|] == s[..|pat|];
      assert pat <= a;
      var a' := a[|pat|..];
      assert s[|pat|..] == a' + b;
      forall i: nat | i < |a'| < i + |pat|
        ensures !OccursAt(a' + b, pat, i)
      {
        assert !OccursAt(s, pat, i + |pat|);
      }
      ReplaceSplit(a', b, pat, rep);
    } else {
      assert !(pat <= a);
      var a' := a[1..];
      assert s[1..] == a' + b;
      forall i: nat | i < |a'| < i + |pat|
        ensures !OccursAt(a' + b, pat, i)
      {
        if OccursAt(a' + b, pat, i) {
          assert s[1..][i..i + |pat|] == s[i + 1..i + 1 + |pat|];
          assert OccursAt(s, pat, i + 1);
        }
      }
      ReplaceSplit(a', b, pat, rep);
    }
  }

  /** A string shorter than the pattern is left as it is. */
  lemma ReplaceShort(s: string, pat: string, rep: string)
    requires |pat| > 0
    requires |s| < |pat|
    ensures ReplaceAll(s, pat, rep) == s
  {
    ReplaceAbsent(s, pat, rep);
  }

  // ---------------------------------------------------------------------------
  // str(int), int(str), str.zfill

  function DigitChar(d: nat): (c: char)
    requires d < 10
    ensures IsDigit(c)
  {
    "0123456789"[d]
  }

  function DigitValue(c: char): nat
    requires IsDigit(c)
  {
    (c as int - '0' as int) as nat
  }

  lemma DigitCharValue(d: nat)
    requires d < 10
    ensures DigitValue(DigitChar(d)) == d
  {
  }

  /** Python's `str(n)` for a natural number. */
  function NatToString(n: nat): (r: string)
    ensures 1 <= |r|
    ensures AllDigits(r)
    ensures |r| == 1 <==> n < 10
    decreases n
  {
    if n < 10 then [DigitChar(n)] else NatToString(n / 10) + [DigitChar(n % 10)]
  }

  /** Python's `str(n)`. */
  function IntToString(n: int): string {
    if n < 0 then "-" + NatToString(-n) else NatToString(n)
  }

  /** A larger number never has fewer digits. */
  lemma {:induction false} NatToStringLengthMono(a: nat, b: nat)
    requires a <= b
    ensures |NatToString(a)| <= |NatToString(b)|
    decreases b
  {
    if a >= 10 {
      NatToStringLengthMono(a / 10, b / 10);
    }
  }

  /** The number a string of decimal digits denotes. */
  function DigitsValue(s: string): nat
    requires AllDigits(s)
  {
    if s == [] then 0 else DigitsValue(s[..|s| - 1]) * 10 + DigitValue(s[|s| - 1])
  }

  lemma {:induction false} NatToStringValue(n: nat)
    ensures DigitsValue(NatToString(n)) == n
    decreases n
  {
    var r := NatToString(n);
    if n >= 10 {
      NatToStringValue(n / 10);
      assert r[..|r| - 1] == NatToString(n / 10);
    }
  }

  /** Python's `int(s)` for an optional sign followed by ASCII digits. */
  function ParseInt(s: string): (r: Option<int>)
    ensures r.Some? ==> 1 <= |s|
  {
    if |s| >= 1 && (s[0] == '-' || s[0] == '+') then
      var body := s[1..];
      if body != [] && AllDigits(body) then
        var v: int := DigitsValue(body);
        Some(if s[0] == '-' then -v else v)
      else None
    else if s != [] && AllDigits(s) then Some(DigitsValue(s))
    else None
  }

  lemma ParseDigits(t: string)
    requires t != [] && AllDigits(t)
    ensures ParseInt(t) == Some(DigitsValue(t))
  {
    assert IsDigit(t[0]);
  }

  lemma ParseNegative(t: string)
    requires t != [] && AllDigits(t)
    ensures ParseInt("-" + t) == Some(-(DigitsValue(t) as int))
  {
    assert ("-" + t)[0] == '-' && ("-" + t)[1..] == t;
  }

  /** `int(str(n)) == n`: the printed form of an index parses back to it. */
  lemma IntToStringRoundTrip(n: int)
    ensures ParseInt(IntToString(n)) == Some(n)
  {
    var t := NatToString(if n < 0 then -n else n);
    NatToStringValue(if n < 0 then -n else n);
    ParseDigits(t);
    ParseNegative(t);
  }

  function Zeros(k: nat): (z: string)
    ensures |z| == k
    ensures forall i :: 0 <= i < k ==> z[i] == '0'
  {
    if k == 0 then [] else Zeros(k - 1) + "0"
  }

  /** Python's `s.zfill(width)`: pad with '0' on the left, after a leading
      sign, up to `width` characters. */
  function ZFill(s: string, width: int): string {
    if |s| >= width then s
    else if s != [] && (s[0] == '+' || s[0] == '-') then [s[0]] + Zeros(width - |s|) + s[1..]
    else Zeros(width - |s|) + s
  }

  lemma {:induction false} LeadingZerosValue(k: nat, s: string)
    requires AllDigits(s)
    ensures AllDigits(Zeros(k) + s)
    ensures DigitsValue(Zeros(k) + s) == DigitsValue(s)
    decreases |s|
  {
    var t := Zeros(k) + s;
    if s == [] {
      assert t == Zeros(k);
      ZerosValue(k);
    } else {
      var s' := s[..|s| - 1];
      LeadingZerosValue(k, s');
      assert t[..|t| - 1] == Zeros(k) + s';
    }
  }

  lemma {:induction false} ZerosValue(k: nat)
    ensures AllDigits(Zeros(k))
    ensures DigitsValue(Zeros(k)) == 0
  {
    if k > 0 {
      ZerosValue(k - 1);
      assert Zeros(k)[..k - 1] == Zeros(k - 1);
    }
  }

  /** Zero-padding a natural number's digits to a width at least their count
      gives exactly `width` digits that still denote the number. */
  lemma ZFillNat(n: nat, width: nat)
    requires |NatToString(n)| <= width
    ensures |ZFill(NatToString(n), width)| == width
    ensures AllDigits(ZFill(NatToString(n), width))
    ensures DigitsValue(ZFill(NatToString(n), width)) == n
  {
    NatToStringValue(n);
    ZFillDigits(NatToString(n), width);
  }

  lemma ZFillDigits(s: string, width: nat)
    requires s != [] && AllDigits(s) && |s| <= width
    ensures |ZFill(s, width)| == width
    ensures AllDigits(ZFill(s, width))
    ensures DigitsValue(ZFill(s, width)) == DigitsValue(s)
  {
    ZFillUnsigned(s, width);
    if |s| < width {
      LeadingZerosValue(width - |s|, s);
    }
  }

  /** Without a leading sign, `zfill` only prepends zeros. */
  lemma ZFillUnsigned(s: string, width: nat)
    requires s != [] && IsDigit(s[0])
    ensures ZFill(s, width) == if |s| >= width then s else Zeros(width - |s|) + s
  {
  }

  // ---------------------------------------------------------------------------
  // Code-point order of strings (Python's `<` on `str`)

  predicate LexLess(a: string, b: string)
    decreases |a|
  {
    if a == [] then b != []
    else if b == [] then false
    else a[0] < b[0] || (a[0] == b[0] && LexLess(a[1..], b[1..]))
  }

  lemma {:induction false} LexLessCommonPrefix(p: string, a: string, b: string)
    requires LexLess(a, b)
    ensures LexLess(p + a, p + b)
    decreases |p|
  {
    if p != [] {
      assert (p + a)[1..] == p[1..] + a;
      assert (p + b)[1..] == p[1..] + b;
      LexLessCommonPrefix(p[1..], a, b);
    } else {
      assert p + a == a && p + b == b;
    }
  }

  lemma {:induction false} LexLessExtend(a: string, b: string, u: string, v: string)
    requires |a| == |b|
    requires LexLess(a, b)
    ensures LexLess(a + u, b + v)
    decreases |a|
  {
    assert a != [];
    if a[0] == b[0] && !(a[0] < b[0]) {
      assert (a + u)[1..] == a[1..] + u;
      assert (b + v)[1..] == b[1..] + v;
      LexLessExtend(a[1..], b[1..], u, v);
    }
  }

  lemma {:induction false} LexLessLastChar(a: string, c: char, d: char)
    requires c < d
    ensures LexLess(a + [c], a + [d])
    decreases |a|
  {
    if a != [] {
      assert (a + [c])[1..] == a[1..] + [c];
      assert (a + [d])[1..] == a[1..] + [d];
      LexLessLastChar(a[1..], c, d);
    }
  }

  lemma LastDigitSplit(a: nat, b: nat, c: nat, d: nat)
    requires c < 10 && d < 10
    requires a * 10 + c == b * 10 + d
    ensures a == b && c == d
  {
  }

  lemma {:induction false} DigitsValueInjective(x: string, y: string)
    requires |x| == |y| && AllDigits(x) && AllDigits(y)
    requires DigitsValue(x) == DigitsValue(y)
    ensures x == y
    decreases |x|
  {
    if x != [] {
      var x', y' := x[..|x| - 1], y[..|y| - 1];
      var cx, cy := x[|x| - 1], y[|y| - 1];
      assert DigitsValue(x) == DigitsValue(x') * 10 + DigitValue(cx);
      assert DigitsValue(y) == DigitsValue(y') * 10 + DigitValue(cy);
      LastDigitSplit(DigitsValue(x'), DigitsValue(y'), DigitValue(cx), DigitValue(cy));
      DigitsValueInjective(x', y');
      assert x == x' + [cx] && y == y' + [cy];
    }
  }

  /** Among digit strings of one length, numeric order is code-point order. */
  lemma {:induction false} EqualWidthDigitsOrder(x: string, y: string)
    requires |x| == |y| && AllDigits(x) && AllDigits(y)
    requires DigitsValue(x) < DigitsValue(y)
    ensures LexLess(x, y)
    decreases |x|
  {
    var x', y' := x[..|x| - 1], y[..|y| - 1];
    var c, d := x[|x| - 1], y[|y| - 1];
    assert x == x' + [c] && y == y' + [d];
    if DigitsValue(x') < DigitsValue(y') {
      EqualWidthDigitsOrder(x', y');
      LexLessExtend(x', y', [c], [d]);
    } else if DigitsValue(x') == DigitsValue(y') {
      DigitsValueInjective(x', y');
      LexLessLastChar(x', c, d);
    }
  }
}

=== FILE: wrappers.dfy ===
/** Failure-carrying values used throughout the model: `Option` for Python's
    `None`-or-value results and `Result` for operations whose Python original
    can raise. */
module Wrappers {

  datatype Option<+T> = None | Some(value: T) {
    function GetOr(default: T): T {
      match this
      case Some(v) => v
      case None => default
    }
  }

  /** The exceptions the modelled code can raise, by Python class name. */
  datatype Error =
    | KeyError(key: string)
    | ZeroDivisionError
    | ValueError(text: string)
    | TypeError(text: string)
    | AttributeError(attribute: string)
    | FileNotFoundError(path: string)
    | IsADirectoryError(path: string)
    | TranslationFailed(text: string)

  datatype Result<+R> = Success(value: R) | Failure(error: Error) {
    predicate IsFailure() {
      Failure?
    }

    function PropagateFailure<U>(): Result<U>
      requires Failure?
    {
      Failure(error)
    }

    function Extract(): R
      requires Success?
    {
      value
    }
  }
}
